=== FILE: README.md ===
# Called by Name — a Dafny model of the storefront's core

Called by Name sells personalised Gospel books. A buyer gives a name, a gender for the pronouns
(`male`, `female` or `neutral`), a Bible version and a format (digital PDF, softcover, hardcover
or leather). Every verse of the book is then rewritten with that name and those pronouns. This
project models the parts of the system that decide what a buyer gets:

- **The personalisation engine.** The browser's `personalizeText` in `utils/personalization.ts`
  drives the previews. A second copy with its own gender table lives in
  `api/generate-sample.ts`. Both replace six placeholders (`{{NAME}}`, `{{SON_DAUGHTER}}`,
  `{{MY_CHILD}}`, `{{HE_SHE}}`, `{{HIM_HER}}`, `{{HIS_HER}}`) by a chain of global
  `String.prototype.replace` calls.
- **The constant tables** of `constants.tsx`: prices, format labels and the three sample verses.
  Also the verse carousel of the create page.
- **The five serverless handlers**:
  - `create-checkout-session` builds the Stripe Checkout Session.
  - `get-session` shows the order confirmation.
  - `webhook` turns a completed checkout into a fulfilment request.
  - `fulfill-order` sends printed books to Lulu.
  - `generate-sample` personalises a chapter for the free sample.

Each handler is a pure function. Its inputs are the HTTP method, the request body (each JSON
field is `Option<string>`; JavaScript's falsy test is `JsString.Truthy`), the environment
variables it reads (an `Env` datatype) and what each external service answers (an oracle
argument). Its result is an `Outcome`: the status code, the JSON body and the external calls
made, in order.

Module layout:

| file | module | models |
|---|---|---|
| `jsstring.dfy` | `Optional`, `JsString` | `Option`; JavaScript's falsy test and or-defaults, template interpolation, `trim`, `toUpperCase`, `slice(-n)` |
| `replace.dfy` | `Replace` | global replacement: literal (`ReplaceAll`) and with JavaScript's `$` patterns (`JsReplaceAll`) |
| `uri.dfy` | `Uri` | `encodeURIComponent` (UTF-8 percent-encoding) and its decoder |
| `placeholders.dfy` | `Placeholders` | the six placeholders, the replacement chain, templates and their single-pass rendering |
| `personalization.dfy` | `Personalization` | `utils/personalization.ts` |
| `generate_sample.dfy` | `GenerateSample` | `api/generate-sample.ts` |
| `paths.dfy` | `Paths` | Node's POSIX `path.join` from an absolute directory, as `api/generate-sample.ts` uses it |
| `engine_agreement.dfy` | `EngineAgreement` | how the two copies of the engine agree and differ |
| `catalog.dfy`, `verse_text.dfy` | `Catalog`, `VerseText` | `constants.tsx` and the verse carousel of `pages/Create.tsx` |
| `stripe.dfy` | `Stripe` | the fields of a Checkout Session the handlers read |
| `checkout.dfy` | `Checkout` | `api/create-checkout-session.ts` |
| `get_session.dfy` | `GetSession` | `api/get-session.ts` |
| `webhook.dfy` | `Webhook` | `api/webhook.ts` |
| `fulfillment.dfy` | `Fulfillment` | `api/fulfill-order.ts` |
| `order_flow.dfy` | `OrderFlow` | properties of the handlers taken together: checkout → webhook → fulfilment, checkout → confirmation |

Properties of the code worth knowing before reading the model:

- **Re-expansion.** Personalisation is not single-pass: the six replacements run one after
  another, so a name that holds a placeholder is expanded again
  (`Personalization.NameIsExpandedAgain`). The chain equals a single-pass rendering only when
  the template's literal text and the values are brace-free (`Placeholders.ChainOnTemplate`).
- **Elimination.** If the shown name holds no brace and some character that `{{NAME}}` lacks,
  no placeholder survives (`Personalization.Personalize`). Names in capitals such as `JOHN`
  qualify (`Personalization.CapitalNameEliminates`). The name `NAME` does not: it re-forms
  `{{NAME}}` out of `{{{{NAME}}}}` (`Personalization.NameCanReformPlaceholder`).
- **Two tables.** The two copies of the engine keep different gender tables. The preview says
  `my child` for every gender and `hers` for female. The endpoint says `my son`/`my daughter`
  and `her`. `EngineAgreement` states exactly where they differ.
- **Unknown gender.** In `generate-sample` a gender outside the table yields `undefined`.
  Reading a term off it throws, so the request ends in a 500
  (`GenerateSample.UnknownGenderFails`).
- **Error detail.** `fulfill-order` returns the thrown error's message in its 500 body,
  including the status text and error text Lulu answered (`Fulfillment.FailuresCarryMessage`).
- **Unchecked version.** `generate-sample` joins the Bible version into the chapter file's path
  unchecked, so `../../../w` reads `w.json` in the working directory
  (`GenerateSample.ChapterPathEscapes`).

## Model

| member | source | states |
|---|---|---|
| Personalization.GenderTerms | utils/personalization.ts:4-31 | every gender's entry says `my child` for `{{MY_CHILD}}`, whatever the gender |
| Personalization.UnknownGenderIsNeutral | utils/personalization.ts:22-29 | any gender other than `male` or `female` gets exactly the neutral entry |
| Personalization.GenderTermsInert | utils/personalization.ts:4-31 | every term of every entry is brace-free and holds a character outside `[A-Z_]`, so it can never be part of a placeholder |
| Personalization.GenderTermsNoDollar | utils/personalization.ts:4-31 | no term holds `$`, so JavaScript's replacement patterns never act on a term |
| Personalization.DisplayName | utils/personalization.ts:35 | the name shown is never empty |
| Personalization.DisplayNameShape | utils/personalization.ts:35 | the name shown has no surrounding whitespace; it is the fallback `[Your Name]` exactly when the name is all whitespace, and otherwise the trimmed name |
| Personalization.DisplayNameFixed | utils/personalization.ts:35 | a name is shown unchanged if and only if it is non-empty and already trimmed |
| Personalization.PersonalizeUsesTrimmedName | utils/personalization.ts:35 | surrounding whitespace in the name never changes the result |
| Personalization.BlankNameFallsBack | utils/personalization.ts:35 | a blank name personalises exactly as the name `[Your Name]` does |
| Personalization.PersonalizeAsWritten | utils/personalization.ts:33-44 | the code as written (JavaScript replace) returns a text with none of the six placeholders unchanged, and for a name without `$` it equals literal replacement |
| Personalization.DollarNameKeepsPlaceholder | utils/personalization.ts:38 | with the name `$&` the code as written leaves `{{NAME}}` in the text, where literal replacement gives `$&` |
| Personalization.Personalize | utils/personalization.ts:33-44 | with the name inserted literally, a text with none of the six placeholders comes back unchanged, and if the shown name holds no brace and some character `{{NAME}}` lacks, no placeholder survives |
| Personalization.BlankNameEliminates | utils/personalization.ts:35-43 | with a blank name no placeholder survives, for any text |
| Personalization.CapitalNameEliminates | utils/personalization.ts:33-44 | a name in capitals with a letter outside `NAME` is not inert, yet leaves no placeholder behind |
| Personalization.NameCanReformPlaceholder | utils/personalization.ts:38 | the name `NAME` turns `{{{{NAME}}}}` into `{{NAME}}`: elimination needs the name premise |
| Personalization.NameIsExpandedAgain | utils/personalization.ts:38-39 | a name that is itself a placeholder is expanded by the later passes (`{{SON_DAUGHTER}}` as a male name yields `son`) |
| Personalization.PersonalizeTemplate | utils/personalization.ts:37-43 | for a brace-free name and a template whose literal text is brace-free, the six passes equal rendering each placeholder once |
| Placeholders.RulesFor | utils/personalization.ts:37-43 | the chain has six steps that replace the six placeholders in the code's order, the first with the name |
| Placeholders.ChainEliminates | utils/personalization.ts:37-43 | a chain of distinct placeholders with inert values leaves none of its placeholders in any text |
| Placeholders.ChainEliminatesShieldedFirst | utils/personalization.ts:37-43 | the first value need only shield its own placeholder (no brace, some character the placeholder lacks) when the later values are inert: none of the chain's placeholders is left |
| Placeholders.ChainNoNew | utils/personalization.ts:37-43 | with inert values, a placeholder found after the chain is not one of its own and was already in the text |
| Placeholders.ChainAgree | api/generate-sample.ts:40-46 | two chains over the same placeholders with inert values give the same text whenever the placeholders whose values differ do not occur |
| Placeholders.ChainOnTemplate | utils/personalization.ts:37-43 | on a brace-free template with brace-free values, the chain of global replacements equals single-pass rendering |
| Placeholders.ReplaceOnTemplate | utils/personalization.ts:38 | one global replacement over a template's text fills in exactly that placeholder's pieces |
| Placeholders.ChainOnLoneToken | utils/personalization.ts:37-43 | a text that is one placeholder becomes the value of the first step that names it |
| Placeholders.ResolveFirst | utils/personalization.ts:37-43 | a placeholder resolves to the value of the first step that names it |
| Replace.ReplaceAll | utils/personalization.ts:38 | a text without the pattern comes back unchanged |
| Replace.ReplaceAllChangesIffOccurs | utils/personalization.ts:38 | when the value shields the pattern, a global replacement changes the text if and only if the pattern occurs in it |
| Replace.ReplaceAllNoNew | utils/personalization.ts:38-43 | replacing with a value that shields a placeholder creates no new occurrence of it, and removes the replaced one |
| Replace.ReplaceAllSkip | utils/personalization.ts:38 | a prefix in which no match starts is copied through unchanged |
| Replace.Substitution | utils/personalization.ts:38 | a replacement string without `$` is inserted as it is |
| Replace.JsReplaceAllLiteral | utils/personalization.ts:38 | JavaScript's global replace equals literal replacement when the replacement string has no `$` |
| Replace.JsReplaceAllIdentity | utils/personalization.ts:38 | JavaScript's global replace leaves a text without the pattern unchanged, whatever the replacement |
| JsString.Or | api/webhook.ts:38-45 | the or-default of `x` and `d` is `x` when `x` is truthy and `d` otherwise |
| JsString.Interpolate | api/create-checkout-session.ts:80-81 | a missing value is interpolated as `undefined` |
| JsString.TrimInfix | utils/personalization.ts:35 | trimming keeps a contiguous slice and drops only whitespace around it |
| JsString.TrimEmptyIffBlank | utils/personalization.ts:35 | the trimmed name is empty if and only if the name is all whitespace |
| JsString.TrimIdempotent | utils/personalization.ts:35 | trimming twice is trimming once |
| JsString.TrimOmits | utils/personalization.ts:35 | trimming adds no character |
| JsString.ToUpperChars | api/webhook.ts:50 | upper-casing maps each character on its own and keeps the length |
| JsString.SliceLast | api/get-session.ts:33 | `slice(-n)` gives the last `n` characters, or the whole string when it is shorter |
| JsString.UpperSliceLast | api/webhook.ts:50 | slicing then upper-casing is upper-casing then slicing |
| JsString.SliceLastNested | api/get-session.ts:33 | the last `m` characters are the tail of the last `n`, for `m <= n` |
| GenerateSample.ApiTerms | api/generate-sample.ts:32-38 | the endpoint's table has an entry exactly for `male`, `female` and `neutral` |
| GenerateSample.ApiTermsInert | api/generate-sample.ts:32-36 | every term of the endpoint's table is inert |
| GenerateSample.ApiTermsNoDollar | api/generate-sample.ts:32-36 | no term of the endpoint's table holds `$` |
| GenerateSample.PersonalizeAsWritten | api/generate-sample.ts:38-46 | the endpoint's copy as written fails exactly for genders outside its table |
| GenerateSample.Personalize | api/generate-sample.ts:38-46 | the corrected copy fails exactly for genders outside the table |
| GenerateSample.AsWrittenIsLiteral | api/generate-sample.ts:41 | for a name without `$` the copy as written equals the corrected one |
| GenerateSample.NameVerbatim | api/generate-sample.ts:41 | the endpoint does not trim: for any name without `{`, a lone `{{NAME}}` becomes the name exactly as sent |
| GenerateSample.DollarNameKeepsPlaceholder | api/generate-sample.ts:41 | with the name `$&` and a known gender, the copy as written leaves `{{NAME}}` in place where literal insertion gives `$&` |
| GenerateSample.PlainTextUnchanged | api/generate-sample.ts:40-46 | a text with no placeholder comes back unchanged for every known gender |
| GenerateSample.PlaceholdersEliminated | api/generate-sample.ts:40-46 | with a known gender and a name that holds no brace and some character `{{NAME}}` lacks, no placeholder survives |
| GenerateSample.ChapterFile | api/generate-sample.ts:62 | the chapter file's name holds a `/` exactly when the version does |
| GenerateSample.ChapterPath | api/generate-sample.ts:62 | the path read is normalised: no empty, `.` or `..` segment is left in it |
| GenerateSample.ChapterPathInData | api/generate-sample.ts:62 | the file read is `data/matthew-5-<version>.json` under the working directory exactly when the version holds no `/` |
| GenerateSample.ChapterPathEscapes | api/generate-sample.ts:62 | the version `../../../w` reads `w.json` in the working directory, outside `data` |
| Paths.Split | api/generate-sample.ts:62 | a path splits into at least one segment, none holding `/` |
| Paths.JoinSplit | api/generate-sample.ts:62 | joining the segments of a string with `/` gives the string back |
| Paths.SplitJoin | api/generate-sample.ts:62 | splitting segments joined with `/` gives the segments back, when none holds `/` |
| Paths.SplitAppend | api/generate-sample.ts:62 | a `/` between two strings separates their segments |
| Paths.Resolve | api/generate-sample.ts:62 | resolving segments from a normalised directory gives a normalised path, no longer than both together |
| Paths.ResolveAppend | api/generate-sample.ts:62 | resolving two runs of segments one after the other is resolving them together |
| Paths.ResolveOne | api/generate-sample.ts:62 | a named segment goes down one level, `..` goes up one and stays at the root |
| Paths.JoinPath | api/generate-sample.ts:62 | `path.join` on an absolute directory gives a normalised path |
| Paths.JoinSegments | api/generate-sample.ts:62 | joining segments to a directory walks them from the directory's normalised path |
| Paths.JoinBelow | api/generate-sample.ts:62 | a relative path of named segments lands below the directory, in order |
| GenerateSample.SampleFilename | api/generate-sample.ts:161 | the file name is `Matthew-5-`, the name, `-`, the upper-cased version and `.pdf`, in that order |
| GenerateSample.FilenameRecoversName | api/generate-sample.ts:161 | for one version, different names give different file names |
| GenerateSample.PersonalizeVerses | api/generate-sample.ts:120-122 | every verse keeps its number and gets the text the endpoint's `replace` chain (with `$` patterns) makes of it; the chapter fails exactly when it has a verse and the gender is unknown |
| GenerateSample.Handle | api/generate-sample.ts:49-168 | 405 exactly for a method other than POST, 400 exactly for a missing field, no file read on either, and the error bodies of the source |
| GenerateSample.HandleSuccess | api/generate-sample.ts:55-162 | a complete request reads its version's chapter and succeeds exactly when the gender is known or the chapter is empty, naming the file after the buyer and returning every verse with its number and the text the endpoint's `replace` chain makes of it |
| GenerateSample.UnknownGenderFails | api/generate-sample.ts:38-46 | an unknown gender with a non-empty chapter ends in `Failed to generate PDF` |
| EngineAgreement.TableDifferences | api/generate-sample.ts:32-36 | the two tables differ only in `{{MY_CHILD}}` for male and female and in `{{HIS_HER}}` for female |
| EngineAgreement.NeutralAgree | api/generate-sample.ts:35 | for `neutral` and an already-trimmed name the preview and the endpoint give the same text |
| EngineAgreement.GenderedAgree | api/generate-sample.ts:33-34 | for a gendered pronoun set and an inert trimmed name, the two engines agree on any text without the placeholders whose terms differ |
| EngineAgreement.GenderedAgreeAsWritten | api/generate-sample.ts:40-46 | the same agreement for the two copies as written, for a name without `$` |
| EngineAgreement.NameTokenAgreesIff | api/generate-sample.ts:41 | on a lone `{{NAME}}` the two engines agree if and only if the name is already trimmed and non-empty |
| EngineAgreement.MyChildDiffers | api/generate-sample.ts:33 | a lone `{{MY_CHILD}}` is `my child` in the preview and `my son` in the endpoint for male |
| EngineAgreement.HisHerDiffers | api/generate-sample.ts:34 | a lone `{{HIS_HER}}` is `hers` in the preview and `her` in the endpoint for female |
| EngineAgreement.UnknownGenderDiffers | api/generate-sample.ts:38 | for an unknown gender the endpoint fails while the preview falls back to neutral |
| EngineAgreement.NameFormsMyChild | api/generate-sample.ts:41-43 | with the name `MY_CHILD`, `{{{{NAME}}}}` holds no `{{MY_CHILD}}` yet ends as `my son` in one engine and `my child` in the other: the agreement needs its inert-name premise |
| Catalog.FormatName | types.ts:4 | each format's key has a price and a label |
| Catalog.ParseFormat | types.ts:4 | exactly the four format keys parse |
| Catalog.ParseFormatName | types.ts:4 | parsing a format's key gives the format back |
| Catalog.FormatNameParse | types.ts:4 | a parsed key is the format's own key |
| Catalog.TablesCoverFormats | constants.tsx:12-24 | the price and label tables have an entry for exactly the four formats |
| Catalog.SampleTemplateFlattens | constants.tsx:26-42 | each sample verse is a well-formed template: brace-free text around whole placeholders |
| Catalog.SampleVersesTokens | constants.tsx:26-42 | the sample verses use only `{{NAME}}` and `{{SON_DAUGHTER}}` |
| Catalog.SampleVersesRendered | constants.tsx:30-40 | for a name without a brace or `$`, the page's `replace` chain shows each sample verse as its text with the shown name and the `son`/`daughter`/`beloved` term in place |
| Catalog.PreviewOne | pages/Create.tsx:168 | for a name without a brace or `$`, the page's `replace` chain shows a text with one `{{NAME}}` with the display name in its place |
| Catalog.PreviewTwo | pages/Create.tsx:168 | for a name without a brace or `$`, the page's `replace` chain shows a text with `{{NAME}}` and `{{SON_DAUGHTER}}` with the name and the term in place |
| Catalog.NextVerseIndex | pages/Create.tsx:22 | the carousel index always names a sample verse |
| Catalog.VerseCycle | pages/Create.tsx:22 | the carousel moves on at every tick and returns to the same verse after three |
| Catalog.MariaExample | utils/personalization.ts:33-44 | `O {{NAME}}, my {{SON_DAUGHTER}}!` for Maria, female, reads `O Maria, my daughter!` |
| Catalog.BlankExample | utils/personalization.ts:35 | `Dear {{NAME}}.` with an empty name reads `Dear [Your Name].` |
| Checkout.TablesMatchCatalog | api/create-checkout-session.ts:16-28 | the handler's price and label tables are the storefront's |
| Checkout.Lookup | api/create-checkout-session.ts:80-83 | a table lookup finds a value exactly for the table's keys |
| Checkout.BaseUrl | api/create-checkout-session.ts:64-66 | `https://` + `VERCEL_URL` when set, else `NEXT_PUBLIC_APP_URL`, else `http://localhost:3000` |
| Checkout.PronounLabel | api/create-checkout-session.ts:81 | `neutral` is shown as `Beloved`, any other gender as itself |
| Checkout.ShippingOptionsSound | api/create-checkout-session.ts:36-39 | standard shipping costs 599 and express 1299, both in usd; express is dearer and arrives sooner |
| Checkout.LineItemFor | api/create-checkout-session.ts:75-87 | one item in usd, priced exactly when the format has a price, named after the format's label, described by the receipt line |
| Checkout.Description | api/create-checkout-session.ts:81 | the receipt line is `Personalized for "`, the name, a closing quote, then the version's full name from the table (`undefined` for an unknown version), the pronoun label and ` pronouns`, each after a bar between spaces |
| Checkout.DescriptionNamesBuyer | api/create-checkout-session.ts:81 | for a given version and gender, two names give two different receipt lines |
| Checkout.SessionFor | api/create-checkout-session.ts:71-136 | the session holds the one line item, the four metadata fields, the buyer's email and the return URLs; it collects address, shipping and phone if and only if the format is not digital |
| Checkout.LineItemFromCatalog | constants.tsx:12-24 | for a storefront format the buyer is charged the storefront's price under its label |
| Checkout.Handle | api/create-checkout-session.ts:41-146 | 405 for non-POST; 500 without a Stripe key; 400 exactly for a missing field; a session is created exactly for a complete request, and 200 returns its URL; a thrown create, or a body that cannot be destructured, gives 500 `Failed to create checkout session` |
| Checkout.PhysicalSessionShips | api/create-checkout-session.ts:99-136 | a printed format collects an address in the 14 allowed countries, offers both rates and asks for a phone |
| Checkout.DigitalSessionShipsNothing | api/create-checkout-session.ts:68 | a digital order collects no address, offers no shipping and asks no phone |
| GetSession.OrderId | api/get-session.ts:33 | `WN-` and the last six characters of the session id, upper-cased |
| GetSession.OrderOf | api/get-session.ts:32-41 | the confirmation copies the email, total, payment status and the four metadata fields |
| GetSession.Handle | api/get-session.ts:4-47 | 405 for non-GET; 500 without a key; `Missing session_id` exactly for an absent, empty or repeated id; Stripe is asked exactly once otherwise; 200 exactly for a paid session; a thrown retrieval gives 500 `Failed to retrieve session` |
| GetSession.UnpaidRevealsNothing | api/get-session.ts:28-30 | an unpaid session never yields order details |
| GetSession.RepeatedIdRefused | api/get-session.ts:17 | a repeated `session_id` query parameter is refused without asking Stripe |
| Webhook.OrderId | api/webhook.ts:50 | `WN-` and the last eight characters of the session id, upper-cased |
| Webhook.ShippingAddressFor | api/webhook.ts:33-47 | an address is sent exactly for a printed order with shipping details, each field from Stripe or its default |
| Webhook.ShippingCountryNeverEmpty | api/webhook.ts:37-45 | a forwarded address has every field Lulu needs, and a non-empty country |
| Webhook.FulfillmentFor | api/webhook.ts:22-60 | a request is built exactly when the name and format are set; it carries the session's order id, email, and the personalisation with `neutral`/`web` defaults |
| Webhook.FulfillmentUrl | api/webhook.ts:29-31 | the fulfilment endpoint of `VERCEL_URL`, else of the production site |
| Webhook.Handle | api/webhook.ts:81-146 | 405 for non-POST; 500 without both secrets; 400 exactly for a bad signature; otherwise 200, posting fulfilment exactly for a completed checkout with name and format |
| Webhook.RejectedNeverFulfils | api/webhook.ts:103-108 | an event that fails verification is never acknowledged and triggers nothing |
| Webhook.OtherEventsAcknowledged | api/webhook.ts:129-145 | any other verified event is acknowledged and triggers nothing |
| Fulfillment.PodPackagesShape | api/fulfill-order.ts:30-34 | exactly the three printed formats have a Lulu package; leather uses the hardcover package |
| Fulfillment.ApiUrl | api/fulfill-order.ts:39 | `LULU_API_URL`, else Lulu's sandbox |
| Fulfillment.LuluAddressOf | api/fulfill-order.ts:95-104 | a missing or empty country becomes `US`, a missing phone or second line becomes empty, and every other field is passed on as it came, missing or not |
| Fulfillment.PrintJobFor | api/fulfill-order.ts:75-106 | one line item with the order's id + `-item-1`, both PDFs and the package; contact, delay 120 and `MAIL` as in the source |
| Fulfillment.ItemIdExtendsJobId | api/fulfill-order.ts:77-80 | the item id extends the job id, differs from it, and determines it |
| Fulfillment.BookUrlsDifferInType | api/fulfill-order.ts:170-175 | the interior and cover URLs differ only in `type`; a name that is present is encoded without `&` and decodes to its UTF-8 |
| Fulfillment.EmptyPersonalizationUrl | api/fulfill-order.ts:174-175 | an empty personalisation object asks for the book as if its name, gender and version were each the word `undefined`, which the name's encoding leaves as it is |
| Fulfillment.PrintCall | api/fulfill-order.ts:108-116 | the print job goes to `/print-jobs/` with the bearer token, the order's id and the package |
| Fulfillment.SubmitOrder | api/fulfill-order.ts:36-193 | no call without credentials; the token request comes first; the job is sent exactly after a good token; 200 exactly when Lulu accepts it, answering the job's id and status name (`CREATED` when missing); else a 500 with a message, the thrown one when a fetch throws |
| Fulfillment.Dispatch | api/fulfill-order.ts:147-160 | digital orders are queued without calls; a format without a package is refused without calls |
| Fulfillment.Handle | api/fulfill-order.ts:126-202 | 405 for non-POST; `Missing required fields` exactly when one of the five fields is missing; calls only for complete orders with a package; a complete printed order with a package gets exactly what `SubmitOrder` answers; a body that cannot be destructured gives a 500 without a message |
| Fulfillment.FailuresCarryMessage | api/fulfill-order.ts:41-59 | missing credentials, a refused token and a refused job each give a 500 carrying the source's message |
| Fulfillment.UnsupportedFormatNoCalls | api/fulfill-order.ts:157-160 | an unknown format is refused with its name and nothing is called |
| Fulfillment.PhysicalOrderCalls | api/fulfill-order.ts:157-185 | a printed order with credentials asks for a token, then submits the order's job with its package, PDFs and address |
| Fulfillment.HandleCorrected | api/fulfill-order.ts:142-154 | with the address demanded only of printed orders, `Missing required fields` is answered exactly for incomplete orders |
| Fulfillment.CorrectedHandlerAgrees | api/fulfill-order.ts:142-154 | the corrected handler queues digital orders and behaves as the original whenever an address is sent or the format is printed |
| OrderFlow.OrderIdsAgreeIff | api/webhook.ts:50 | the webhook's and the confirmation page's order ids are equal if and only if the session id has at most six characters |
| OrderFlow.OrderIdsShareTail | api/get-session.ts:33 | both ids start `WN-` and the confirmation's id is a tail of the webhook's |
| OrderFlow.ConfirmationShowsCheckout | api/get-session.ts:35-38 | the confirmation shows the name, gender, format and version given at checkout |
| OrderFlow.FulfilmentMatchesCheckout | api/webhook.ts:49-60 | the fulfilment request carries the name, gender, version and format given at checkout |
| OrderFlow.PhysicalOrderReachesLulu | api/fulfill-order.ts:142-160 | a printed order bought with an address passes fulfilment validation and has a package |
| OrderFlow.DigitalOrderRejected | api/fulfill-order.ts:142-144 | every paid digital order forwarded by the webhook is refused with `Missing required fields` |
| OrderFlow.DigitalOrderQueuedWhenCorrected | api/fulfill-order.ts:147-154 | with the corrected check, the same order is queued for email delivery |
| Uri.EncodeSafe | api/fulfill-order.ts:174 | an encoded name holds only unreserved characters and `%`, and none of `&=#?+ /` |
| Uri.EncodeUnreserved | api/fulfill-order.ts:174 | a name of unreserved characters is left as it is |
| Uri.DecodeEncode | api/fulfill-order.ts:174 | decoding an encoded name gives its UTF-8 bytes |
| Uri.HexRoundTrip | api/fulfill-order.ts:174 | each hex digit reads back as its value |
| Uri.Utf8 | api/fulfill-order.ts:174 | a character encodes to one to four bytes, and to itself exactly when it is ASCII |

## Left out

- The PDF itself (`jsPDF` layout, fonts, page breaks, base64 output) in `generate-sample`. The
  model returns the personalised verses and the file name that the PDF is built from.
- Reading and parsing the chapter file. The file system is an oracle: the handler gets the
  parsed chapter, or `None` when reading or parsing throws. `process.cwd()` is a parameter.
- GenerateSample.ChapterPath: the working directory is taken to be absolute, as `process.cwd()`
  gives it. `path.join`'s handling of a relative first part and of a trailing `/` is not
  modelled, and the path is given as its segments from the root.
- The Stripe SDK: session creation and retrieval, and `constructEvent`'s signature check. These
  are oracle arguments, and so is the `buffer` helper that reads the raw body.
- The network: each `fetch` to Lulu and to the fulfilment endpoint is a recorded call plus an
  oracle reply. The webhook's handling of the fulfilment reply is only logging, so it is not
  modelled.
- Console logging in every handler.
- The React pages other than the verse carousel and the preview calls of `pages/Create.tsx`.
  `Math.random` and timers are left out.
- Keys on `Object.prototype` (`constructor`, `toString`, …) used as format, gender or version
  keys. Table lookups are modelled as map lookups, which find only the listed keys.
- JsString.ToUpper: upper-cases ASCII letters only. Session ids and Bible version keys are
  ASCII, and JavaScript's full Unicode case mapping is not modelled.
- GenerateSample.Handle: the message of a JavaScript runtime error is not modelled. It is a
  500 with the source's fixed body, and the model does not say which statement threw.
- Fulfillment.Handle: a body that cannot be destructured gives `Failure(None)`, because its
  message is worded by the JavaScript engine.
- Fulfillment.Handle: a name holding a lone UTF-16 surrogate makes `encodeURIComponent` throw a
  URIError, which the handler answers with a 500 `URI malformed`. Dafny strings hold Unicode
  scalar values only, so such a name cannot be written down.
- Fulfillment.Handle: a `null` field of `personalization` or `shippingAddress` is modelled as a
  missing one, although a template literal prints `null` for it and `JSON.stringify` keeps a
  `null` key in the Lulu address where it drops a missing one.
- Catalog.PreviewOne: stated for names without `$`. A name with `$` is expanded by the page's
  `replace` chain (`Personalization.DollarNameKeepsPlaceholder`), and no preview is stated for it.
- Catalog.PreviewTwo: stated for names without `$`, for the same reason as `PreviewOne`.
- Catalog.SampleVersesRendered: stated for names without `$`, for the same reason as `PreviewOne`.
- Every JSON field of a request body is a string or missing. A number, boolean, object or array
  where a string is expected (a numeric `name`, say) is not modelled: `trim` on it throws, and
  `encodeURIComponent` and template literals print it in their own way.
- Fulfillment.Dispatch: states the outcome fully for digital and unsupported formats; for
  printed formats it defers to `SubmitOrder`.
- Webhook.FulfillmentFor: `customer_email` is passed through as Stripe gives it, null
  included; JSON serialisation of the request is not modelled.

## Findings

| source | as written | input that shows it | evidently intended | confidence | as-written member | corrected member |
|---|---|---|---|---|---|---|
| utils/personalization.ts:38 | the buyer's name is passed to `String.prototype.replace` as a replacement string, so `$&`, `` $` ``, `$'` and `$$` in a name are expanded | name `$&`, text `{{NAME}}`: the result is `{{NAME}}` rather than `$&` | the name inserted literally, e.g. through a replacer function | high (not executed) | Personalization.DollarNameKeepsPlaceholder | Personalization.Personalize |
| api/generate-sample.ts:41 | the endpoint's copy passes the name as a replacement string in the same way | name `$&` with any known gender | the name inserted literally | high (not executed) | GenerateSample.DollarNameKeepsPlaceholder | GenerateSample.AsWrittenIsLiteral |
| api/fulfill-order.ts:142-144 | `shippingAddress` is demanded of every order before the digital branch, and the webhook (api/webhook.ts:34-47) sends `null` for digital orders | any paid checkout with format `digital` | digital orders queued for email delivery, as the branch at lines 147-154 intends | high (not executed) | OrderFlow.DigitalOrderRejected | OrderFlow.DigitalOrderQueuedWhenCorrected |

=== FILE: catalog.dfy ===
/**
  The storefront's constant tables, constants.tsx: prices and labels of the four product formats
  (types.ts `ProductFormat`) and the three sample verses the create page cycles through.
 */
module Catalog {
  import opened Optional
  import opened JsString
  import opened Replace
  import opened Placeholders
  import UI = Personalization
  import opened VerseText

  datatype Format = Digital | Softcover | Hardcover | Leather

  /** The string a format travels as in requests and metadata. */
  function FormatName(f: Format): (n: string)
    ensures n != [] && n in Pricing && n in FormatLabels
  {
    match f
    case Digital => "digital"
    case Softcover => "softcover"
    case Hardcover => "hardcover"
    case Leather => "leather"
  }

  function ParseFormat(s: string): (f: Option<Format>)
    ensures f.Some? <==> s in {"digital", "softcover", "hardcover", "leather"}
  {
    if s == "digital" then Some(Digital)
    else if s == "softcover" then Some(Softcover)
    else if s == "hardcover" then Some(Hardcover)
    else if s == "leather" then Some(Leather)
    else None
  }

  lemma ParseFormatName(f: Format)
    ensures ParseFormat(FormatName(f)) == Some(f)
  {
  }

  lemma FormatNameParse(s: string)
    requires ParseFormat(s).Some?
    ensures FormatName(ParseFormat(s).value) == s
  {
  }

  /** `PRICING`, in US cents. */
  const Pricing: map<string, int> :=
    map["digital" := 2499, "softcover" := 3999, "hardcover" := 5999, "leather" := 8999]

  /** `FORMAT_LABELS`. */
  const FormatLabels: map<string, string> :=
    map["digital" := "Digital Download (PDF)", "softcover" := "Softcover Edition",
        "hardcover" := "Hardcover Edition", "leather" := "Premium Leather Bound"]

  /** Both tables have an entry for every format and for nothing else. */
  lemma TablesCoverFormats()
    ensures forall f: Format :: FormatName(f) in Pricing && FormatName(f) in FormatLabels
    ensures forall s :: s in Pricing <==> ParseFormat(s).Some?
    ensures forall s :: s in FormatLabels <==> ParseFormat(s).Some?
  {
    forall f: Format ensures FormatName(f) in Pricing && FormatName(f) in FormatLabels {
      match f
      case Digital =>
      case Softcover =>
      case Hardcover =>
      case Leather =>
    }
  }

  // ---------------------------------------------------------------------------------------------
  // The sample verses

  datatype VerseSample = VerseSample(id: string, reference: string, text: string)

  /** `SAMPLE_VERSES`. */
  const SampleVerses: seq<VerseSample> := [
    VerseSample("matthew-5-14", "Matthew 5:14-16",
      Matthew5Before + NameToken + Matthew5Middle + SonDaughterToken + Matthew5After),
    VerseSample("john-15-9", "John 15:9",
      John15Before + NameToken + John15After),
    VerseSample("matthew-11-28", "Matthew 11:28",
      Matthew11Before + NameToken + Matthew11Middle + SonDaughterToken + Matthew11After)
  ]

  /** The sample verses as templates of literal text and placeholders. */
  function SampleTemplate(i: nat): (ps: seq<Piece>)
    requires i < |SampleVerses|
    ensures |ps| in {3, 5}
  {
    if i == 0 then
      [Lit(Matthew5Before), Tok(NameToken), Lit(Matthew5Middle), Tok(SonDaughterToken), Lit(Matthew5After)]
    else if i == 1 then
      [Lit(John15Before), Tok(NameToken), Lit(John15After)]
    else
      [Lit(Matthew11Before), Tok(NameToken), Lit(Matthew11Middle), Tok(SonDaughterToken), Lit(Matthew11After)]
  }

  lemma Flatten3(a: string, t: string, b: string)
    ensures Flatten([Lit(a), Tok(t), Lit(b)]) == a + t + b
  {
    var ps := [Lit(a), Tok(t), Lit(b)];
    assert ps[1..] == [Tok(t), Lit(b)] && ps[1..][1..] == [Lit(b)] && ps[1..][1..][1..] == [];
    assert Flatten([Lit(b)]) == b + [] == b;
    assert Flatten(ps[1..]) == t + b;
  }

  lemma Flatten5(a: string, t: string, b: string, u: string, c: string)
    ensures Flatten([Lit(a), Tok(t), Lit(b), Tok(u), Lit(c)]) == a + t + b + u + c
  {
    var ps := [Lit(a), Tok(t), Lit(b), Tok(u), Lit(c)];
    assert ps[1..] == [Tok(t), Lit(b), Tok(u), Lit(c)] && ps[1..][1..] == [Lit(b), Tok(u), Lit(c)];
    Flatten3(b, u, c);
    assert Flatten(ps[1..]) == t + (b + u + c);
  }

  lemma Render3(a: string, t: string, b: string, rules: seq<Rule>)
    ensures Render([Lit(a), Tok(t), Lit(b)], rules) == a + Resolve(rules, t) + b
  {
    var ps := [Lit(a), Tok(t), Lit(b)];
    assert ps[1..] == [Tok(t), Lit(b)] && ps[1..][1..] == [Lit(b)] && ps[1..][1..][1..] == [];
    assert Render([Lit(b)], rules) == b + [] == b;
    assert Render(ps[1..], rules) == Resolve(rules, t) + b;
  }

  lemma Render5(a: string, t: string, b: string, u: string, c: string, rules: seq<Rule>)
    ensures Render([Lit(a), Tok(t), Lit(b), Tok(u), Lit(c)], rules) ==
              a + Resolve(rules, t) + b + Resolve(rules, u) + c
  {
    var ps := [Lit(a), Tok(t), Lit(b), Tok(u), Lit(c)];
    assert ps[1..] == [Tok(t), Lit(b), Tok(u), Lit(c)] && ps[1..][1..] == [Lit(b), Tok(u), Lit(c)];
    Render3(b, u, c, rules);
    assert Render(ps[1..], rules) == Resolve(rules, t) + (b + Resolve(rules, u) + c);
  }

  lemma Template3Ok(a: string, t: string, b: string)
    requires '{' !in a && '{' !in b && IsToken(t)
    ensures TemplateOk([Lit(a), Tok(t), Lit(b)])
  {
    var ps := [Lit(a), Tok(t), Lit(b)];
    assert PieceOk(ps[0]) && PieceOk(ps[1]) && PieceOk(ps[2]);
  }

  lemma Template5Ok(a: string, t: string, b: string, u: string, c: string)
    requires '{' !in a && '{' !in b && '{' !in c && IsToken(t) && IsToken(u)
    ensures TemplateOk([Lit(a), Tok(t), Lit(b), Tok(u), Lit(c)])
  {
    var ps := [Lit(a), Tok(t), Lit(b), Tok(u), Lit(c)];
    assert PieceOk(ps[0]) && PieceOk(ps[1]) && PieceOk(ps[2]) && PieceOk(ps[3]) && PieceOk(ps[4]);
  }

  /** Each sample verse is its template: brace-free literal text around whole placeholders. */
  lemma SampleTemplateFlattens(i: nat)
    requires i < |SampleVerses|
    ensures TemplateOk(SampleTemplate(i))
    ensures Flatten(SampleTemplate(i)) == SampleVerses[i].text
  {
    if i == 0 {
      Matthew5Template();
    } else if i == 1 {
      John15Template();
    } else {
      Matthew11Template();
    }
  }

  lemma Matthew5Template()
    ensures TemplateOk(SampleTemplate(0)) && Flatten(SampleTemplate(0)) == SampleVerses[0].text
  {
    NameIsToken();
    SonDaughterIsToken();
    BraceFreeMatthew5();
    Template5Ok(Matthew5Before, NameToken, Matthew5Middle, SonDaughterToken, Matthew5After);
    Flatten5(Matthew5Before, NameToken, Matthew5Middle, SonDaughterToken, Matthew5After);
  }

  lemma John15Template()
    ensures TemplateOk(SampleTemplate(1)) && Flatten(SampleTemplate(1)) == SampleVerses[1].text
  {
    NameIsToken();
    BraceFreeJohn15();
    Template3Ok(John15Before, NameToken, John15After);
    Flatten3(John15Before, NameToken, John15After);
  }

  lemma Matthew11Template()
    ensures TemplateOk(SampleTemplate(2)) && Flatten(SampleTemplate(2)) == SampleVerses[2].text
  {
    NameIsToken();
    SonDaughterIsToken();
    BraceFreeMatthew11();
    Template5Ok(Matthew11Before, NameToken, Matthew11Middle, SonDaughterToken, Matthew11After);
    Flatten5(Matthew11Before, NameToken, Matthew11Middle, SonDaughterToken, Matthew11After);
  }

  /** The sample verses use `{{NAME}}` and `{{SON_DAUGHTER}}` and no other placeholder. */
  lemma SampleVersesTokens(i: nat)
    requires i < |SampleVerses|
    ensures forall k :: 2 <= k < |AllTokens| ==> !Occurs(AllTokens[k], SampleVerses[i].text)
  {
    var ps := SampleTemplate(i);
    SampleTemplateFlattens(i);
    SampleTemplateTokens(i);
    OnlyFirstTwoTokens(ps);
  }

  /** The placeholders of a sample template are `{{NAME}}` and `{{SON_DAUGHTER}}`. */
  lemma SampleTemplateTokens(i: nat)
    requires i < |SampleVerses|
    ensures forall j :: 0 <= j < |SampleTemplate(i)| && SampleTemplate(i)[j].Tok? ==>
              SampleTemplate(i)[j].token == AllTokens[0] || SampleTemplate(i)[j].token == AllTokens[1]
  {
  }

  /** A template whose placeholders are all `{{NAME}}` or `{{SON_DAUGHTER}}` holds none of the other four. */
  lemma OnlyFirstTwoTokens(ps: seq<Piece>)
    requires TemplateOk(ps)
    requires forall j :: 0 <= j < |ps| && ps[j].Tok? ==> ps[j].token == AllTokens[0] || ps[j].token == AllTokens[1]
    ensures forall k :: 2 <= k < |AllTokens| ==> !Occurs(AllTokens[k], Flatten(ps))
  {
    AllTokensAreTokens();
    AllTokensDistinct();
    forall k | 2 <= k < |AllTokens| ensures !Occurs(AllTokens[k], Flatten(ps)) {
      assert Tok(AllTokens[k]) !in ps;
      TemplateOccurs(ps, AllTokens[k]);
    }
  }

  /**
    Previewing `a{{NAME}}b` with the page's own `replace` chain: the display name between the two
    brace-free pieces, for a name without `$`.
   */
  lemma PreviewOne(a: string, b: string, name: string, gender: string)
    requires '{' !in a && '{' !in b && '{' !in name && '$' !in name
    ensures UI.PersonalizeAsWritten(a + NameToken + b, name, gender) == a + UI.DisplayName(name) + b
  {
    var ps := [Lit(a), Tok(NameToken), Lit(b)];
    var rules := UI.Rules(name, gender);
    NameIsToken();
    TrimOmits(name, '{');
    Template3Ok(a, NameToken, b);
    Flatten3(a, NameToken, b);
    UI.PersonalizeTemplate(ps, name, gender);
    assert UI.Personalize(a + NameToken + b, name, gender) == Render(ps, rules);
    Render3(a, NameToken, b, rules);
    NameResolves(name, gender);
  }

  /**
    Previewing `a{{NAME}}b{{SON_DAUGHTER}}c` with the page's own `replace` chain: the display name
    and the son/daughter term in place, for a name without `$`.
   */
  lemma PreviewTwo(a: string, b: string, c: string, name: string, gender: string)
    requires '{' !in a && '{' !in b && '{' !in c && '{' !in name && '$' !in name
    ensures UI.PersonalizeAsWritten(a + NameToken + b + SonDaughterToken + c, name, gender)
              == a + UI.DisplayName(name) + b + UI.GenderTerms(gender).sonDaughter + c
  {
    var ps := [Lit(a), Tok(NameToken), Lit(b), Tok(SonDaughterToken), Lit(c)];
    var rules := UI.Rules(name, gender);
    NameIsToken();
    SonDaughterIsToken();
    TrimOmits(name, '{');
    Template5Ok(a, NameToken, b, SonDaughterToken, c);
    Flatten5(a, NameToken, b, SonDaughterToken, c);
    UI.PersonalizeTemplate(ps, name, gender);
    assert UI.Personalize(a + NameToken + b + SonDaughterToken + c, name, gender) == Render(ps, rules);
    Render5(a, NameToken, b, SonDaughterToken, c, rules);
    NameResolves(name, gender);
  }

  /** In the preview's steps, `{{NAME}}` resolves to the display name and `{{SON_DAUGHTER}}` to the table's term. */
  lemma NameResolves(name: string, gender: string)
    ensures Resolve(UI.Rules(name, gender), NameToken) == UI.DisplayName(name)
    ensures Resolve(UI.Rules(name, gender), SonDaughterToken) == UI.GenderTerms(gender).sonDaughter
  {
    ResolveRulesFor(UI.DisplayName(name), UI.GenderTerms(gender), 0);
    ResolveRulesFor(UI.DisplayName(name), UI.GenderTerms(gender), 1);
  }

  /**
    The previews of the sample verses: the display name and the son/daughter term dropped into the
    literal text, which is otherwise kept as it is — `My child` in John 15:9 included — for a name
    without a brace or `$`.
   */
  lemma SampleVersesRendered(name: string, gender: string)
    requires '{' !in name && '$' !in name
    ensures var d := UI.DisplayName(name);
            var s := UI.GenderTerms(gender).sonDaughter;
            && UI.PersonalizeAsWritten(SampleVerses[0].text, name, gender)
                 == Matthew5Before + d + Matthew5Middle + s + Matthew5After
            && UI.PersonalizeAsWritten(SampleVerses[1].text, name, gender) == John15Before + d + John15After
            && UI.PersonalizeAsWritten(SampleVerses[2].text, name, gender)
                 == Matthew11Before + d + Matthew11Middle + s + Matthew11After
  {
    BraceFreeMatthew5();
    BraceFreeJohn15();
    BraceFreeMatthew11();
    PreviewTwo(Matthew5Before, Matthew5Middle, Matthew5After, name, gender);
    PreviewOne(John15Before, John15After, name, gender);
    PreviewTwo(Matthew11Before, Matthew11Middle, Matthew11After, name, gender);
  }

  /** The create page's verse cycling: `(prev + 1) % SAMPLE_VERSES.length`. */
  function NextVerseIndex(prev: nat): (r: nat)
    ensures r < |SampleVerses|
  {
    (prev + 1) % |SampleVerses|
  }

  /** Starting from the first verse, the cycle shows every verse in order and returns after three steps. */
  lemma VerseCycle(i: nat)
    requires i < |SampleVerses|
    ensures NextVerseIndex(NextVerseIndex(NextVerseIndex(i))) == i
    ensures NextVerseIndex(i) != i
  {
  }

  // ---------------------------------------------------------------------------------------------
  // Worked examples of the preview

  /** A female preview of a two-placeholder sentence. */
  lemma MariaExample()
    ensures UI.PersonalizeAsWritten("O " + NameToken + ", my " + SonDaughterToken + "!", "Maria", "female")
            == "O " + "Maria" + ", my " + "daughter" + "!"
  {
    MariaParts();
    PreviewTwo("O ", ", my ", "!", "Maria", "female");
  }

  lemma MariaParts()
    ensures '{' !in "O " && '{' !in ", my " && '{' !in "!" && '{' !in "Maria" && '$' !in "Maria"
    ensures UI.DisplayName("Maria") == "Maria" && UI.GenderTerms("female").sonDaughter == "daughter"
  {
    UI.DisplayNameUntrimmed("Maria");
  }

  /** An empty name previews as `[Your Name]`. */
  lemma BlankExample()
    ensures UI.PersonalizeAsWritten("Dear " + NameToken + ".", "", "neutral") == "Dear [Your Name]."
  {
    BlankExamplePieces();
    PreviewOne("Dear ", ".", "", "neutral");
    BlankDisplayName();
  }

  lemma BlankExamplePieces()
    ensures '{' !in "Dear " && '{' !in "."
    ensures "Dear " + UI.Fallback + "." == "Dear [Your Name]."
  {
  }

  lemma BlankDisplayName()
    ensures UI.DisplayName("") == UI.Fallback
  {
    assert Trim("") == [];
  }
}

=== FILE: checkout.dfy ===
/**
  The checkout endpoint, api/create-checkout-session.ts: it validates the order form, builds the
  parameters of a Stripe Checkout Session (one priced line item, the order as metadata, and the
  shipping setup for printed books) and hands them to Stripe.
 */
module Checkout {
  import opened Optional
  import opened JsString
  import opened Stripe
  import Catalog

  // ---------------------------------------------------------------------------------------------
  // The endpoint's own tables

  /** `PRICING`, in US cents. */
  const ApiPricing: map<string, int> :=
    map["digital" := 2499, "softcover" := 3999, "hardcover" := 5999, "leather" := 8999]

  /** `FORMAT_LABELS`. */
  const ApiFormatLabels: map<string, string> :=
    map["digital" := "Digital Download (PDF)", "softcover" := "Softcover Edition",
        "hardcover" := "Hardcover Edition", "leather" := "Premium Leather Bound"]

  /** `BIBLE_VERSION_NAMES`. */
  const BibleVersionNames: map<string, string> :=
    map["web" := "World English Bible", "kjv" := "King James Version"]

  /** `SHIPPING_RATES`, in US cents. */
  const ShippingRates: map<string, int> := map["standard" := 599, "express" := 1299]

  /** The countries a printed book can be shipped to. */
  const AllowedCountries: seq<string> :=
    ["US", "CA", "GB", "AU", "NZ", "IE", "DE", "FR", "ES", "IT", "NL", "BE", "AT", "CH"]

  /** The endpoint prices and labels every format exactly as the storefront's tables do. */
  lemma TablesMatchCatalog()
    ensures ApiPricing == Catalog.Pricing
    ensures ApiFormatLabels == Catalog.FormatLabels
  {
  }

  /** A lookup in one of the tables; a key outside it reads as `undefined`. */
  function Lookup<V>(table: map<string, V>, key: string): (r: Option<V>)
    ensures r.Some? <==> key in table
    ensures r.Some? ==> r.value == table[key]
  {
    if key in table then Some(table[key]) else None
  }

  // ---------------------------------------------------------------------------------------------
  // The session parameters

  /** A delivery estimate in business days. */
  datatype Estimate = Estimate(minimum: int, maximum: int)

  /** One entry of `shipping_options`: a fixed amount in US dollars. */
  datatype ShippingOption = ShippingOption(amount: int, currency: string, displayName: string, estimate: Estimate)

  /** The one line item: `price_data` flattened. An unknown format leaves `unit_amount` undefined. */
  datatype LineItem = LineItem(
    currency: string, productName: string, description: string, unitAmount: Option<int>, quantity: int)

  /**
    The `SessionCreateParams`. The three shipping fields are only set for printed books; `None`
    means the key is not in the object.
   */
  datatype SessionConfig = SessionConfig(
    paymentMethodTypes: seq<string>,
    mode: string,
    customerEmail: string,
    lineItems: seq<LineItem>,
    metadata: Metadata,
    successUrl: string,
    cancelUrl: string,
    shippingAddressCollection: Option<seq<string>>,
    shippingOptions: Option<seq<ShippingOption>>,
    phoneNumberCollection: Option<bool>)

  /** The environment: `STRIPE_SECRET_KEY`, `VERCEL_URL` and `NEXT_PUBLIC_APP_URL`. */
  datatype Env = Env(stripeSecretKey: Option<string>, vercelUrl: Option<string>, appUrl: Option<string>)

  /** The order form. A field that is missing from the JSON is `None`. */
  datatype CheckoutBody = CheckoutBody(
    name: Option<string>, email: Option<string>, gender: Option<string>, format: Option<string>,
    bibleVersion: Option<string>)

  /** A request; `body` is `None` when there is nothing to destructure, which throws. */
  datatype Request = Request(httpMethod: string, body: Option<CheckoutBody>)

  /** The site's own address, used for the return URLs. */
  function BaseUrl(env: Env): (u: string)
    ensures Truthy(env.vercelUrl) ==> u == "https://" + env.vercelUrl.value
    ensures !Truthy(env.vercelUrl) && Truthy(env.appUrl) ==> u == env.appUrl.value
    ensures !Truthy(env.vercelUrl) && !Truthy(env.appUrl) ==> u == "http://localhost:3000"
  {
    if Truthy(env.vercelUrl) then "https://" + env.vercelUrl.value else Or(env.appUrl, "http://localhost:3000")
  }

  /** How the pronouns are described on the receipt: `Beloved` for neutral, the raw value otherwise. */
  function PronounLabel(gender: string): (l: string)
    ensures l == "Beloved" <==> gender == "neutral" || gender == "Beloved"
    ensures gender != "neutral" ==> l == gender
  {
    if gender == "neutral" then "Beloved" else gender
  }

  /** The two shipping options offered for printed books. */
  const StandardShipping := ShippingOption(ShippingRates["standard"], "usd", "Standard Shipping", Estimate(7, 14))
  const ExpressShipping := ShippingOption(ShippingRates["express"], "usd", "Express Shipping", Estimate(3, 5))

  /** Standard costs 599 cents and takes 7 to 14 business days; express costs 1299 and takes 3 to 5. */
  lemma ShippingOptionsSound()
    ensures StandardShipping.amount == 599 && ExpressShipping.amount == 1299
    ensures forall o :: o in [StandardShipping, ExpressShipping] ==>
              0 < o.estimate.minimum <= o.estimate.maximum && o.currency == "usd"
    ensures StandardShipping.amount < ExpressShipping.amount
    ensures ExpressShipping.estimate.maximum < StandardShipping.estimate.minimum
  {
  }

  /** Where Stripe sends the customer back to, after paying and after giving up. */
  const SuccessPath := "/#/confirmation?session_id={CHECKOUT_SESSION_ID}"
  const CancelPath := "/#/create"

  /** What the receipt line says before the name. */
  const DescriptionHead := "Personalized for \""

  /**
    The receipt line: the name in quotes, then the Bible version's full name from the table
    (`undefined` for a version it lacks) and the pronoun label.
   */
  function Description(name: string, version: string, gender: string): (d: string)
    ensures |d| >= |DescriptionHead| + |name|
    ensures d[..|DescriptionHead|] == DescriptionHead
    ensures d[|DescriptionHead|..|DescriptionHead| + |name|] == name
    ensures version in BibleVersionNames ==>
              d[|DescriptionHead| + |name|..] == "\" | " + BibleVersionNames[version] + " | " + PronounLabel(gender) + " pronouns"
    ensures version !in BibleVersionNames ==>
              d[|DescriptionHead| + |name|..] == "\" | " + Undefined + " | " + PronounLabel(gender) + " pronouns"
  {
    var tail := "\" | " + Interpolate(Lookup(BibleVersionNames, version)) + " | " + PronounLabel(gender) + " pronouns";
    assert (DescriptionHead + name + tail)[|DescriptionHead| + |name|..] == tail;
    DescriptionHead + name + tail
  }

  /** The name can be read back from the receipt line: two names give two different lines. */
  lemma DescriptionNamesBuyer(name1: string, name2: string, version: string, gender: string)
    requires Description(name1, version, gender) == Description(name2, version, gender)
    ensures name1 == name2
  {
    var d := Description(name1, version, gender);
    var n := |DescriptionHead|;
    assert |d| == n + |name1| + |d[n + |name1|..]|;
    assert |d| == n + |name2| + |d[n + |name2|..]|;
  }

  /** The one line item: one book of the chosen format at the endpoint's price, in US dollars. */
  function LineItemFor(name: string, gender: string, format: string, version: string): (item: LineItem)
    ensures item.quantity == 1 && item.currency == "usd"
    ensures item.unitAmount.Some? <==> format in ApiPricing
    ensures item.unitAmount.Some? ==> item.unitAmount.value == ApiPricing[format]
    ensures item.productName == "Personalized Gospels - " + Interpolate(Lookup(ApiFormatLabels, format))
    ensures item.description == Description(name, version, gender)
  {
    LineItem(
      "usd", "Personalized Gospels - " + Interpolate(Lookup(ApiFormatLabels, format)),
      Description(name, version, gender), Lookup(ApiPricing, format), 1)
  }

  /** The session parameters for a validated order. */
  function SessionFor(b: CheckoutBody, env: Env): (c: SessionConfig)
    requires Truthy(b.name) && Truthy(b.email) && Truthy(b.gender) && Truthy(b.format) && Truthy(b.bibleVersion)
    ensures c.lineItems == [LineItemFor(b.name.value, b.gender.value, b.format.value, b.bibleVersion.value)]
    ensures c.metadata == Metadata(b.name, b.gender, b.format, b.bibleVersion)
    ensures c.customerEmail == b.email.value
    ensures c.paymentMethodTypes == ["card"] && c.mode == "payment"
    ensures c.successUrl == BaseUrl(env) + SuccessPath && c.cancelUrl == BaseUrl(env) + CancelPath
    ensures c.shippingAddressCollection.Some? <==> b.format.value != "digital"
    ensures c.shippingOptions.Some? <==> b.format.value != "digital"
    ensures c.phoneNumberCollection.Some? <==> b.format.value != "digital"
    ensures c.shippingAddressCollection.Some? ==> c.shippingAddressCollection.value == AllowedCountries
    ensures c.shippingOptions.Some? ==> c.shippingOptions.value == [StandardShipping, ExpressShipping]
    ensures c.phoneNumberCollection.Some? ==> c.phoneNumberCollection.value
  {
    var item := LineItemFor(b.name.value, b.gender.value, b.format.value, b.bibleVersion.value);
    var physical := b.format.value != "digital";
    SessionConfig(
      ["card"], "payment", b.email.value, [item],
      Metadata(b.name, b.gender, b.format, b.bibleVersion),
      BaseUrl(env) + SuccessPath,
      BaseUrl(env) + CancelPath,
      if physical then Some(AllowedCountries) else None,
      if physical then Some([StandardShipping, ExpressShipping]) else None,
      if physical then Some(true) else None)
  }

  /** For each of the four formats the line item carries the storefront's price and label. */
  lemma LineItemFromCatalog(b: CheckoutBody, env: Env, f: Catalog.Format)
    requires Truthy(b.name) && Truthy(b.email) && Truthy(b.gender) && Truthy(b.bibleVersion)
    requires b.format == Some(Catalog.FormatName(f))
    ensures var item := SessionFor(b, env).lineItems[0];
            && item.unitAmount == Some(Catalog.Pricing[Catalog.FormatName(f)])
            && item.productName == "Personalized Gospels - " + Catalog.FormatLabels[Catalog.FormatName(f)]
  {
    Catalog.TablesCoverFormats();
    TablesMatchCatalog();
  }

  // ---------------------------------------------------------------------------------------------
  // The handler

  /** What `stripe.checkout.sessions.create` does: it throws, or returns a session with its URL. */
  datatype StripeReply = CreateThrew | Created(url: Option<string>)

  /** The one external effect: asking Stripe for a session. */
  datatype Call = CreateSession(config: SessionConfig)

  datatype Body = Error(error: string) | Redirect(url: Option<string>)

  datatype Outcome = Outcome(status: int, body: Body, calls: seq<Call>)

  predicate Complete(b: CheckoutBody) {
    Truthy(b.name) && Truthy(b.email) && Truthy(b.gender) && Truthy(b.format) && Truthy(b.bibleVersion)
  }

  /**
    The handler. `reply` is what Stripe answers when it is asked; it is not consulted otherwise.
    A body that cannot be destructured throws inside the `try` and ends in the generic 500.
   */
  function Handle(req: Request, env: Env, reply: StripeReply): (o: Outcome)
    ensures o.status == 405 <==> req.httpMethod != "POST"
    ensures o.status == 405 ==> o.body == Error("Method not allowed")
    ensures o.body == Error("Payment system not configured") <==>
              req.httpMethod == "POST" && !Truthy(env.stripeSecretKey)
    ensures o.status == 400 <==>
              req.httpMethod == "POST" && Truthy(env.stripeSecretKey) && req.body.Some? && !Complete(req.body.value)
    ensures o.status == 400 ==> o.body == Error("Missing required fields")
    ensures o.calls != [] <==>
              req.httpMethod == "POST" && Truthy(env.stripeSecretKey) && req.body.Some? && Complete(req.body.value)
    ensures o.calls != [] ==> o.calls == [CreateSession(SessionFor(req.body.value, env))]
    ensures o.status == 200 <==> o.calls != [] && reply.Created?
    ensures o.status == 200 ==> o.body == Redirect(reply.url)
    ensures o.calls != [] && reply.CreateThrew? ==> o.body == Error("Failed to create checkout session")
    ensures req.httpMethod == "POST" && Truthy(env.stripeSecretKey) && req.body.None?
            ==> o == Outcome(500, Error("Failed to create checkout session"), [])
    ensures o.status in {200, 400, 405, 500}
  {
    if req.httpMethod != "POST" then Outcome(405, Error("Method not allowed"), [])
    else if !Truthy(env.stripeSecretKey) then Outcome(500, Error("Payment system not configured"), [])
    else if req.body.None? then Outcome(500, Error("Failed to create checkout session"), [])
    else if !Complete(req.body.value) then Outcome(400, Error("Missing required fields"), [])
    else
      var calls := [CreateSession(SessionFor(req.body.value, env))];
      match reply
      case CreateThrew => Outcome(500, Error("Failed to create checkout session"), calls)
      case Created(url) => Outcome(200, Redirect(url), calls)
  }

  /** A printed book's session collects an address in the 14 countries, offers both rates and asks for a phone. */
  lemma PhysicalSessionShips(req: Request, env: Env, reply: StripeReply)
    requires req.httpMethod == "POST" && Truthy(env.stripeSecretKey) && req.body.Some? && Complete(req.body.value)
    requires req.body.value.format.value != "digital"
    ensures var c := Handle(req, env, reply).calls[0].config;
            && c.shippingAddressCollection == Some(AllowedCountries) && |AllowedCountries| == 14
            && c.shippingOptions == Some([StandardShipping, ExpressShipping])
            && c.phoneNumberCollection == Some(true)
  {
  }

  /** A digital order's session has none of the three shipping fields. */
  lemma DigitalSessionShipsNothing(req: Request, env: Env, reply: StripeReply)
    requires req.httpMethod == "POST" && Truthy(env.stripeSecretKey) && req.body.Some? && Complete(req.body.value)
    requires req.body.value.format.value == "digital"
    ensures var c := Handle(req, env, reply).calls[0].config;
            c.shippingAddressCollection.None? && c.shippingOptions.None? && c.phoneNumberCollection.None?
  {
  }
}

=== FILE: engine_agreement.dfy ===
/**
  Where the two copies of the personalisation engine agree and where they differ: the preview
  engine of utils/personalization.ts (module Personalization) against the sample endpoint's copy in
  api/generate-sample.ts (module GenerateSample).
 */
module EngineAgreement {
  import opened Optional
  import opened JsString
  import opened Replace
  import opened Placeholders
  import UI = Personalization
  import Api = GenerateSample

  /**
    The two gender tables: the same son/daughter, he/she and him/her terms; `my child` only agrees
    for neutral, and his/her only differs for female (`hers` against `her`).
   */
  lemma TableDifferences(gender: string)
    requires Api.ApiTerms(gender).Some?
    ensures var u := UI.GenderTerms(gender);
            var a := Api.ApiTerms(gender).value;
            && u.sonDaughter == a.sonDaughter && u.heShe == a.heShe && u.himHer == a.himHer
            && (u.myChild == a.myChild <==> gender == "neutral")
            && (u.hisHer == a.hisHer <==> gender != "female")
  {
  }

  /** The preview's display name of a trimmed, non-empty name is the name itself. */
  lemma DisplayTrimmed(name: string)
    requires name != [] && Trim(name) == name
    ensures UI.DisplayName(name) == name
  {
  }

  /** For neutral and a name that is already trimmed and non-empty, the engines agree on every text. */
  lemma NeutralAgree(text: string, name: string)
    requires name != [] && Trim(name) == name
    ensures Api.Personalize(text, name, "neutral") == Some(UI.Personalize(text, name, "neutral"))
    ensures Api.PersonalizeAsWritten(text, name, "neutral") == Some(UI.PersonalizeAsWritten(text, name, "neutral"))
  {
    NeutralRulesAgree(name);
  }

  /** For neutral and a trimmed, non-empty name, both engines run the same steps. */
  lemma NeutralRulesAgree(name: string)
    requires name != [] && Trim(name) == name
    ensures Api.ApiTerms("neutral") == Some(UI.GenderTerms("neutral"))
    ensures UI.Rules(name, "neutral") == RulesFor(name, Api.ApiTerms("neutral").value)
  {
    DisplayTrimmed(name);
    NeutralTermsAgree();
  }

  /** The neutral entries of the two tables are the same. */
  lemma NeutralTermsAgree()
    ensures Api.ApiTerms("neutral") == Some(UI.GenderTerms("neutral"))
  {
  }

  /**
    For male, the engines agree on every text without `{{MY_CHILD}}`; for female, on every text
    without `{{MY_CHILD}}` and `{{HIS_HER}}` — provided the name is trimmed, non-empty and inert,
    so that it cannot complete a placeholder of its own.
   */
  lemma GenderedAgree(text: string, name: string, gender: string)
    requires gender == "male" || gender == "female"
    requires name != [] && Trim(name) == name && Inert(name)
    requires !Occurs(MyChildToken, text)
    requires gender == "female" ==> !Occurs(HisHerToken, text)
    ensures Api.Personalize(text, name, gender) == Some(UI.Personalize(text, name, gender))
  {
    DisplayTrimmed(name);
    RulesAgree(text, name, gender);
  }

  lemma RulesAgree(text: string, name: string, gender: string)
    requires gender == "male" || gender == "female"
    requires Inert(name)
    requires !Occurs(MyChildToken, text)
    requires gender == "female" ==> !Occurs(HisHerToken, text)
    ensures var rules1 := RulesFor(name, UI.GenderTerms(gender));
            var rules2 := RulesFor(name, Api.ApiTerms(gender).value);
            WellFormed(rules1) && WellFormed(rules2) && Chain(text, rules1) == Chain(text, rules2)
  {
    var rules1 := RulesFor(name, UI.GenderTerms(gender));
    var rules2 := RulesFor(name, Api.ApiTerms(gender).value);
    RulesForWellFormed(name, UI.GenderTerms(gender));
    RulesForWellFormed(name, Api.ApiTerms(gender).value);
    RulesInert(name, gender);
    RulesDiffer(name, gender);
    ChainAgree(text, rules1, rules2);
  }

  lemma RulesInert(name: string, gender: string)
    requires (gender == "male" || gender == "female") && Inert(name)
    ensures AllInert(RulesFor(name, UI.GenderTerms(gender)))
    ensures AllInert(RulesFor(name, Api.ApiTerms(gender).value))
  {
    UI.GenderTermsInert(gender);
    Api.ApiTermsInert(gender);
    RulesForInert(name, UI.GenderTerms(gender));
    RulesForInert(name, Api.ApiTerms(gender).value);
  }

  /** The two engines' steps differ only at MY_CHILD, and for female also at HIS_HER. */
  lemma RulesDiffer(name: string, gender: string)
    requires gender == "male" || gender == "female"
    ensures var rules1 := RulesFor(name, UI.GenderTerms(gender));
            var rules2 := RulesFor(name, Api.ApiTerms(gender).value);
            forall i :: 0 <= i < |rules1| && rules1[i].value != rules2[i].value ==>
              rules1[i].token == MyChildToken || (gender == "female" && rules1[i].token == HisHerToken)
  {
    var rules1 := RulesFor(name, UI.GenderTerms(gender));
    var rules2 := RulesFor(name, Api.ApiTerms(gender).value);
    forall i | 0 <= i < |rules1| && rules1[i].value != rules2[i].value
      ensures rules1[i].token == MyChildToken || (gender == "female" && rules1[i].token == HisHerToken)
    {
      assert i == 2 || (gender == "female" && i == 5);
    }
  }

  /** Without a `$` in the name, the agreement carries over to the code as written. */
  lemma GenderedAgreeAsWritten(text: string, name: string, gender: string)
    requires gender == "male" || gender == "female"
    requires name != [] && Trim(name) == name && Inert(name) && '$' !in name
    requires !Occurs(MyChildToken, text)
    requires gender == "female" ==> !Occurs(HisHerToken, text)
    ensures Api.PersonalizeAsWritten(text, name, gender) == Some(UI.PersonalizeAsWritten(text, name, gender))
  {
    GenderedAgree(text, name, gender);
    Api.AsWrittenIsLiteral(text, name, gender);
  }

  // ---------------------------------------------------------------------------------------------
  // Where they differ

  lemma DisplayNameBraceFree(name: string)
    requires '{' !in name
    ensures '{' !in UI.DisplayName(name)
  {
    TrimOmits(name, '{');
    UI.FallbackBraceFree();
  }

  /** A text that is a single placeholder becomes that placeholder's entry in the preview. */
  lemma PreviewLoneToken(name: string, gender: string, k: nat)
    requires '{' !in name && k < |AllTokens|
    ensures UI.Personalize(AllTokens[k], name, gender) == UI.Rules(name, gender)[k].value
  {
    var rules := UI.Rules(name, gender);
    RulesForWellFormed(UI.DisplayName(name), UI.GenderTerms(gender));
    DisplayNameBraceFree(name);
    UI.GenderTermsInert(gender);
    RulesForBraceFree(UI.DisplayName(name), UI.GenderTerms(gender));
    AllTokensAreTokens();
    ChainOnLoneToken(AllTokens[k], rules);
    ResolveRulesFor(UI.DisplayName(name), UI.GenderTerms(gender), k);
  }

  /** A text that is a single placeholder becomes that placeholder's entry in the endpoint. */
  lemma EndpointLoneToken(name: string, gender: string, k: nat)
    requires '{' !in name && k < |AllTokens| && Api.ApiTerms(gender).Some?
    ensures Api.Personalize(AllTokens[k], name, gender) ==
              Some(RulesFor(name, Api.ApiTerms(gender).value)[k].value)
  {
    var terms := Api.ApiTerms(gender).value;
    var rules := RulesFor(name, terms);
    RulesForWellFormed(name, terms);
    Api.ApiTermsInert(gender);
    RulesForBraceFree(name, terms);
    AllTokensAreTokens();
    ChainOnLoneToken(AllTokens[k], rules);
    ResolveRulesFor(name, terms, k);
  }

  /**
    On `{{NAME}}` the engines agree exactly when the name is already trimmed and non-empty: the
    preview trims and falls back, the endpoint inserts the name as sent.
   */
  lemma NameTokenAgreesIff(name: string, gender: string)
    requires Api.ApiTerms(gender).Some? && '{' !in name
    ensures Api.Personalize(NameToken, name, gender) == Some(UI.Personalize(NameToken, name, gender))
            <==> name != [] && Trim(name) == name
  {
    PreviewLoneToken(name, gender, 0);
    EndpointLoneToken(name, gender, 0);
    UI.DisplayNameFixed(name);
  }

  /** `{{MY_CHILD}}` is `my child` in the preview for every gender but `my son`/`my daughter` in the endpoint. */
  lemma MyChildDiffers(name: string, gender: string)
    requires (gender == "male" || gender == "female") && '{' !in name
    ensures UI.Personalize(MyChildToken, name, gender) == "my child"
    ensures Api.Personalize(MyChildToken, name, gender) ==
              Some(if gender == "male" then "my son" else "my daughter")
  {
    PreviewLoneToken(name, gender, 2);
    EndpointLoneToken(name, gender, 2);
  }

  /** For female, `{{HIS_HER}}` is `hers` in the preview and `her` in the endpoint. */
  lemma HisHerDiffers(name: string)
    requires '{' !in name
    ensures UI.Personalize(HisHerToken, name, "female") == "hers"
    ensures Api.Personalize(HisHerToken, name, "female") == Some("her")
  {
    PreviewLoneToken(name, "female", 5);
    EndpointLoneToken(name, "female", 5);
  }

  /** A gender outside the endpoint's table makes it throw, while the preview falls back to neutral. */
  lemma UnknownGenderDiffers(text: string, name: string, gender: string)
    requires gender != "male" && gender != "female" && gender != "neutral"
    ensures Api.Personalize(text, name, gender) == None
    ensures UI.Personalize(text, name, gender) == UI.Personalize(text, name, "neutral")
  {
    UI.UnknownGenderIsNeutral(gender);
  }

  /** A placeholder-sized text that holds a placeholder is that placeholder. */
  lemma OccursSameLength(t: string, s: string)
    requires |t| > 0 && |s| == |t| && Occurs(t, s)
    ensures s == t
  {
    OccursStartsWithin(t, s);
    var k :| 0 <= k < |s| && StartsWith(s[k..], t);
    assert k == 0;
  }

  /** `{{{{NAME}}}}` holds no `{{MY_CHILD}}`. */
  lemma NoMyChildInBraces()
    ensures !Occurs(MyChildToken, "{{{{NAME}}}}")
  {
    if Occurs(MyChildToken, "{{{{NAME}}}}") {
      OccursSameLength(MyChildToken, "{{{{NAME}}}}");
      assert false;
    }
  }

  lemma MyChildInBraces()
    ensures "{{" + "MY_CHILD" + "}}" == MyChildToken
  {
  }

  lemma NameInBraces()
    ensures "{{" + NameToken + "}}" == "{{{{NAME}}}}"
  {
  }

  lemma BracesFormMyChild()
    ensures ReplaceAll("{{{{NAME}}}}", NameToken, "MY_CHILD") == MyChildToken
  {
    BracesAroundName("MY_CHILD");
    NameInBraces();
    MyChildInBraces();
  }

  /** After NAME, a lone `{{MY_CHILD}}` goes to the table's `my child` entry. */
  lemma MyChildAfterName(name: string, terms: Terms)
    requires '{' !in terms.sonDaughter && '{' !in terms.myChild && '{' !in terms.heShe
    requires '{' !in terms.himHer && '{' !in terms.hisHer
    ensures WellFormed(RulesFor(name, terms)[1..])
    ensures Chain(MyChildToken, RulesFor(name, terms)[1..]) == terms.myChild
  {
    var rules := RulesFor(name, terms);
    RulesForWellFormed(name, terms);
    WellFormedSuffix(rules, 1);
    var rest := rules[1..];
    AllTokensAreTokens();
    AllTokensDistinct();
    assert rest[0].token == SonDaughterToken && rest[1].token == MyChildToken;
    ChainOnLoneToken(MyChildToken, rest);
    ResolveFirst(rest, 1, MyChildToken);
  }

  /** Whatever the table, `{{{{NAME}}}}` with the name `MY_CHILD` ends as the table's `my child` term. */
  lemma BracesThenMyChild(terms: Terms)
    requires '{' !in terms.sonDaughter && '{' !in terms.myChild && '{' !in terms.heShe
    requires '{' !in terms.himHer && '{' !in terms.hisHer
    ensures WellFormed(RulesFor("MY_CHILD", terms))
    ensures Chain("{{{{NAME}}}}", RulesFor("MY_CHILD", terms)) == terms.myChild
  {
    var rules := RulesFor("MY_CHILD", terms);
    RulesForWellFormed("MY_CHILD", terms);
    BracesFormMyChild();
    MyChildAfterName("MY_CHILD", terms);
    assert Chain("{{{{NAME}}}}", rules) == Chain(MyChildToken, rules[1..]);
  }

  /**
    The inert-name premise of the agreement cannot be dropped: with the name `MY_CHILD` the text
    `{{{{NAME}}}}`, which holds no `{{MY_CHILD}}`, becomes `my son` in the endpoint and `my child`
    in the preview.
   */
  lemma NameFormsMyChild()
    ensures !Occurs(MyChildToken, "{{{{NAME}}}}")
    ensures Api.Personalize("{{{{NAME}}}}", "MY_CHILD", "male") == Some("my son")
    ensures UI.Personalize("{{{{NAME}}}}", "MY_CHILD", "male") == "my child"
  {
    NoMyChildInBraces();
    EndpointBracesMyChild();
    PreviewBracesMyChild();
  }

  lemma EndpointBracesMyChild()
    ensures Api.Personalize("{{{{NAME}}}}", "MY_CHILD", "male") == Some("my son")
  {
    var terms := Api.ApiTerms("male").value;
    Api.ApiTermsInert("male");
    BracesThenMyChild(terms);
    assert terms.myChild == "my son";
  }

  lemma PreviewBracesMyChild()
    ensures UI.Personalize("{{{{NAME}}}}", "MY_CHILD", "male") == "my child"
  {
    var terms := UI.GenderTerms("male");
    UI.DisplayNameUntrimmed("MY_CHILD");
    UI.GenderTermsInert("male");
    BracesThenMyChild(terms);
    assert UI.Rules("MY_CHILD", "male") == RulesFor("MY_CHILD", terms);
  }
}

=== FILE: fulfillment.dfy ===
/**
  The fulfilment endpoint, api/fulfill-order.ts: it validates an order, answers digital orders at
  once, and for printed books fetches a Lulu access token and submits one print job. Lulu and the
  network are oracles: the handler is given what each call would answer and records the calls it
  makes, in order.
 */
module Fulfillment {
  import opened Optional
  import opened JsString
  import Uri

  // ---------------------------------------------------------------------------------------------
  // The request

  /**
    What the book is personalised with. The endpoint checks only that the object is there, so
    each of its fields may be missing (`None`).
   */
  datatype Personalization = Personalization(name: Option<string>, gender: Option<string>, bibleVersion: Option<string>)

  /** The shipping address as the endpoint receives it; any of its fields may be missing. */
  datatype Address = Address(
    name: Option<string>, street1: Option<string>, street2: Option<string>, city: Option<string>,
    state: Option<string>, postalCode: Option<string>, country: Option<string>, phone: Option<string>)

  /**
    The JSON body. A field that is missing or `null` is `None`; `personalization` and
    `shippingAddress` are objects, so they are truthy exactly when present.
   */
  datatype FulfillRequest = FulfillRequest(
    orderId: Option<string>,
    customerEmail: Option<string>,
    customerName: Option<string>,
    personalization: Option<Personalization>,
    format: Option<string>,
    shippingAddress: Option<Address>)

  /** A request; `body` is `None` when there is nothing to destructure, which throws. */
  datatype Request = Request(httpMethod: string, body: Option<FulfillRequest>)

  /** `LULU_CLIENT_ID`, `LULU_CLIENT_SECRET`, `LULU_API_URL`, `FULFILLMENT_EMAIL` and `VERCEL_URL`. */
  datatype Env = Env(
    clientId: Option<string>, clientSecret: Option<string>, apiUrl: Option<string>,
    fulfillmentEmail: Option<string>, vercelUrl: Option<string>)

  /** The validation at the top of the handler: all five fields truthy. */
  predicate Complete(r: FulfillRequest) {
    Truthy(r.orderId) && Truthy(r.customerEmail) && r.personalization.Some? && Truthy(r.format)
    && r.shippingAddress.Some?
  }

  // ---------------------------------------------------------------------------------------------
  // Fixed texts

  const DigitalMessage := "Digital order queued for email delivery"
  const NoCredentials := "Lulu API credentials not configured"
  const TokenFailed := "Failed to get Lulu access token: "
  const PrintFailed := "Failed to create Lulu print job: "
  const PrintCreatedMessage := "Print job created successfully"
  /** The title printed on every line item, and the contact used when none is configured. */
  const BookTitle := "Called by Name - Personalized Gospels"
  const DefaultContact := "orders@calledbyname.com"
  /** The book-PDF endpoint's address under the site, up to the name parameter's value. */
  const BookPdfPath := "/api/generate-book-pdf?name="

  // ---------------------------------------------------------------------------------------------
  // Lulu

  /** `LULU_POD_PACKAGES`: 6x9 black-and-white paperback, and case wrap for both hardcover and leather. */
  const PodPackages: map<string, string> := map[
    "softcover" := "0600X0900BWSTDPB060UW444MNG",
    "hardcover" := "0600X0900BWSTDCW060UW444MXX",
    "leather" := "0600X0900BWSTDCW060UW444MXX"]

  /** Only the three printed formats have a package; leather is printed as hardcover. */
  lemma PodPackagesShape()
    ensures forall f :: f in PodPackages <==> f in {"softcover", "hardcover", "leather"}
    ensures "digital" !in PodPackages
    ensures PodPackages["hardcover"] == PodPackages["leather"] != PodPackages["softcover"]
  {
  }

  function ApiUrl(env: Env): (u: string)
    ensures Truthy(env.apiUrl) ==> u == env.apiUrl.value
    ensures !Truthy(env.apiUrl) ==> u == "https://api.sandbox.lulu.com"
  {
    Or(env.apiUrl, "https://api.sandbox.lulu.com")
  }

  /** Where the token and the print jobs are requested, under the API's base address. */
  const TokenPath := "/auth/realms/glasstree/protocol/openid-connect/token"
  const PrintJobsPath := "/print-jobs/"

  /**
    The address in Lulu's shape. A field copied from a missing one is `None`: the key is left out
    of the JSON that is posted.
   */
  datatype LuluAddress = LuluAddress(
    city: Option<string>, countryCode: string, name: Option<string>, phoneNumber: string,
    postcode: Option<string>, stateCode: Option<string>, street1: Option<string>, street2: string)

  datatype PrintLineItem = PrintLineItem(
    externalId: string, coverUrl: string, interiorUrl: string, podPackageId: string, quantity: int,
    title: string)

  /** The print-job payload `createLuluPrintJob` posts. */
  datatype PrintJob = PrintJob(
    contactEmail: string, externalId: string, lineItems: seq<PrintLineItem>, productionDelay: int,
    shippingAddress: LuluAddress, shippingLevel: string)

  /**
    Lulu's address: a missing or empty country is the US, a missing phone or second line is
    empty, and every other field is passed on as it came, missing or not.
   */
  function LuluAddressOf(a: Address): (l: LuluAddress)
    ensures a.country.Some? && a.country.value != "" ==> l.countryCode == a.country.value
    ensures a.country.None? || a.country.value == "" ==> l.countryCode == "US"
    ensures l.countryCode != ""
    ensures a.phone.Some? && a.phone.value != "" ==> l.phoneNumber == a.phone.value
    ensures a.phone.None? ==> l.phoneNumber == ""
    ensures a.street2.Some? && a.street2.value != "" ==> l.street2 == a.street2.value
    ensures a.street2.None? ==> l.street2 == ""
    ensures l.city == a.city && l.name == a.name && l.postcode == a.postalCode
    ensures l.stateCode == a.state && l.street1 == a.street1
  {
    LuluAddress(a.city, Or(a.country, "US"), a.name, Or(a.phone, ""), a.postalCode, a.state,
                a.street1, Or(a.street2, ""))
  }

  /** The payload for one order: one copy of one book, mailed after a two-minute hold. */
  function PrintJobFor(env: Env, interiorUrl: string, coverUrl: string, podPackageId: string,
                       a: Address, externalId: string): (j: PrintJob)
    ensures j.externalId == externalId
    ensures |j.lineItems| == 1
    ensures j.lineItems[0] == PrintLineItem(externalId + "-item-1", coverUrl, interiorUrl, podPackageId, 1,
                                            BookTitle)
    ensures j.contactEmail == Or(env.fulfillmentEmail, DefaultContact)
    ensures j.productionDelay == 120 && j.shippingLevel == "MAIL"
    ensures j.shippingAddress == LuluAddressOf(a)
  {
    PrintJob(
      Or(env.fulfillmentEmail, DefaultContact),
      externalId,
      [PrintLineItem(externalId + "-item-1", coverUrl, interiorUrl, podPackageId, 1,
                     BookTitle)],
      120,
      LuluAddressOf(a),
      "MAIL")
  }

  /** The line item's id extends the job's, so the two can be told apart yet matched up. */
  lemma ItemIdExtendsJobId(env: Env, i: string, c: string, p: string, a: Address, id1: string, id2: string)
    ensures var j1 := PrintJobFor(env, i, c, p, a, id1);
            var j2 := PrintJobFor(env, i, c, p, a, id2);
            && j1.lineItems[0].externalId != j1.externalId
            && j1.lineItems[0].externalId[..|id1|] == id1
            && (j1.lineItems[0].externalId == j2.lineItems[0].externalId <==> id1 == id2)
  {
    var s := "-item-1";
    if id1 + s == id2 + s {
      assert id1 == (id1 + s)[..|id1 + s| - |s|];
    }
  }

  // ---------------------------------------------------------------------------------------------
  // The book's PDF addresses

  function SiteUrl(env: Env): (u: string)
    ensures Truthy(env.vercelUrl) ==> u == "https://" + env.vercelUrl.value
    ensures !Truthy(env.vercelUrl) ==> u == "https://calledbyname.vercel.app"
  {
    if Truthy(env.vercelUrl) then "https://" + env.vercelUrl.value else "https://calledbyname.vercel.app"
  }

  /**
    The address of one part of the book: `type` is `interior` or `cover`. A missing field prints
    as `undefined`, and `encodeURIComponent` of a missing name encodes the word `undefined`.
   */
  function BookUrl(env: Env, p: Personalization, part: string): (u: string)
  {
    SiteUrl(env) + BookPdfPath + Uri.Encode(Interpolate(p.name)) + "&gender=" + Interpolate(p.gender)
      + "&version=" + Interpolate(p.bibleVersion) + "&type=" + part
  }

  /**
    The interior and cover addresses share everything up to `type=`; the name parameter is the
    encoded name, which holds no `&` and decodes back to the name's UTF-8 bytes.
   */
  lemma BookUrlsDifferInType(env: Env, p: Personalization)
    ensures var prefix := SiteUrl(env) + BookPdfPath + Uri.Encode(Interpolate(p.name)) + "&gender="
                          + Interpolate(p.gender) + "&version=" + Interpolate(p.bibleVersion) + "&type=";
            BookUrl(env, p, "interior") == prefix + "interior" && BookUrl(env, p, "cover") == prefix + "cover"
    ensures BookUrl(env, p, "interior") != BookUrl(env, p, "cover")
    ensures p.name.Some? ==> forall i :: 0 <= i < |Uri.Encode(p.name.value)| ==> Uri.Encode(p.name.value)[i] != '&'
    ensures p.name.Some? ==> Uri.Decode(Uri.Encode(p.name.value)) == Uri.Utf8String(p.name.value)
  {
    var i, c := BookUrl(env, p, "interior"), BookUrl(env, p, "cover");
    var prefix := SiteUrl(env) + BookPdfPath + Uri.Encode(Interpolate(p.name)) + "&gender="
                  + Interpolate(p.gender) + "&version=" + Interpolate(p.bibleVersion) + "&type=";
    assert i == prefix + "interior" && c == prefix + "cover";
    assert i[|prefix|] == 'i' && c[|prefix|] == 'c';
    Uri.EncodeSafe(Interpolate(p.name));
    Uri.DecodeEncode(Interpolate(p.name));
  }

  /**
    An empty personalisation object passes validation, and the book is then asked for as if the
    name, the gender and the version were each the word `undefined`.
   */
  lemma EmptyPersonalizationUrl(env: Env, part: string)
    ensures BookUrl(env, Personalization(None, None, None), part)
              == BookUrl(env, Personalization(Some(Undefined), Some(Undefined), Some(Undefined)), part)
    ensures Uri.Encode(Undefined) == Undefined
  {
    UndefinedUnreserved(Undefined);
  }

  /** The word `undefined` is all lower-case letters, so encoding leaves it alone. */
  lemma UndefinedUnreserved(w: string)
    requires w == Undefined
    ensures Uri.Encode(w) == w
  {
    assert forall i :: 0 <= i < |w| ==> 'a' <= w[i] <= 'z';
    Uri.EncodeUnreserved(w);
  }

  // ---------------------------------------------------------------------------------------------
  // The handler

  /** What the token endpoint does: the fetch throws, or it answers with a status and a body. */
  datatype TokenReply = TokenThrew(message: string) | TokenReply(ok: bool, statusText: string, accessToken: Option<string>)

  /** What the print-job endpoint does; `statusName` is `status?.name` of the created job. */
  datatype PrintReply =
    | PrintThrew(message: string)
    | PrintReply(ok: bool, statusText: string, errorText: string, id: Option<int>, statusName: Option<string>)

  /** The two external calls, with what they send. */
  datatype Call =
    | RequestToken(url: string, clientId: string, clientSecret: string)
    | SubmitPrintJob(url: string, authorization: string, job: PrintJob)

  /**
    The response. `Failure(None)` is the 500 of a runtime error whose message the JavaScript
    engine words (a body that cannot be destructured).
   */
  datatype Body =
    | Error(error: string)
    | Failure(reason: Option<string>)
    | DigitalQueued(message: string)
    | PrintCreated(printJobId: Option<int>, status: string, message: string)

  datatype Outcome = Outcome(status: int, body: Body, calls: seq<Call>)

  /** The print-job request for an order, authorised with the token Lulu granted. */
  function PrintCall(r: FulfillRequest, env: Env, podPackageId: string, accessToken: Option<string>): (c: Call)
    requires Truthy(r.orderId) && r.personalization.Some? && r.shippingAddress.Some?
    ensures c.SubmitPrintJob? && c.url == ApiUrl(env) + PrintJobsPath
    ensures c.authorization == "Bearer " + Interpolate(accessToken)
    ensures c.job.externalId == r.orderId.value && |c.job.lineItems| == 1
    ensures c.job.lineItems[0].podPackageId == podPackageId
  {
    var p := r.personalization.value;
    var job := PrintJobFor(env, BookUrl(env, p, "interior"), BookUrl(env, p, "cover"), podPackageId,
                           r.shippingAddress.value, r.orderId.value);
    SubmitPrintJob(ApiUrl(env) + PrintJobsPath, "Bearer " + Interpolate(accessToken), job)
  }

  /** `getLuluAccessToken` followed by `createLuluPrintJob`, for a validated physical order. */
  function SubmitOrder(r: FulfillRequest, env: Env, podPackageId: string, token: TokenReply, submitted: PrintReply): (o: Outcome)
    requires Truthy(r.orderId) && r.personalization.Some? && r.shippingAddress.Some?
    ensures o.status in {200, 500}
    ensures |o.calls| <= 2
    ensures o.calls != [] <==> Truthy(env.clientId) && Truthy(env.clientSecret)
    ensures o.calls != [] ==> o.calls[0] == RequestToken(
              ApiUrl(env) + TokenPath, env.clientId.value,
              env.clientSecret.value)
    ensures |o.calls| == 2 <==> o.calls != [] && token.TokenReply? && token.ok
    ensures |o.calls| == 2 ==> o.calls[1].SubmitPrintJob? && o.calls[1].url == ApiUrl(env) + PrintJobsPath
    ensures o.status == 200 <==> |o.calls| == 2 && submitted.PrintReply? && submitted.ok
    ensures o.status == 500 ==> o.body.Failure? && o.body.reason.Some?
    ensures o.status == 200 ==>
              o.body == PrintCreated(submitted.id, Or(submitted.statusName, "CREATED"), PrintCreatedMessage)
    ensures o.calls != [] && token.TokenThrew? ==> o.body == Failure(Some(token.message))
    ensures |o.calls| == 2 && submitted.PrintThrew? ==> o.body == Failure(Some(submitted.message))
  {
    if !(Truthy(env.clientId) && Truthy(env.clientSecret)) then
      Outcome(500, Failure(Some(NoCredentials)), [])
    else
      var tokenCall := RequestToken(
        ApiUrl(env) + TokenPath, env.clientId.value,
        env.clientSecret.value);
      match token
      case TokenThrew(m) => Outcome(500, Failure(Some(m)), [tokenCall])
      case TokenReply(ok, statusText, accessToken) =>
        if !ok then Outcome(500, Failure(Some(TokenFailed + statusText)), [tokenCall])
        else
          var calls := [tokenCall, PrintCall(r, env, podPackageId, accessToken)];
          match submitted
          case PrintThrew(m) => Outcome(500, Failure(Some(m)), calls)
          case PrintReply(ok, statusText, errorText, id, statusName) =>
            if !ok then
              Outcome(500, Failure(Some(PrintFailed + statusText + " - " + errorText)), calls)
            else Outcome(200, PrintCreated(id, Or(statusName, "CREATED"), PrintCreatedMessage), calls)
  }

  /**
    What the handler does with an order that passed validation: digital orders are answered at
    once, a format without a package is refused, and printed books go to Lulu.
   */
  function Dispatch(r: FulfillRequest, env: Env, token: TokenReply, submitted: PrintReply): (o: Outcome)
    requires Truthy(r.orderId) && r.personalization.Some? && Truthy(r.format)
    requires r.format.value != "digital" ==> r.shippingAddress.Some?
    ensures r.format.value == "digital" ==> o == Outcome(200, DigitalQueued(DigitalMessage), [])
    ensures r.format.value != "digital" && r.format.value !in PodPackages
            ==> o == Outcome(400, Error("Unsupported format: " + r.format.value), [])
    ensures o.body != Error("Missing required fields")
    ensures o.calls != [] ==> r.format.value in PodPackages
  {
    if r.format.value == "digital" then
      Outcome(200, DigitalQueued(DigitalMessage), [])
    else if r.format.value !in PodPackages then
      assert ("Unsupported format: " + r.format.value)[0] == 'U';
      Outcome(400, Error("Unsupported format: " + r.format.value), [])
    else SubmitOrder(r, env, PodPackages[r.format.value], token, submitted)
  }

  /**
    The handler of the endpoint, as written: the shipping address is demanded of every order,
    digital ones included, before the format is looked at.
   */
  function Handle(req: Request, env: Env, token: TokenReply, submitted: PrintReply): (o: Outcome)
    ensures o.status == 405 <==> req.httpMethod != "POST"
    ensures o.status == 405 ==> o.body == Error("Method not allowed") && o.calls == []
    ensures o.body == Error("Missing required fields") <==>
              req.httpMethod == "POST" && req.body.Some? && !Complete(req.body.value)
    ensures req.httpMethod == "POST" && req.body.Some? && Complete(req.body.value)
              && req.body.value.format.value == "digital"
            ==> o == Outcome(200, DigitalQueued(DigitalMessage), [])
    ensures o.calls != [] ==> req.httpMethod == "POST" && req.body.Some? && Complete(req.body.value)
                              && req.body.value.format.value in PodPackages
    ensures req.httpMethod == "POST" && req.body.None? ==> o == Outcome(500, Failure(None), [])
    ensures req.httpMethod == "POST" && req.body.Some? && Complete(req.body.value)
              && req.body.value.format.value != "digital" && req.body.value.format.value in PodPackages
            ==> o == SubmitOrder(req.body.value, env, PodPackages[req.body.value.format.value], token, submitted)
  {
    if req.httpMethod != "POST" then Outcome(405, Error("Method not allowed"), [])
    else if req.body.None? then Outcome(500, Failure(None), [])
    else if !Complete(req.body.value) then Outcome(400, Error("Missing required fields"), [])
    else Dispatch(req.body.value, env, token, submitted)
  }

  /** The validation with the shipping address demanded of printed books only. */
  predicate CompleteForFormat(r: FulfillRequest) {
    Truthy(r.orderId) && Truthy(r.customerEmail) && r.personalization.Some? && Truthy(r.format)
    && (r.format.value != "digital" ==> r.shippingAddress.Some?)
  }

  /** The handler with the address check moved after the digital branch. */
  function HandleCorrected(req: Request, env: Env, token: TokenReply, submitted: PrintReply): (o: Outcome)
    ensures o.status == 405 <==> req.httpMethod != "POST"
    ensures o.body == Error("Missing required fields") <==>
              req.httpMethod == "POST" && req.body.Some? && !CompleteForFormat(req.body.value)
  {
    if req.httpMethod != "POST" then Outcome(405, Error("Method not allowed"), [])
    else if req.body.None? then Outcome(500, Failure(None), [])
    else if !CompleteForFormat(req.body.value) then Outcome(400, Error("Missing required fields"), [])
    else Dispatch(req.body.value, env, token, submitted)
  }

  /**
    The corrected handler queues every digital order that carries an id, an email, the
    personalisation and the format, with or without an address, and answers every other request
    exactly as the handler as written does.
   */
  lemma CorrectedHandlerAgrees(req: Request, env: Env, token: TokenReply, submitted: PrintReply)
    ensures req.httpMethod == "POST" && req.body.Some? && CompleteForFormat(req.body.value)
              && req.body.value.format.value == "digital"
            ==> HandleCorrected(req, env, token, submitted)
                  == Outcome(200, DigitalQueued(DigitalMessage), [])
    ensures req.body.Some? && req.body.value.shippingAddress.Some?
            ==> HandleCorrected(req, env, token, submitted) == Handle(req, env, token, submitted)
    ensures req.body.Some? && Truthy(req.body.value.format) && req.body.value.format.value != "digital"
            ==> HandleCorrected(req, env, token, submitted) == Handle(req, env, token, submitted)
    ensures req.body.None? ==> HandleCorrected(req, env, token, submitted) == Handle(req, env, token, submitted)
  {
  }

  /** An order that passes validation with a format outside the table is turned away before any call. */
  lemma UnsupportedFormatNoCalls(req: Request, env: Env, token: TokenReply, submitted: PrintReply)
    requires req.httpMethod == "POST" && req.body.Some? && Complete(req.body.value)
    requires req.body.value.format.value != "digital" && req.body.value.format.value !in PodPackages
    ensures Handle(req, env, token, submitted)
              == Outcome(400, Error("Unsupported format: " + req.body.value.format.value), [])
  {
  }

  /**
    A printed book with credentials in place: the token is requested first, and exactly when it is
    granted one print job follows, carrying the order id, the package of the format, Lulu's form
    of the address and the two addresses of the book.
   */
  lemma PhysicalOrderCalls(req: Request, env: Env, token: TokenReply, submitted: PrintReply)
    requires req.httpMethod == "POST" && req.body.Some? && Complete(req.body.value)
    requires req.body.value.format.value in PodPackages
    requires Truthy(env.clientId) && Truthy(env.clientSecret)
    ensures var o := Handle(req, env, token, submitted);
            var r := req.body.value;
            && 1 <= |o.calls| <= 2
            && o.calls[0].RequestToken?
            && (|o.calls| == 2 <==> token.TokenReply? && token.ok)
            && (|o.calls| == 2 ==>
                  var j := o.calls[1].job;
                  && j.externalId == r.orderId.value
                  && j.lineItems[0].externalId == r.orderId.value + "-item-1"
                  && j.lineItems[0].podPackageId == PodPackages[r.format.value]
                  && j.lineItems[0].interiorUrl == BookUrl(env, r.personalization.value, "interior")
                  && j.lineItems[0].coverUrl == BookUrl(env, r.personalization.value, "cover")
                  && j.shippingAddress == LuluAddressOf(r.shippingAddress.value))
  {
  }

  /** Every failure after validation is a 500 that carries the error's message. */
  lemma FailuresCarryMessage(req: Request, env: Env, token: TokenReply, submitted: PrintReply)
    requires req.httpMethod == "POST" && req.body.Some? && Complete(req.body.value)
    requires req.body.value.format.value in PodPackages
    ensures var o := Handle(req, env, token, submitted);
            && (!(Truthy(env.clientId) && Truthy(env.clientSecret)) ==>
                  o == Outcome(500, Failure(Some(NoCredentials)), []))
            && (Truthy(env.clientId) && Truthy(env.clientSecret) && token.TokenReply? && !token.ok ==>
                  o.status == 500 && o.body == Failure(Some(TokenFailed + token.statusText)))
            && (Truthy(env.clientId) && Truthy(env.clientSecret) && token.TokenReply? && token.ok
                && submitted.PrintReply? && !submitted.ok ==>
                  o.status == 500
                  && o.body == Failure(Some(PrintFailed + submitted.statusText + " - " + submitted.errorText)))
  {
    var r := req.body.value;
    assert Handle(req, env, token, submitted) == SubmitOrder(r, env, PodPackages[r.format.value], token, submitted);
    SubmitFailures(r, env, PodPackages[r.format.value], token, submitted);
  }

  lemma SubmitFailures(r: FulfillRequest, env: Env, podPackageId: string, token: TokenReply, submitted: PrintReply)
    requires Truthy(r.orderId) && r.personalization.Some? && r.shippingAddress.Some?
    ensures var o := SubmitOrder(r, env, podPackageId, token, submitted);
            && (!(Truthy(env.clientId) && Truthy(env.clientSecret)) ==>
                  o == Outcome(500, Failure(Some(NoCredentials)), []))
            && (Truthy(env.clientId) && Truthy(env.clientSecret) && token.TokenReply? && !token.ok ==>
                  o.status == 500 && o.body == Failure(Some(TokenFailed + token.statusText)))
            && (Truthy(env.clientId) && Truthy(env.clientSecret) && token.TokenReply? && token.ok
                && submitted.PrintReply? && !submitted.ok ==>
                  o.status == 500
                  && o.body == Failure(Some(PrintFailed + submitted.statusText + " - " + submitted.errorText)))
  {
  }
}

=== FILE: generate_sample.dfy ===
/**
  The sample-chapter endpoint, api/generate-sample.ts: its own copy of the personalisation engine
  (a different gender table, the name inserted as it is) and the request handling around the PDF.
 */
module GenerateSample {
  import opened Optional
  import opened JsString
  import opened Replace
  import opened Placeholders
  import Paths

  /**
    The endpoint's gender table. It is a plain record lookup: a key outside the three entries
    yields `undefined`, and reading a term off it throws.
   */
  function ApiTerms(gender: string): (t: Option<Terms>)
    ensures t.Some? <==> gender == "male" || gender == "female" || gender == "neutral"
  {
    if gender == "male" then Some(Terms("son", "my son", "he", "him", "his"))
    else if gender == "female" then Some(Terms("daughter", "my daughter", "she", "her", "her"))
    else if gender == "neutral" then Some(Terms("beloved", "my child", "they", "them", "their"))
    else None
  }

  /** Every entry of the table is five terms none of which can form a placeholder. */
  lemma ApiTermsInert(gender: string)
    requires ApiTerms(gender).Some?
    ensures var t := ApiTerms(gender).value;
            && Inert(t.sonDaughter) && Inert(t.myChild) && Inert(t.heShe) && Inert(t.himHer)
            && Inert(t.hisHer)
  {
    ApiTableLowerCase(gender);
    TermsInert(ApiTerms(gender).value);
  }

  /** Every entry of the table is made of lower-case words. */
  lemma ApiTableLowerCase(gender: string)
    requires ApiTerms(gender).Some?
    ensures var t := ApiTerms(gender).value;
            && t.sonDaughter != [] && t.myChild != [] && t.heShe != [] && t.himHer != [] && t.hisHer != []
            && LowerCase(t.sonDaughter) && LowerCase(t.myChild) && LowerCase(t.heShe)
            && LowerCase(t.himHer) && LowerCase(t.hisHer)
  {
    ApiMaleWords();
    ApiFemaleWords();
    ApiNeutralWords();
  }

  lemma ApiMaleWords()
    ensures LowerCase("son") && LowerCase("my son") && LowerCase("he") && LowerCase("him") && LowerCase("his")
  {
  }

  lemma ApiFemaleWords()
    ensures LowerCase("daughter") && LowerCase("my daughter") && LowerCase("she") && LowerCase("her")
  {
  }

  lemma ApiNeutralWords()
    ensures LowerCase("beloved") && LowerCase("my child") && LowerCase("they") && LowerCase("them")
    ensures LowerCase("their")
  {
  }

  lemma ApiTermsNoDollar(gender: string)
    requires ApiTerms(gender).Some?
    ensures var t := ApiTerms(gender).value;
            && '$' !in t.sonDaughter && '$' !in t.myChild && '$' !in t.heShe && '$' !in t.himHer
            && '$' !in t.hisHer
  {
  }

  /** `personalizeText` of the endpoint as written: the name goes in as a JavaScript replacement string. */
  function PersonalizeAsWritten(text: string, name: string, gender: string): (r: Option<string>)
    ensures r.Some? <==> ApiTerms(gender).Some?
  {
    match ApiTerms(gender)
    case None => None
    case Some(terms) =>
      RulesForWellFormed(name, terms);
      Some(ChainJs(text, RulesFor(name, terms)))
  }

  /** The endpoint's `personalizeText` with the name and the terms inserted literally. */
  function Personalize(text: string, name: string, gender: string): (r: Option<string>)
    ensures r.Some? <==> ApiTerms(gender).Some?
  {
    match ApiTerms(gender)
    case None => None
    case Some(terms) =>
      RulesForWellFormed(name, terms);
      Some(Chain(text, RulesFor(name, terms)))
  }

  /** Without a `$` in the name, the code as written inserts everything literally. */
  lemma AsWrittenIsLiteral(text: string, name: string, gender: string)
    requires '$' !in name
    ensures PersonalizeAsWritten(text, name, gender) == Personalize(text, name, gender)
  {
    if ApiTerms(gender).Some? {
      var terms := ApiTerms(gender).value;
      ApiTermsNoDollar(gender);
      var rules := RulesFor(name, terms);
      RulesForWellFormed(name, terms);
      ChainJsLiteral(text, rules);
    }
  }

  /** The name reaches the text as it was sent: `{{NAME}}` alone becomes the raw name, padding and all. */
  lemma NameVerbatim(name: string, gender: string)
    requires ApiTerms(gender).Some? && '{' !in name
    ensures Personalize(NameToken, name, gender) == Some(name)
  {
    var terms := ApiTerms(gender).value;
    var rules := RulesFor(name, terms);
    RulesForWellFormed(name, terms);
    ApiTermsInert(gender);
    RulesForBraceFree(name, terms);
    AllTokensAreTokens();
    ChainOnLoneToken(NameToken, rules);
    ResolveRulesFor(name, terms, 0);
  }

  /** A name containing `$&` is expanded by JavaScript into the matched placeholder itself. */
  lemma DollarNameKeepsPlaceholder(gender: string)
    requires ApiTerms(gender).Some?
    ensures PersonalizeAsWritten(NameToken, "$&", gender) == Some(NameToken)
    ensures Personalize(NameToken, "$&", gender) == Some("$&")
  {
    var terms := ApiTerms(gender).value;
    var rules := RulesFor("$&", terms);
    RulesForWellFormed("$&", terms);
    DollarAmpRestoresToken();
    OnlyNameInNameToken();
    NoPlaceholdersInShort("$&");
    assert rules[0] == Rule(NameToken, "$&");
    LaterTokensAbsent(NameToken, "$&", terms);
    LaterTokensAbsent("$&", "$&", terms);
    ChainFirstOnly(NameToken, rules, NameToken, "$&");
  }

  /** Text without placeholders is returned unchanged for each of the three genders. */
  lemma PlainTextUnchanged(text: string, name: string, gender: string)
    requires ApiTerms(gender).Some?
    requires forall i :: 0 <= i < |AllTokens| ==> !Occurs(AllTokens[i], text)
    ensures Personalize(text, name, gender) == Some(text)
    ensures PersonalizeAsWritten(text, name, gender) == Some(text)
  {
    var terms := ApiTerms(gender).value;
    RulesForWellFormed(name, terms);
    ChainIdentity(text, RulesFor(name, terms));
    ChainJsIdentity(text, RulesFor(name, terms));
  }

  /**
    When the name shields `{{NAME}}` (no brace, and some character `{{NAME}}` lacks) no placeholder
    survives, for each of the three genders.
   */
  lemma PlaceholdersEliminated(text: string, name: string, gender: string)
    requires ApiTerms(gender).Some? && Shields(name, NameToken)
    ensures forall i :: 0 <= i < |AllTokens| ==> !Occurs(AllTokens[i], Personalize(text, name, gender).value)
  {
    var terms := ApiTerms(gender).value;
    RulesForWellFormed(name, terms);
    ApiTermsInert(gender);
    RulesForTermsInert(name, terms);
    ChainEliminatesShieldedFirst(text, RulesFor(name, terms));
  }

  // ---------------------------------------------------------------------------------------------
  // The handler

  /** The JSON body: a field that is missing or not given is `None`. */
  datatype SampleBody = SampleBody(
    name: Option<string>, email: Option<string>, gender: Option<string>, bibleVersion: Option<string>)

  /** A request; `body` is `None` when nothing was parsed, and destructuring it then throws. */
  datatype Request = Request(httpMethod: string, body: Option<SampleBody>)

  datatype Verse = Verse(number: int, text: string)

  /** The chapter file: only the verses matter to the model, the rest feeds the PDF layout. */
  datatype Chapter = Chapter(title: string, book: string, chapter: int, versionName: string, verses: seq<Verse>)

  /**
    The one external effect before the PDF is laid out: reading the chapter file, named by its
    segments from the root.
   */
  datatype Call = ReadChapter(path: seq<string>)

  /** The response: an error, or the generated file's name with the personalised verses it lays out. */
  datatype Body = Error(error: string) | Sample(filename: string, verses: seq<Verse>)

  datatype Outcome = Outcome(status: int, body: Body, calls: seq<Call>)

  /** The directory of the chapter files, and the parts of a chapter file's name around the version. */
  const DataDir := "data"
  const ChapterPrefix := "matthew-5-"
  const ChapterSuffix := ".json"

  /** `matthew-5-<version>.json`. */
  function ChapterFile(bibleVersion: string): (f: string)
    ensures '/' in f <==> '/' in bibleVersion
  {
    assert '/' !in ChapterPrefix && '/' !in ChapterSuffix;
    ChapterPrefix + bibleVersion + ChapterSuffix
  }

  /**
    `path.join(process.cwd(), 'data', 'matthew-5-<version>.json')` for the working directory `cwd`:
    the version is not checked, so its `..` segments are resolved with the rest.
   */
  function ChapterPath(cwd: string, bibleVersion: string): (p: seq<string>)
    ensures Paths.Normal(p)
  {
    Paths.JoinPath(cwd, DataDir + "/" + ChapterFile(bibleVersion))
  }

  /**
    The file read is `data/matthew-5-<version>.json` under the working directory exactly when the
    version holds no `/`.
   */
  lemma ChapterPathInData(cwd: string, bibleVersion: string)
    ensures ChapterPath(cwd, bibleVersion) == Paths.JoinPath(cwd, "") + [DataDir, ChapterFile(bibleVersion)]
            <==> '/' !in bibleVersion
  {
    var f := ChapterFile(bibleVersion);
    var p := ChapterPath(cwd, bibleVersion);
    var base := Paths.JoinPath(cwd, "");
    if '/' !in bibleVersion {
      assert |f| >= 3;
      assert Paths.Named(DataDir) && Paths.Named(f);
      assert Paths.Join([DataDir, f]) == DataDir + "/" + f by {
        assert [DataDir, f][1..] == [f];
      }
      Paths.JoinBelow(cwd, [DataDir, f]);
    } else {
      assert !Paths.Normal(base + [DataDir, f]) by {
        assert (base + [DataDir, f])[|base| + 1] == f;
      }
    }
  }

  /**
    A version `../../../<w>` climbs out of the data directory: the handler reads `<w>.json` in
    the working directory itself.
   */
  lemma ChapterPathEscapes(cwd: string, w: string)
    requires '/' !in w
    ensures ChapterPath(cwd, "../../../" + w) == Paths.JoinPath(cwd, "") + [w + ChapterSuffix]
  {
    var named, last := ChapterPrefix + "..", w + ChapterSuffix;
    var segs := [DataDir, named, "..", "..", last];
    EscapeFile(w);
    JoinFive(DataDir, named, "..", "..", last);
    assert '/' !in ChapterPrefix && '/' !in ChapterSuffix;
    Paths.JoinSegments(cwd, segs);
    EscapeSteps(Paths.JoinPath(cwd, ""), named, last);
  }

  /** The file name of a version `../../../<w>` splits after `matthew-5-..` and after each `..`. */
  lemma EscapeFile(w: string)
    ensures ChapterFile("../../../" + w) == ChapterPrefix + ".." + "/" + ".." + "/" + ".." + "/" + (w + ChapterSuffix)
  {
    assert "../../../" == ".." + "/" + ".." + "/" + ".." + "/";
  }

  lemma JoinFive(a: string, b: string, c: string, d: string, e: string)
    ensures Paths.Join([a, b, c, d, e]) == a + "/" + (b + "/" + c + "/" + d + "/" + e)
  {
    var segs := [a, b, c, d, e];
    assert Paths.Join(segs[4..]) == e;
    assert Paths.Join(segs[3..]) == d + "/" + e;
    assert Paths.Join(segs[2..]) == c + "/" + d + "/" + e;
    assert Paths.Join(segs[1..]) == b + "/" + c + "/" + d + "/" + e;
  }

  /** Down into the data directory and one name further, then up three levels, then down to `last`. */
  lemma EscapeSteps(base: seq<string>, named: string, last: string)
    requires Paths.Named(named) && Paths.Named(last)
    ensures Paths.Resolve(base, [DataDir, named, "..", "..", last]) == base + [last]
  {
    var segs := [DataDir, named, "..", "..", last];
    assert Paths.Named(DataDir);
    assert Paths.Resolve(base, segs) == Paths.Resolve(base + [DataDir], segs[1..]);
    assert segs[1..][0] == named && segs[1..][1..] == segs[2..];
    assert base + [DataDir] + [named] == base + [DataDir, named];
    assert Paths.Resolve(base + [DataDir], segs[1..]) == Paths.Resolve(base + [DataDir, named], segs[2..]);
    assert Paths.Parent(base + [DataDir, named]) == base + [DataDir];
    assert Paths.Resolve(base + [DataDir, named], segs[2..]) == Paths.Resolve(base + [DataDir], segs[3..]);
    assert Paths.Parent(base + [DataDir]) == base;
    assert Paths.Resolve(base + [DataDir], segs[3..]) == Paths.Resolve(base, segs[4..]);
    assert segs[4..] == [last];
    Paths.ResolveOne(base, last);
  }

  /** `Matthew-5-<name>-<VERSION>.pdf`, the name of the returned file. */
  function SampleFilename(name: string, bibleVersion: string): (f: string)
    ensures |f| == 10 + |name| + 1 + |bibleVersion| + 4
    ensures f[..10] == "Matthew-5-" && f[|f| - 4..] == ".pdf"
    ensures f[10..10 + |name|] == name
    ensures f[10 + |name|] == '-'
    ensures f[11 + |name|..|f| - 4] == ToUpper(bibleVersion)
  {
    "Matthew-5-" + name + "-" + ToUpper(bibleVersion) + ".pdf"
  }

  /** The filename determines the name once the version's length is known. */
  lemma FilenameRecoversName(name1: string, name2: string, bibleVersion: string)
    requires SampleFilename(name1, bibleVersion) == SampleFilename(name2, bibleVersion)
    ensures name1 == name2
  {
    var f := SampleFilename(name1, bibleVersion);
    assert name1 == f[10..10 + |name1|];
  }

  /**
    Each verse with its text personalised by the endpoint's own `replace` chain, `$` patterns
    included; `None` as soon as one verse throws.
   */
  function PersonalizeVerses(verses: seq<Verse>, name: string, gender: string): (r: Option<seq<Verse>>)
    ensures r.Some? <==> verses == [] || ApiTerms(gender).Some?
    ensures r.Some? ==> |r.value| == |verses|
    ensures r.Some? ==> forall i :: 0 <= i < |verses| ==>
              r.value[i].number == verses[i].number
              && PersonalizeAsWritten(verses[i].text, name, gender) == Some(r.value[i].text)
    decreases |verses|
  {
    if verses == [] then Some([])
    else match PersonalizeAsWritten(verses[0].text, name, gender)
      case None => None
      case Some(t) =>
        match PersonalizeVerses(verses[1..], name, gender)
        case None => None
        case Some(rest) => Some([Verse(verses[0].number, t)] + rest)
  }

  /**
    The handler. `chapter` is what reading the chapter file gives: `None` when the file is missing
    or is not valid JSON. A thrown error anywhere after the method check becomes 500.
   */
  function Handle(req: Request, cwd: string, chapter: Option<Chapter>): (o: Outcome)
    ensures o.status == 405 <==> req.httpMethod != "POST"
    ensures o.status == 405 ==> o.body == Error("Method not allowed")
    ensures o.status == 400 <==>
              req.httpMethod == "POST" && req.body.Some?
              && !(Truthy(req.body.value.name) && Truthy(req.body.value.email)
                   && Truthy(req.body.value.gender) && Truthy(req.body.value.bibleVersion))
    ensures o.status == 400 ==> o.body == Error("Missing required fields")
    ensures o.status in {405, 400} ==> o.calls == []
    ensures o.status in {200, 400, 405, 500}
    ensures o.status == 500 ==> o.body == Error("Failed to generate PDF")
  {
    if req.httpMethod != "POST" then Outcome(405, Error("Method not allowed"), [])
    else if req.body.None? then Outcome(500, Error("Failed to generate PDF"), [])
    else
      var b := req.body.value;
      if !(Truthy(b.name) && Truthy(b.email) && Truthy(b.gender) && Truthy(b.bibleVersion)) then
        Outcome(400, Error("Missing required fields"), [])
      else
        var name, gender, version := b.name.value, b.gender.value, b.bibleVersion.value;
        var calls := [ReadChapter(ChapterPath(cwd, version))];
        match chapter
        case None => Outcome(500, Error("Failed to generate PDF"), calls)
        case Some(c) =>
          match PersonalizeVerses(c.verses, name, gender)
          case None => Outcome(500, Error("Failed to generate PDF"), calls)
          case Some(vs) => Outcome(200, Sample(SampleFilename(name, version), vs), calls)
  }

  /**
    A valid request reads exactly the chapter file of its version and, when the file loads and the
    gender is one of the three, returns every verse with its number and its text as the endpoint's
    `replace` chain leaves it, under `Matthew-5-<name>-<VERSION>.pdf`.
   */
  lemma HandleSuccess(req: Request, cwd: string, c: Chapter)
    requires req.httpMethod == "POST" && req.body.Some?
    requires var b := req.body.value;
             Truthy(b.name) && Truthy(b.email) && Truthy(b.gender) && Truthy(b.bibleVersion)
    ensures var b := req.body.value;
            var o := Handle(req, cwd, Some(c));
            && o.calls == [ReadChapter(ChapterPath(cwd, b.bibleVersion.value))]
            && (o.status == 200 <==> c.verses == [] || ApiTerms(b.gender.value).Some?)
            && (o.status == 200 ==>
                  o.body.Sample? && o.body.filename == SampleFilename(b.name.value, b.bibleVersion.value)
                  && |o.body.verses| == |c.verses|
                  && forall i :: 0 <= i < |c.verses| ==>
                       o.body.verses[i].number == c.verses[i].number
                       && PersonalizeAsWritten(c.verses[i].text, b.name.value, b.gender.value)
                          == Some(o.body.verses[i].text))
  {
  }

  /** An unknown gender fails the whole request with 500, unless the chapter has no verse at all. */
  lemma UnknownGenderFails(req: Request, cwd: string, c: Chapter)
    requires req.httpMethod == "POST" && req.body.Some?
    requires var b := req.body.value;
             Truthy(b.name) && Truthy(b.email) && Truthy(b.gender) && Truthy(b.bibleVersion)
    requires ApiTerms(req.body.value.gender.value).None? && c.verses != []
    ensures Handle(req, cwd, Some(c)) == Outcome(500, Error("Failed to generate PDF"),
                                                 [ReadChapter(ChapterPath(cwd, req.body.value.bibleVersion.value))])
  {
  }
}

=== FILE: get_session.dfy ===
/**
  The confirmation endpoint, api/get-session.ts: it looks a Checkout Session up by id and, once the
  payment is complete, returns the order it describes. Stripe's lookup is an oracle.
 */
module GetSession {
  import opened Optional
  import opened JsString
  import opened Stripe

  /** A query parameter: absent, given once, or given several times (an array). */
  datatype QueryValue = Absent | Single(value: string) | Repeated(values: seq<string>)

  datatype Request = Request(httpMethod: string, sessionId: QueryValue)

  /** What `stripe.checkout.sessions.retrieve` does: it throws, or returns the session. */
  datatype Retrieval = RetrieveThrew | Retrieved(session: Session)

  /** The one external effect: asking Stripe for the session. */
  datatype Call = Retrieve(sessionId: string)

  /** The confirmed order: the session's metadata passed through as it is. */
  datatype Order = Order(
    orderId: string, customerEmail: Option<string>, customerName: Option<string>, gender: Option<string>,
    format: Option<string>, bibleVersion: Option<string>, amountTotal: Option<int>, paymentStatus: string)

  datatype Body = Error(error: string) | Confirmed(order: Order)

  datatype Outcome = Outcome(status: int, body: Body, calls: seq<Call>)

  /** `WN-` and the last six characters of the session id, upper-cased. */
  function OrderId(sessionId: string): (id: string)
    ensures |sessionId| >= 6 ==> id == "WN-" + ToUpper(sessionId[|sessionId| - 6..])
    ensures |sessionId| < 6 ==> id == "WN-" + ToUpper(sessionId)
  {
    "WN-" + ToUpper(SliceLast(sessionId, 6))
  }

  /** A usable `session_id`: one non-empty string. */
  predicate ValidId(q: QueryValue) {
    q.Single? && q.value != ""
  }

  /** The order a paid session describes. */
  function OrderOf(s: Session): (o: Order)
    ensures o.orderId == OrderId(s.id)
    ensures o.customerEmail == s.customerEmail && o.amountTotal == s.amountTotal
    ensures o.customerName == s.metadata.customerName && o.gender == s.metadata.gender
    ensures o.format == s.metadata.format && o.bibleVersion == s.metadata.bibleVersion
    ensures o.paymentStatus == s.paymentStatus
  {
    Order(OrderId(s.id), s.customerEmail, s.metadata.customerName, s.metadata.gender, s.metadata.format,
          s.metadata.bibleVersion, s.amountTotal, s.paymentStatus)
  }

  /** The handler. `retrieval` is what Stripe answers when it is asked. */
  function Handle(req: Request, stripeSecretKey: Option<string>, retrieval: Retrieval): (o: Outcome)
    ensures o.status == 405 <==> req.httpMethod != "GET"
    ensures o.status == 405 ==> o.body == Error("Method not allowed")
    ensures o.body == Error("Payment system not configured") <==> req.httpMethod == "GET" && !Truthy(stripeSecretKey)
    ensures o.body == Error("Missing session_id") <==>
              req.httpMethod == "GET" && Truthy(stripeSecretKey) && !ValidId(req.sessionId)
    ensures o.calls != [] <==> req.httpMethod == "GET" && Truthy(stripeSecretKey) && ValidId(req.sessionId)
    ensures o.calls != [] ==> o.calls == [Retrieve(req.sessionId.value)]
    ensures o.body == Error("Payment not completed") <==>
              o.calls != [] && retrieval.Retrieved? && retrieval.session.paymentStatus != "paid"
    ensures o.status == 200 <==> o.calls != [] && retrieval.Retrieved? && retrieval.session.paymentStatus == "paid"
    ensures o.status == 200 ==> o.body == Confirmed(OrderOf(retrieval.session)) && o.body.order.paymentStatus == "paid"
    ensures o.body.Confirmed? ==> o.status == 200
    ensures o.calls != [] && retrieval.RetrieveThrew? ==> o == Outcome(500, Error("Failed to retrieve session"), o.calls)
  {
    if req.httpMethod != "GET" then Outcome(405, Error("Method not allowed"), [])
    else if !Truthy(stripeSecretKey) then Outcome(500, Error("Payment system not configured"), [])
    else if !ValidId(req.sessionId) then Outcome(400, Error("Missing session_id"), [])
    else
      var calls := [Retrieve(req.sessionId.value)];
      match retrieval
      case RetrieveThrew => Outcome(500, Error("Failed to retrieve session"), calls)
      case Retrieved(s) =>
        if s.paymentStatus != "paid" then Outcome(400, Error("Payment not completed"), calls)
        else Outcome(200, Confirmed(OrderOf(s)), calls)
  }

  /** No order data leaves the endpoint unless the payment is complete. */
  lemma UnpaidRevealsNothing(req: Request, key: Option<string>, retrieval: Retrieval)
    requires retrieval.Retrieved? ==> retrieval.session.paymentStatus != "paid"
    ensures !Handle(req, key, retrieval).body.Confirmed?
  {
  }

  /** A repeated `session_id` is refused as missing, before Stripe is asked. */
  lemma RepeatedIdRefused(values: seq<string>, key: Option<string>, retrieval: Retrieval)
    requires Truthy(key)
    ensures Handle(Request("GET", Repeated(values)), key, retrieval) == Outcome(400, Error("Missing session_id"), [])
  {
  }
}

=== FILE: jsstring.dfy ===
/** Optional values: a JSON field that is absent, `null` or `undefined` is `None`. */
module Optional {

  datatype Option<+T> = None | Some(value: T) {

    /** The value, or `default` when there is none. */
    function GetOr(default: T): T {
      match this
      case Some(v) => v
      case None => default
    }
  }
}

/** The few JavaScript string operations the storefront relies on. */
module JsString {
  import opened Optional

  /** JavaScript truthiness of an optional string: absent and `""` are falsy. */
  predicate Truthy(o: Option<string>) {
    o.Some? && o.value != ""
  }

  /** `o || fallback` for an optional string. */
  function Or(o: Option<string>, fallback: string): (r: string)
    ensures Truthy(o) ==> r == o.value
    ensures !Truthy(o) ==> r == fallback
  {
    if Truthy(o) then o.value else fallback
  }

  /** The word a missing value prints as. */
  const Undefined := "undefined"

  /** An optional string inside a template literal: an absent value prints as `undefined`. */
  function Interpolate(o: Option<string>): (r: string)
    ensures o.Some? ==> r == o.value
    ensures o.None? ==> r == Undefined
  {
    o.GetOr(Undefined)
  }

  /** The characters `String.prototype.trim` removes: ECMAScript WhiteSpace and LineTerminator. */
  predicate IsWhitespace(c: char) {
    || c == '\t' || c == '\n' || c == '\U{B}' || c == '\U{C}' || c == '\r' || c == ' '
    || c == '\U{A0}' || c == '\U{1680}' || ('\U{2000}' <= c <= '\U{200A}')
    || c == '\U{2028}' || c == '\U{2029}' || c == '\U{202F}' || c == '\U{205F}'
    || c == '\U{3000}' || c == '\U{FEFF}'
  }

  predicate AllWhitespace(s: string) {
    forall i :: 0 <= i < |s| ==> IsWhitespace(s[i])
  }

  /** Drops leading whitespace: the result is the longest suffix not starting with whitespace. */
  function TrimStart(s: string): (r: string)
    ensures |r| <= |s| && r == s[|s| - |r|..]
    ensures AllWhitespace(s[..|s| - |r|])
    ensures |r| > 0 ==> !IsWhitespace(r[0])
    decreases |s|
  {
    if |s| > 0 && IsWhitespace(s[0]) then TrimStart(s[1..]) else s
  }

  /** Drops trailing whitespace: the result is the longest prefix not ending with whitespace. */
  function TrimEnd(s: string): (r: string)
    ensures |r| <= |s| && r == s[..|r|]
    ensures AllWhitespace(s[|r|..])
    ensures |r| > 0 ==> !IsWhitespace(r[|r| - 1])
    decreases |s|
  {
    if |s| > 0 && IsWhitespace(s[|s| - 1]) then TrimEnd(s[..|s| - 1]) else s
  }

  /** `String.prototype.trim`. */
  function Trim(s: string): (r: string)
    ensures |r| <= |s|
    ensures |r| > 0 ==> !IsWhitespace(r[0]) && !IsWhitespace(r[|r| - 1])
  {
    TrimEnd(TrimStart(s))
  }

  /** Trimming removes whitespace from both ends and nothing else. */
  lemma TrimInfix(s: string) returns (i: nat, j: nat)
    ensures i <= j <= |s| && Trim(s) == s[i..j]
    ensures AllWhitespace(s[..i]) && AllWhitespace(s[j..])
  {
    var a := TrimStart(s);
    var r := TrimEnd(a);
    i := |s| - |a|;
    j := i + |r|;
    assert r == s[i..j];
    assert s[j..] == a[|r|..];
  }

  /** Trimming introduces no character. */
  lemma TrimOmits(s: string, c: char)
    requires c !in s
    ensures c !in Trim(s)
  {
    var i, j := TrimInfix(s);
    forall k | 0 <= k < |Trim(s)| ensures Trim(s)[k] != c {
      assert Trim(s)[k] == s[i + k];
    }
  }

  /** Trimming a trimmed string changes nothing. */
  lemma TrimIdempotent(s: string)
    ensures Trim(Trim(s)) == Trim(s)
  {
    var t := Trim(s);
    if |t| > 0 {
      assert !IsWhitespace(t[0]);
      assert TrimStart(t) == t;
      assert !IsWhitespace(t[|t| - 1]);
      assert TrimEnd(t) == t;
    }
  }

  /** A string is all whitespace exactly when it trims to the empty string. */
  lemma TrimEmptyIffBlank(s: string)
    ensures Trim(s) == [] <==> AllWhitespace(s)
  {
    var i, j := TrimInfix(s);
    if Trim(s) == [] {
      assert i == j;
      forall k | 0 <= k < |s| ensures IsWhitespace(s[k]) {
        if k < i { assert s[k] == s[..i][k]; } else { assert s[k] == s[j..][k - j]; }
      }
    } else {
      var t := Trim(s);
      assert s[i] == t[0];
      assert !IsWhitespace(s[i]);
    }
  }

  /** `toUpperCase` on the ASCII letters; every other character is left as it is. */
  function UpperChar(c: char): (r: char)
    ensures 'a' <= c <= 'z' ==> 'A' <= r <= 'Z' && r as int - c as int == 'A' as int - 'a' as int
    ensures !('a' <= c <= 'z') ==> r == c
  {
    if 'a' <= c <= 'z' then (c as int - 'a' as int + 'A' as int) as char else c
  }

  function ToUpper(s: string): (r: string)
    ensures |r| == |s|
    decreases |s|
  {
    if s == [] then [] else [UpperChar(s[0])] + ToUpper(s[1..])
  }

  /** Upper-casing maps each character on its own, keeping its position. */
  lemma {:induction false} ToUpperChars(s: string)
    ensures forall i :: 0 <= i < |s| ==> ToUpper(s)[i] == UpperChar(s[i])
    decreases |s|
  {
    if s != [] {
      ToUpperChars(s[1..]);
      assert forall i :: 1 <= i < |s| ==> ToUpper(s)[i] == ToUpper(s[1..])[i - 1];
    }
  }

  /** `s.slice(-n)` for a positive `n`: the last `n` characters, or all of `s` when it is shorter. */
  function SliceLast(s: string, n: nat): (r: string)
    requires n > 0
    ensures |r| == if |s| < n then |s| else n
    ensures r == s[|s| - |r|..]
  {
    if |s| < n then s else s[|s| - n..]
  }

  /** A shorter slice from the end is a suffix of a longer one. */
  lemma SliceLastNested(s: string, m: nat, n: nat)
    requires 0 < m <= n
    ensures var a, b := SliceLast(s, n), SliceLast(s, m);
            |b| <= |a| && a[|a| - |b|..] == b
  {
  }

  /** Upper-casing commutes with slicing from the end. */
  lemma UpperSliceLast(s: string, n: nat)
    requires n > 0
    ensures ToUpper(SliceLast(s, n)) == SliceLast(ToUpper(s), n)
  {
    if |s| >= n {
      ToUpperSuffix(s, |s| - n);
    }
  }

  /** Upper-casing commutes with taking a suffix. */
  lemma {:induction false} ToUpperSuffix(s: string, k: nat)
    requires k <= |s|
    ensures ToUpper(s)[k..] == ToUpper(s[k..])
    decreases k
  {
    if k > 0 {
      ToUpperSuffix(s[1..], k - 1);
      assert s[1..][k - 1..] == s[k..];
    }
  }
}

=== FILE: order_flow.dfy ===
/**
  How an order travels between the endpoints: the checkout writes the order into the session's
  metadata, the webhook turns the completed session into a fulfilment request, the fulfilment
  endpoint validates it, and the confirmation page reads the same session back.
 */
module OrderFlow {
  import opened Optional
  import opened JsString
  import opened Stripe
  import Catalog
  import Checkout
  import Webhook
  import GetSession
  import F = Fulfillment

  // ---------------------------------------------------------------------------------------------
  // Order ids

  /**
    The webhook and the confirmation page name the same order differently: they agree exactly when
    the session id has at most six characters.
   */
  lemma OrderIdsAgreeIff(sessionId: string)
    ensures Webhook.OrderId(sessionId) == GetSession.OrderId(sessionId) <==> |sessionId| <= 6
  {
    var w, g := Webhook.OrderId(sessionId), GetSession.OrderId(sessionId);
    if |sessionId| > 6 {
      assert |w| != |g|;
    }
  }

  /** The confirmation page's id is the tail of the webhook's: both end in the id's last characters. */
  lemma OrderIdsShareTail(sessionId: string)
    ensures var w, g := Webhook.OrderId(sessionId), GetSession.OrderId(sessionId);
            |g| <= |w| && w[|w| - (|g| - 3)..] == g[3..] && w[..3] == g[..3] == "WN-"
  {
    OrderIdsOfUpper(sessionId);
    TailsShared("WN-", ToUpper(sessionId), Webhook.OrderId(sessionId), GetSession.OrderId(sessionId));
  }

  /** Ids built from the last eight and the last six characters of the same text share their tail. */
  lemma TailsShared(p: string, u: string, w: string, g: string)
    requires w == p + SliceLast(u, 8) && g == p + SliceLast(u, 6)
    ensures |g| <= |w| && w[|w| - (|g| - |p|)..] == g[|p|..] && w[..|p|] == g[..|p|] == p
  {
    var x, y := SliceLast(u, 8), SliceLast(u, 6);
    SliceLastNested(u, 6, 8);
    SharedTail(p, x, y, w, g);
  }

  /** Two strings with a common prefix, the second's rest a suffix of the first's. */
  lemma SharedTail(p: string, x: string, y: string, w: string, g: string)
    requires |y| <= |x| && x[|x| - |y|..] == y
    requires w == p + x && g == p + y
    ensures |g| <= |w| && w[|w| - (|g| - |p|)..] == g[|p|..] && w[..|p|] == g[..|p|] == p
  {
    assert w[|w| - (|g| - |p|)..] == x[|x| - |y|..];
    assert g[|p|..] == y;
  }

  /** Both ids take the tail of the upper-cased session id. */
  lemma OrderIdsOfUpper(sessionId: string)
    ensures Webhook.OrderId(sessionId) == "WN-" + SliceLast(ToUpper(sessionId), 8)
    ensures GetSession.OrderId(sessionId) == "WN-" + SliceLast(ToUpper(sessionId), 6)
  {
    UpperSliceLast(sessionId, 8);
    UpperSliceLast(sessionId, 6);
  }

  // ---------------------------------------------------------------------------------------------
  // The metadata round trip

  /** The session Stripe hands back for a checkout carries the form in its metadata. */
  predicate FromCheckout(s: Session, b: Checkout.CheckoutBody, env: Checkout.Env)
    requires Checkout.Complete(b)
  {
    s.metadata == Checkout.SessionFor(b, env).metadata
  }

  /** The confirmation page shows the name, gender, format and version that were entered at checkout. */
  lemma ConfirmationShowsCheckout(b: Checkout.CheckoutBody, env: Checkout.Env, s: Session)
    requires Checkout.Complete(b) && FromCheckout(s, b, env)
    ensures var o := GetSession.OrderOf(s);
            o.customerName == b.name && o.gender == b.gender && o.format == b.format
            && o.bibleVersion == b.bibleVersion
  {
  }

  /**
    The webhook asks for the book that was ordered: the form's name, gender and version, and its
    format; the defaults `neutral` and `web` never apply to a session the checkout created.
   */
  lemma FulfilmentMatchesCheckout(b: Checkout.CheckoutBody, env: Checkout.Env, s: Session)
    requires Checkout.Complete(b) && FromCheckout(s, b, env)
    ensures Webhook.FulfillmentFor(s).Some?
    ensures var r := Webhook.FulfillmentFor(s).value;
            && r.personalization == Some(F.Personalization(b.name, b.gender, b.bibleVersion))
            && r.format == b.format && r.customerName == b.name
  {
  }

  // ---------------------------------------------------------------------------------------------
  // Digital orders through the webhook

  /**
    A paid digital order is refused by the fulfilment endpoint as written: the webhook sends no
    address for it, and the endpoint demands one before it looks at the format.
   */
  lemma DigitalOrderRejected(s: Session, env: F.Env, token: F.TokenReply, submitted: F.PrintReply)
    requires Truthy(s.metadata.customerName) && s.metadata.format == Some("digital")
    ensures var r := Webhook.FulfillmentFor(s).value;
            F.Handle(F.Request("POST", Some(r)), env, token, submitted)
              == F.Outcome(400, F.Error("Missing required fields"), [])
  {
    var r := Webhook.FulfillmentFor(s).value;
    assert r.shippingAddress.None?;
  }

  /** With the address check moved after the digital branch, the same order is queued for email. */
  lemma DigitalOrderQueuedWhenCorrected(s: Session, env: F.Env, token: F.TokenReply, submitted: F.PrintReply)
    requires Truthy(s.metadata.customerName) && s.metadata.format == Some("digital") && Truthy(s.customerEmail)
    ensures var r := Webhook.FulfillmentFor(s).value;
            F.HandleCorrected(F.Request("POST", Some(r)), env, token, submitted)
              == F.Outcome(200, F.DigitalQueued(F.DigitalMessage), [])
  {
    var r := Webhook.FulfillmentFor(s).value;
    F.CorrectedHandlerAgrees(F.Request("POST", Some(r)), env, token, submitted);
  }

  // ---------------------------------------------------------------------------------------------
  // Printed books through the webhook

  /**
    A printed book that Stripe collected an address and an email for passes the fulfilment
    endpoint's validation, and its format has a print package.
   */
  lemma PhysicalOrderReachesLulu(b: Checkout.CheckoutBody, env: Checkout.Env, s: Session, f: Catalog.Format)
    requires Checkout.Complete(b) && FromCheckout(s, b, env)
    requires b.format == Some(Catalog.FormatName(f)) && f != Catalog.Digital
    requires s.shippingDetails.Some? && Truthy(s.customerEmail)
    ensures F.Complete(Webhook.FulfillmentFor(s).value)
    ensures Webhook.FulfillmentFor(s).value.format.value in F.PodPackages
  {
  }
}

=== FILE: paths.dfy ===
/**
  Node's POSIX `path.join` for an absolute first part: the parts are joined with `/` and the
  result is normalised, so empty and `.` segments vanish and `..` removes the segment before it
  (at the root it is dropped). A path is modelled as its segments from the root.
 */
module Paths {

  /** The `/`-separated segments of a string: `a//b/` gives `a`, ``, `b` and ``. */
  function Split(s: string): (r: seq<string>)
    ensures |r| >= 1
    ensures forall i :: 0 <= i < |r| ==> '/' !in r[i]
    decreases |s|
  {
    if s == [] then [""]
    else
      var rest := Split(s[1..]);
      if s[0] == '/' then [""] + rest else [[s[0]] + rest[0]] + rest[1..]
  }

  /** The segments put back together with `/` between them. */
  function Join(segs: seq<string>): (s: string)
    requires |segs| >= 1
    decreases |segs|
  {
    if |segs| == 1 then segs[0] else segs[0] + "/" + Join(segs[1..])
  }

  /** Splitting and joining undo each other. */
  lemma {:induction false} JoinSplit(s: string)
    ensures Join(Split(s)) == s
    decreases |s|
  {
    if s != [] {
      var rest := Split(s[1..]);
      JoinSplit(s[1..]);
      if s[0] == '/' {
        assert Split(s) == [""] + rest;
        assert Split(s)[1..] == rest;
      } else if |rest| == 1 {
        assert Split(s) == [[s[0]] + rest[0]];
      } else {
        assert Split(s)[1..] == rest[1..];
        assert Join(rest) == rest[0] + "/" + Join(rest[1..]);
      }
    }
  }

  /** A string without `/` is one segment. */
  lemma {:induction false} SplitNoSlash(s: string)
    requires '/' !in s
    ensures Split(s) == [s]
    decreases |s|
  {
    if s != [] {
      assert '/' !in s[1..] by {
        forall i | 0 <= i < |s[1..]| ensures s[1..][i] != '/' {
          assert s[1..][i] == s[i + 1];
        }
      }
      SplitNoSlash(s[1..]);
      assert [s[0]] + s[1..] == s;
    }
  }

  /** A `/` between two strings separates their segments. */
  lemma {:induction false} SplitAppend(a: string, b: string)
    ensures Split(a + "/" + b) == Split(a) + Split(b)
    decreases |a|
  {
    if a == [] {
      assert a + "/" + b == "/" + b;
      assert ("/" + b)[1..] == b;
    } else {
      assert (a + "/" + b)[1..] == a[1..] + "/" + b;
      SplitAppend(a[1..], b);
    }
  }

  /** Joining segments that hold no `/` and splitting again gives them back. */
  lemma {:induction false} SplitJoin(segs: seq<string>)
    requires |segs| >= 1
    requires forall i :: 0 <= i < |segs| ==> '/' !in segs[i]
    ensures Split(Join(segs)) == segs
    decreases |segs|
  {
    SplitNoSlash(segs[0]);
    if |segs| > 1 {
      SplitJoin(segs[1..]);
      SplitAppend(segs[0], Join(segs[1..]));
      assert [segs[0]] + segs[1..] == segs;
    }
  }

  /** A segment that names an entry: not empty, not `.` or `..`, without `/`. */
  predicate Named(seg: string) {
    seg != "" && seg != "." && seg != ".." && '/' !in seg
  }

  /** A normalised path: every segment names an entry. */
  predicate Normal(dir: seq<string>) {
    forall i :: 0 <= i < |dir| ==> Named(dir[i])
  }

  /** The directory above: the root is its own parent. */
  function Parent(dir: seq<string>): (p: seq<string>)
    ensures dir != [] ==> dir == p + [dir[|dir| - 1]]
    ensures dir == [] ==> p == []
  {
    if dir == [] then [] else dir[..|dir| - 1]
  }

  /** Walking the segments from `dir`, as the normalisation does from left to right. */
  function Resolve(dir: seq<string>, segs: seq<string>): (r: seq<string>)
    ensures Normal(dir) && (forall i :: 0 <= i < |segs| ==> '/' !in segs[i]) ==> Normal(r)
    ensures |r| <= |dir| + |segs|
    decreases |segs|
  {
    if segs == [] then dir
    else if segs[0] == "" || segs[0] == "." then Resolve(dir, segs[1..])
    else if segs[0] == ".." then Resolve(Parent(dir), segs[1..])
    else Resolve(dir + [segs[0]], segs[1..])
  }

  /** Resolving two runs of segments is resolving the first, then the second from where it ends. */
  lemma {:induction false} ResolveAppend(dir: seq<string>, a: seq<string>, b: seq<string>)
    ensures Resolve(dir, a + b) == Resolve(Resolve(dir, a), b)
    decreases |a|
  {
    if a != [] {
      assert (a + b)[0] == a[0] && (a + b)[1..] == a[1..] + b;
      var next := if a[0] == "" || a[0] == "." then dir else if a[0] == ".." then Parent(dir) else dir + [a[0]];
      assert Resolve(dir, a + b) == Resolve(next, a[1..] + b);
      assert Resolve(dir, a) == Resolve(next, a[1..]);
      ResolveAppend(next, a[1..], b);
    } else {
      assert a + b == b;
    }
  }

  /** A named segment goes down one level, `..` goes up one. */
  lemma ResolveOne(dir: seq<string>, seg: string)
    ensures Named(seg) ==> Resolve(dir, [seg]) == dir + [seg]
    ensures seg == ".." ==> Resolve(dir, [seg]) == Parent(dir)
  {
    assert [seg][1..] == [];
  }

  /** `path.join(root, rel)` for an absolute `root`, as the segments of the result. */
  function JoinPath(root: string, rel: string): (r: seq<string>)
    ensures Normal(r)
  {
    Resolve([], Split(root + "/" + rel))
  }

  /** Joining segments that hold no `/` to the root walks them from the root. */
  lemma JoinSegments(root: string, rel: seq<string>)
    requires |rel| >= 1
    requires forall i :: 0 <= i < |rel| ==> '/' !in rel[i]
    ensures JoinPath(root, Join(rel)) == Resolve(JoinPath(root, ""), rel)
  {
    var base := Resolve([], Split(root));
    SplitAppend(root, Join(rel));
    SplitJoin(rel);
    ResolveAppend([], Split(root), rel);
    SplitAppend(root, "");
    ResolveAppend([], Split(root), [""]);
    assert Resolve(base, [""]) == base by { assert [""][1..] == []; }
  }

  /** A relative path of named segments lands below the root, in that order. */
  lemma JoinBelow(root: string, rel: seq<string>)
    requires |rel| >= 1 && Normal(rel)
    ensures JoinPath(root, Join(rel)) == JoinPath(root, "") + rel
  {
    JoinSegments(root, rel);
    ResolveNamed(JoinPath(root, ""), rel);
  }

  /** Named segments are appended one by one. */
  lemma {:induction false} ResolveNamed(dir: seq<string>, rel: seq<string>)
    requires Normal(rel)
    ensures Resolve(dir, rel) == dir + rel
    decreases |rel|
  {
    if rel != [] {
      assert Named(rel[0]);
      ResolveNamed(dir + [rel[0]], rel[1..]);
      assert dir + [rel[0]] + rel[1..] == dir + rel;
    }
  }
}

=== FILE: personalization.dfy ===
/**
  The preview engine of the web front end: `getGenderTerms` and `personalizeText` of
  utils/personalization.ts.
 */
module Personalization {
  import opened JsString
  import opened Replace
  import opened Placeholders

  /** Shown in place of a blank name. */
  const Fallback := "[Your Name]"

  /** `getGenderTerms`: "male" and "female" have entries; every other value gets the neutral one. */
  function GenderTerms(gender: string): (t: Terms)
    ensures t.myChild == "my child"
  {
    if gender == "male" then Terms("son", "my child", "he", "him", "his")
    else if gender == "female" then Terms("daughter", "my child", "she", "her", "hers")
    else Terms("beloved", "my child", "they", "them", "their")
  }

  /** The value `{{NAME}}` is replaced by: the trimmed name, or the fallback when that is empty. */
  function DisplayName(name: string): (d: string)
    ensures d != []
  {
    var t := Trim(name);
    if t != [] then t else Fallback
  }

  /** The displayed name is never blank and never padded: the trimmed name, or the fallback for a blank one. */
  lemma DisplayNameShape(name: string)
    ensures var d := DisplayName(name);
            && Trim(d) == d
            && (if AllWhitespace(name) then d == Fallback else d == Trim(name))
  {
    TrimIdempotent(name);
    TrimEmptyIffBlank(name);
    FallbackTrimmed();
  }

  /** A name is shown as it is exactly when it is non-empty and already trimmed. */
  lemma DisplayNameFixed(name: string)
    ensures DisplayName(name) == name <==> name != [] && Trim(name) == name
  {
    DisplayNameShape(name);
    TrimEmptyIffBlank(name);
    FallbackTrimmed();
  }

  /** The fallback holds no brace, so it cannot open a placeholder. */
  lemma FallbackBraceFree()
    ensures '{' !in Fallback
  {
    assert forall i :: 0 <= i < |Fallback| ==> Fallback[i] != '{';
  }

  /** The fallback holds neither brace and some character outside placeholder names. */
  lemma FallbackInert()
    ensures Inert(Fallback)
  {
    assert Fallback[0] == '[' && !IsWordChar(Fallback[0]);
    assert forall i :: 0 <= i < |Fallback| ==> Fallback[i] != '{' && Fallback[i] != '}';
  }

  /** The fallback has no surrounding whitespace, so it is its own display name. */
  lemma FallbackTrimmed()
    ensures Trim(Fallback) == Fallback && DisplayName(Fallback) == Fallback
    ensures !AllWhitespace(Fallback)
  {
    assert !IsWhitespace(Fallback[0]);
    assert TrimStart(Fallback) == Fallback;
    assert !IsWhitespace(Fallback[|Fallback| - 1]);
    assert TrimEnd(Fallback) == Fallback;
  }

  /** `getGenderTerms` treats every value other than "male" and "female" as "neutral". */
  lemma UnknownGenderIsNeutral(gender: string)
    requires gender != "male" && gender != "female"
    ensures GenderTerms(gender) == GenderTerms("neutral")
  {
  }

  function Rules(name: string, gender: string): seq<Rule> {
    RulesFor(DisplayName(name), GenderTerms(gender))
  }

  /**
    `personalizeText` exactly as written: six JavaScript global replaces, NAME first. A text without
    placeholders comes back as it is, and a name without `$` is inserted literally.
   */
  function PersonalizeAsWritten(text: string, name: string, gender: string): (r: string)
    ensures NoPlaceholders(text) ==> r == text
    ensures '$' !in name ==> r == Personalize(text, name, gender)
  {
    RulesForWellFormed(DisplayName(name), GenderTerms(gender));
    ChainsKeepPlainText(text, name, gender);
    ChainJsLiteralName(text, name, gender);
    ChainJs(text, Rules(name, gender))
  }

  /**
    `personalizeText` with the name and the terms inserted literally. A text without placeholders
    comes back as it is, and when the shown name shields `{{NAME}}` (no brace, and some character
    that `{{NAME}}` lacks) no placeholder is left in the result.
   */
  function Personalize(text: string, name: string, gender: string): (r: string)
    ensures NoPlaceholders(text) ==> r == text
    ensures Shields(DisplayName(name), NameToken) ==> NoPlaceholders(r)
  {
    RulesForWellFormed(DisplayName(name), GenderTerms(gender));
    ChainsKeepPlainText(text, name, gender);
    ChainEliminatesShieldedName(text, name, gender);
    Chain(text, Rules(name, gender))
  }

  /** Both chains pass a text without placeholders through unchanged. */
  lemma ChainsKeepPlainText(text: string, name: string, gender: string)
    ensures WellFormed(Rules(name, gender))
    ensures NoPlaceholders(text) ==> ChainJs(text, Rules(name, gender)) == text
    ensures NoPlaceholders(text) ==> Chain(text, Rules(name, gender)) == text
  {
    RulesForWellFormed(DisplayName(name), GenderTerms(gender));
    if NoPlaceholders(text) {
      RulesTokensAbsent(text, DisplayName(name), GenderTerms(gender));
      ChainJsIdentity(text, Rules(name, gender));
      ChainIdentity(text, Rules(name, gender));
    }
  }

  /** Without `$` in the name, no value of the chain holds `$`, so JavaScript's chain is the literal one. */
  lemma ChainJsLiteralName(text: string, name: string, gender: string)
    ensures WellFormed(Rules(name, gender))
    ensures '$' !in name ==> ChainJs(text, Rules(name, gender)) == Chain(text, Rules(name, gender))
  {
    RulesForWellFormed(DisplayName(name), GenderTerms(gender));
    if '$' !in name {
      DollarFreeNameLiteral(text, name, gender);
    }
  }

  lemma DollarFreeNameLiteral(text: string, name: string, gender: string)
    requires '$' !in name
    ensures WellFormed(Rules(name, gender))
    ensures ChainJs(text, Rules(name, gender)) == Chain(text, Rules(name, gender))
  {
    var rules := Rules(name, gender);
    RulesForWellFormed(DisplayName(name), GenderTerms(gender));
    TrimOmits(name, '$');
    GenderTermsNoDollar(gender);
    forall i | 0 <= i < |rules| ensures '$' !in rules[i].value {
    }
    ChainJsLiteral(text, rules);
  }

  /**
    When the shown name shields `{{NAME}}` the first step removes every `{{NAME}}` and the inert
    gendered steps after it add none back, so no placeholder survives.
   */
  lemma ChainEliminatesShieldedName(text: string, name: string, gender: string)
    ensures WellFormed(Rules(name, gender))
    ensures Shields(DisplayName(name), NameToken) ==> NoPlaceholders(Chain(text, Rules(name, gender)))
  {
    RulesForWellFormed(DisplayName(name), GenderTerms(gender));
    if Shields(DisplayName(name), NameToken) {
      ShieldedNameEliminates(text, name, gender);
    }
  }

  lemma ShieldedNameEliminates(text: string, name: string, gender: string)
    requires Shields(DisplayName(name), NameToken)
    ensures WellFormed(Rules(name, gender))
    ensures NoPlaceholders(Chain(text, Rules(name, gender)))
  {
    var rules := Rules(name, gender);
    RulesForWellFormed(DisplayName(name), GenderTerms(gender));
    GenderTermsInert(gender);
    RulesForTermsInert(DisplayName(name), GenderTerms(gender));
    ChainEliminatesShieldedFirst(text, rules);
  }

  // ---------------------------------------------------------------------------------------------
  // The gender table

  /** Every entry of the table is complete: five non-empty terms none of which can form a placeholder. */
  lemma GenderTermsInert(gender: string)
    ensures var t := GenderTerms(gender);
            Inert(t.sonDaughter) && Inert(t.myChild) && Inert(t.heShe) && Inert(t.himHer) && Inert(t.hisHer)
  {
    var t := GenderTerms(gender);
    TableLowerCase(gender);
    TermsInert(t);
  }

  /** Every entry of the table is made of lower-case words. */
  lemma TableLowerCase(gender: string)
    ensures var t := GenderTerms(gender);
            && t.sonDaughter != [] && t.myChild != [] && t.heShe != [] && t.himHer != [] && t.hisHer != []
            && LowerCase(t.sonDaughter) && LowerCase(t.myChild) && LowerCase(t.heShe)
            && LowerCase(t.himHer) && LowerCase(t.hisHer)
  {
    MaleWords();
    FemaleWords();
    NeutralWords();
  }

  lemma MaleWords()
    ensures LowerCase("son") && LowerCase("my child") && LowerCase("he") && LowerCase("him") && LowerCase("his")
  {
  }

  lemma FemaleWords()
    ensures LowerCase("daughter") && LowerCase("she") && LowerCase("her") && LowerCase("hers")
  {
  }

  lemma NeutralWords()
    ensures LowerCase("beloved") && LowerCase("they") && LowerCase("them") && LowerCase("their")
  {
  }

  lemma GenderTermsNoDollar(gender: string)
    ensures var t := GenderTerms(gender);
            '$' !in t.sonDaughter && '$' !in t.myChild && '$' !in t.heShe && '$' !in t.himHer
            && '$' !in t.hisHer
  {
  }

  // ---------------------------------------------------------------------------------------------
  // The name

  /** The raw name never reaches the text: only its trimmed form does. */
  lemma PersonalizeUsesTrimmedName(text: string, name: string, gender: string)
    ensures Personalize(text, name, gender) == Personalize(text, Trim(name), gender)
    ensures PersonalizeAsWritten(text, name, gender) == PersonalizeAsWritten(text, Trim(name), gender)
  {
    TrimIdempotent(name);
    TrimEmptyIffBlank(name);
    TrimEmptyIffBlank(Trim(name));
    assert DisplayName(name) == DisplayName(Trim(name));
  }

  /** A blank name renders exactly as the fallback `[Your Name]` does. */
  lemma BlankNameFallsBack(text: string, name: string, gender: string)
    requires AllWhitespace(name)
    ensures Personalize(text, name, gender) == Personalize(text, Fallback, gender)
    ensures PersonalizeAsWritten(text, name, gender) == PersonalizeAsWritten(text, Fallback, gender)
  {
    TrimEmptyIffBlank(name);
    FallbackTrimmed();
    assert DisplayName(name) == Fallback;
  }

  /** A string that starts and ends with a non-whitespace character is displayed as it is. */
  lemma DisplayNameUntrimmed(v: string)
    requires v != [] && !IsWhitespace(v[0]) && !IsWhitespace(v[|v| - 1])
    ensures DisplayName(v) == v
  {
    assert TrimStart(v) == v;
    assert TrimEnd(v) == v;
  }

  /** A name containing `$&` is expanded by JavaScript into the matched placeholder itself. */
  lemma DollarNameKeepsPlaceholder(gender: string)
    ensures PersonalizeAsWritten(NameToken, "$&", gender) == NameToken
    ensures Personalize(NameToken, "$&", gender) == "$&"
  {
    var rules := RulesFor("$&", GenderTerms(gender));
    DisplayNameUntrimmed("$&");
    RulesForWellFormed("$&", GenderTerms(gender));
    DollarAmpRestoresToken();
    OnlyNameInNameToken();
    NoPlaceholdersInShort("$&");
    assert rules[0] == Rule(NameToken, "$&");
    LaterTokensAbsent(NameToken, "$&", GenderTerms(gender));
    LaterTokensAbsent("$&", "$&", GenderTerms(gender));
    ChainFirstOnly(NameToken, rules, NameToken, "$&");
  }

  // ---------------------------------------------------------------------------------------------
  // What personalisation does to a text

  /** The fallback name is inert, so a blank name never leaves a placeholder behind. */
  lemma BlankNameEliminates(text: string, name: string, gender: string)
    requires AllWhitespace(name)
    ensures NoPlaceholders(Personalize(text, name, gender))
  {
    TrimEmptyIffBlank(name);
    FallbackInert();
    NameIsToken();
    InertShields(Fallback, NameToken);
  }

  /**
    Elimination does not need an inert name: a name in capitals such as `JOHN` could be the word of
    some placeholder, yet it holds a letter `{{NAME}}` lacks and so leaves no placeholder behind.
   */
  lemma CapitalNameEliminates(text: string, name: string, gender: string)
    requires name != [] && forall i :: 0 <= i < |name| ==> 'A' <= name[i] <= 'Z'
    requires exists j :: 0 <= j < |name| && name[j] !in NameToken
    ensures !Inert(name)
    ensures NoPlaceholders(Personalize(text, name, gender))
  {
    assert !IsWhitespace(name[0]) && !IsWhitespace(name[|name| - 1]);
    assert TrimStart(name) == name;
    assert Trim(name) == name;
    assert Shields(name, NameToken);
  }

  /** Replacing `{{NAME}}` by `NAME` inside `{{{{NAME}}}}` leaves a fresh `{{NAME}}`. */
  lemma BracesReform()
    ensures ReplaceAll("{{{{NAME}}}}", NameToken, "NAME") == NameToken
  {
    BracesAroundName("NAME");
    assert "{{" + NameToken + "}}" == "{{{{NAME}}}}";
    assert "{{" + "NAME" + "}}" == NameToken;
  }

  /**
    Elimination needs the inert name: the name `NAME` completes the braces around it into a
    fresh `{{NAME}}` that no later step removes.
   */
  lemma NameCanReformPlaceholder(gender: string)
    ensures Personalize("{{{{NAME}}}}", "NAME", gender) == NameToken
  {
    DisplayNameUntrimmed("NAME");
    var rules := RulesFor("NAME", GenderTerms(gender));
    RulesForWellFormed("NAME", GenderTerms(gender));
    BracesReform();
    OnlyNameInNameToken();
    assert rules[0] == Rule(NameToken, "NAME");
    LaterTokensAbsent(NameToken, "NAME", GenderTerms(gender));
    ChainFirstStep("{{{{NAME}}}}", rules, NameToken);
  }

  /** A whole placeholder replaced by a value gives the value. */
  lemma ReplaceWholeToken(t: string, v: string)
    requires |t| > 0
    ensures ReplaceAll(t, t, v) == v
  {
    ReplaceAllAtStart([], t, v);
    assert t + [] == t && v + [] == v;
  }

  /** The first step of a chain whose placeholder makes up the whole text yields the value. */
  lemma ChainWholeToken(rules: seq<Rule>)
    requires WellFormed(rules) && |rules| > 0
    ensures WellFormed(rules[1..])
    ensures Chain(rules[0].token, rules) == Chain(rules[0].value, rules[1..])
  {
    WellFormedSuffix(rules, 1);
    ReplaceWholeToken(rules[0].token, rules[0].value);
  }

  /**
    The chain is not single-pass: a placeholder inside the name is expanded by the later steps.
   */
  lemma NameIsExpandedAgain()
    ensures Personalize(NameToken, SonDaughterToken, "male") == "son"
  {
    DisplayNameUntrimmed(SonDaughterToken);
    var rules := RulesFor(SonDaughterToken, GenderTerms("male"));
    RulesForWellFormed(SonDaughterToken, GenderTerms("male"));
    ChainWholeToken(rules);
    ChainWholeToken(rules[1..]);
    assert rules[1..][1..] == rules[2..];
    NoPlaceholdersInShort("son");
    RulesTokensAbsent("son", SonDaughterToken, GenderTerms("male"));
    ChainSuffixIdentity("son", rules, 2);
  }

  /** Steps whose placeholders do not occur can be skipped. */
  lemma {:induction false} ChainPrefixIdentity(text: string, rules: seq<Rule>, k: nat)
    requires WellFormed(rules) && k <= |rules|
    requires forall i :: 0 <= i < k ==> !Occurs(rules[i].token, text)
    ensures Chain(text, rules) == Chain(text, rules[k..])
    decreases k
  {
    if k > 0 {
      ChainPrefixIdentity(text, rules[1..], k - 1);
      assert rules[1..][k - 1..] == rules[k..];
    }
  }

  /**
    On a template of brace-free text and whole placeholders, with a brace-free name, the preview
    is single-pass rendering with the display name and the gender's terms.
   */
  lemma PersonalizeTemplate(ps: seq<Piece>, name: string, gender: string)
    requires TemplateOk(ps) && '{' !in Trim(name)
    ensures Personalize(Flatten(ps), name, gender) == Render(ps, Rules(name, gender))
  {
    var rules := Rules(name, gender);
    RulesForWellFormed(DisplayName(name), GenderTerms(gender));
    GenderTermsInert(gender);
    FallbackBraceFree();
    assert '{' !in DisplayName(name);
    RulesForBraceFree(DisplayName(name), GenderTerms(gender));
    ChainOnTemplate(ps, rules);
  }
}

=== FILE: placeholders.dfy ===
/**
  The six placeholders of the personalisation engine and the chain of global replacements both
  copies of `personalizeText` run over a text: NAME first, then the five gendered terms.
 */
module Placeholders {
  import opened Replace

  const NameToken := "{{NAME}}"
  const SonDaughterToken := "{{SON_DAUGHTER}}"
  const MyChildToken := "{{MY_CHILD}}"
  const HeSheToken := "{{HE_SHE}}"
  const HimHerToken := "{{HIM_HER}}"
  const HisHerToken := "{{HIS_HER}}"

  /** The placeholders in the order the engines replace them. */
  const AllTokens: seq<string> :=
    [NameToken, SonDaughterToken, MyChildToken, HeSheToken, HimHerToken, HisHerToken]

  predicate IsWordChar(c: char) {
    'A' <= c <= 'Z' || c == '_'
  }

  /** `{{WORD}}` with a non-empty word of upper-case letters and underscores. */
  predicate IsToken(t: string) {
    && |t| >= 5
    && t[0] == '{' && t[1] == '{' && t[|t| - 2] == '}' && t[|t| - 1] == '}'
    && forall i :: 2 <= i < |t| - 2 ==> IsWordChar(t[i])
  }

  /** A value that can never take part in a placeholder: no braces, and one non-word character. */
  predicate Inert(v: string) {
    && '{' !in v && '}' !in v
    && exists j :: 0 <= j < |v| && !IsWordChar(v[j])
  }

  /** The five gendered terms a table entry resolves to. */
  datatype Terms = Terms(sonDaughter: string, myChild: string, heShe: string, himHer: string, hisHer: string)

  /** Lower-case letters and spaces: what every entry of both gender tables is made of. */
  predicate LowerCase(v: string) {
    forall i :: 0 <= i < |v| ==> 'a' <= v[i] <= 'z' || v[i] == ' '
  }

  /** A non-empty lower-case word is inert. */
  lemma LowerCaseInert(v: string)
    requires v != [] && LowerCase(v)
    ensures Inert(v)
  {
    assert !IsWordChar(v[0]);
  }

  /** A table entry whose five terms are non-empty lower-case words is inert. */
  lemma TermsInert(t: Terms)
    requires t.sonDaughter != [] && t.myChild != [] && t.heShe != [] && t.himHer != [] && t.hisHer != []
    requires LowerCase(t.sonDaughter) && LowerCase(t.myChild) && LowerCase(t.heShe)
    requires LowerCase(t.himHer) && LowerCase(t.hisHer)
    ensures Inert(t.sonDaughter) && Inert(t.myChild) && Inert(t.heShe) && Inert(t.himHer) && Inert(t.hisHer)
  {
    LowerCaseInert(t.sonDaughter);
    LowerCaseInert(t.myChild);
    LowerCaseInert(t.heShe);
    LowerCaseInert(t.himHer);
    LowerCaseInert(t.hisHer);
  }

  /** One step of the chain: every occurrence of `token` becomes `value`. */
  datatype Rule = Rule(token: string, value: string)

  /** The six steps both engines run, in their order. */
  function RulesFor(name: string, terms: Terms): (rules: seq<Rule>)
    ensures |rules| == |AllTokens|
    ensures forall i :: 0 <= i < |rules| ==> rules[i].token == AllTokens[i]
    ensures rules[0].value == name
  {
    [ Rule(NameToken, name), Rule(SonDaughterToken, terms.sonDaughter),
      Rule(MyChildToken, terms.myChild), Rule(HeSheToken, terms.heShe),
      Rule(HimHerToken, terms.himHer), Rule(HisHerToken, terms.hisHer) ]
  }

  predicate WellFormed(rules: seq<Rule>) {
    forall i :: 0 <= i < |rules| ==> IsToken(rules[i].token)
  }

  predicate AllInert(rules: seq<Rule>) {
    forall i :: 0 <= i < |rules| ==> Inert(rules[i].value)
  }

  /** The six steps are inert when the name and the five terms are. */
  lemma RulesForInert(name: string, t: Terms)
    requires Inert(name)
    requires Inert(t.sonDaughter) && Inert(t.myChild) && Inert(t.heShe) && Inert(t.himHer) && Inert(t.hisHer)
    ensures AllInert(RulesFor(name, t))
  {
  }

  /** The five gendered steps are inert when the five terms are, whatever the name. */
  lemma RulesForTermsInert(name: string, t: Terms)
    requires Inert(t.sonDaughter) && Inert(t.myChild) && Inert(t.heShe) && Inert(t.himHer) && Inert(t.hisHer)
    ensures AllInert(RulesFor(name, t)[1..])
  {
  }

  /** No value of the six steps holds a brace when neither the name nor the five terms do. */
  lemma RulesForBraceFree(name: string, t: Terms)
    requires '{' !in name && '{' !in t.sonDaughter && '{' !in t.myChild && '{' !in t.heShe
    requires '{' !in t.himHer && '{' !in t.hisHer
    ensures forall i :: 0 <= i < |RulesFor(name, t)| ==> '{' !in RulesFor(name, t)[i].value
  {
  }

  /** The chain as JavaScript runs it: `text.replace(/t1/g, v1).replace(/t2/g, v2)…`. */
  function ChainJs(text: string, rules: seq<Rule>): string
    requires WellFormed(rules)
    decreases |rules|
  {
    if |rules| == 0 then text
    else ChainJs(JsReplaceAll(text, rules[0].token, rules[0].value), rules[1..])
  }

  /** The chain with every value inserted literally. */
  function Chain(text: string, rules: seq<Rule>): string
    requires WellFormed(rules)
    decreases |rules|
  {
    if |rules| == 0 then text
    else Chain(ReplaceAll(text, rules[0].token, rules[0].value), rules[1..])
  }

  // ---------------------------------------------------------------------------------------------
  // Facts about placeholders

  lemma AllTokensAreTokens()
    ensures forall i :: 0 <= i < |AllTokens| ==> IsToken(AllTokens[i])
  {
    NameIsToken();
    SonDaughterIsToken();
    MyChildIsToken();
    HeSheIsToken();
    HimHerIsToken();
    HisHerIsToken();
  }

  lemma NameIsToken()
    ensures IsToken(NameToken)
  {
    forall i | 2 <= i < |NameToken| - 2 ensures IsWordChar(NameToken[i]) {
      assert i in {2, 3, 4, 5};
    }
  }

  lemma SonDaughterIsToken()
    ensures IsToken(SonDaughterToken)
  {
    forall i | 2 <= i < |SonDaughterToken| - 2 ensures IsWordChar(SonDaughterToken[i]) {
      assert i in {2, 3, 4, 5, 6, 7, 8, 9, 10, 11, 12, 13};
    }
  }

  lemma MyChildIsToken()
    ensures IsToken(MyChildToken)
  {
    forall i | 2 <= i < |MyChildToken| - 2 ensures IsWordChar(MyChildToken[i]) {
      assert i in {2, 3, 4, 5, 6, 7, 8, 9};
    }
  }

  lemma HeSheIsToken()
    ensures IsToken(HeSheToken)
  {
    forall i | 2 <= i < |HeSheToken| - 2 ensures IsWordChar(HeSheToken[i]) {
      assert i in {2, 3, 4, 5, 6, 7};
    }
  }

  lemma HimHerIsToken()
    ensures IsToken(HimHerToken)
  {
    forall i | 2 <= i < |HimHerToken| - 2 ensures IsWordChar(HimHerToken[i]) {
      assert i in {2, 3, 4, 5, 6, 7, 8};
    }
  }

  lemma HisHerIsToken()
    ensures IsToken(HisHerToken)
  {
    forall i | 2 <= i < |HisHerToken| - 2 ensures IsWordChar(HisHerToken[i]) {
      assert i in {2, 3, 4, 5, 6, 7, 8};
    }
  }

  lemma RulesForWellFormed(name: string, terms: Terms)
    ensures WellFormed(RulesFor(name, terms))
  {
    AllTokensAreTokens();
  }

  /** An inert value shields every placeholder. */
  lemma InertShields(v: string, t: string)
    requires Inert(v) && IsToken(t)
    ensures Shields(v, t)
  {
    var j :| 0 <= j < |v| && !IsWordChar(v[j]);
    forall i | 0 <= i < |t| ensures t[i] != v[j] {
      if 2 <= i < |t| - 2 {
        assert IsWordChar(t[i]);
      }
    }
  }

  /** No placeholder starts inside a different placeholder, whatever follows it. */
  lemma OtherTokenNoMatch(u: string, y: string, t: string)
    requires IsToken(u) && IsToken(t) && u != t
    ensures NoMatchWithin(u, y, t)
  {
    var s := u + y;
    forall k | 0 <= k < |u| ensures !StartsWith(s[k..], t) {
      if k == 0 {
        if StartsWith(s, t) {
          TokenPrefixEqual(u, y, t);
        }
      } else if k == 1 {
        assert s[k..][1] == u[2];
        assert IsWordChar(u[2]);
      } else {
        assert s[k..][0] == u[k];
        if k < |u| - 2 {
          assert IsWordChar(u[k]);
        }
      }
    }
  }

  /** A placeholder that starts `u + y` is `u` itself. */
  lemma TokenPrefixEqual(u: string, y: string, t: string)
    requires IsToken(u) && IsToken(t)
    requires StartsWith(u + y, t)
    ensures t == u
  {
    var s := u + y;
    if |t| < |u| {
      assert false;
    } else if |t| > |u| {
      SharedPrefixChar(u, y, t, |u| - 2);
      assert false;
    } else {
      assert t == s[..|u|] == u;
    }
  }

  lemma SharedPrefixChar(u: string, y: string, t: string, k: int)
    requires StartsWith(u + y, t)
    requires 0 <= k < |u| && k < |t|
    ensures t[k] == u[k]
  {
    assert (u + y)[k] == u[k];
  }

  /** A different placeholder does not occur inside a placeholder. */
  lemma OtherTokenAbsent(u: string, t: string)
    requires IsToken(u) && IsToken(t) && u != t
    ensures !Occurs(t, u)
  {
    OtherTokenNoMatch(u, [], t);
    assert u + [] == u;
    if Occurs(t, u) {
      OccursStartsWithin(t, u);
    }
  }

  /** An occurrence in `s` starts at some position of `s`. */
  lemma {:induction false} OccursStartsWithin(t: string, s: string)
    requires |t| > 0 && Occurs(t, s)
    ensures exists k :: 0 <= k < |s| && StartsWith(s[k..], t)
    decreases |s|
  {
    if StartsWith(s, t) {
      assert s[0..] == s;
    } else {
      OccursStartsWithin(t, s[1..]);
      var k :| 0 <= k < |s[1..]| && StartsWith(s[1..][k..], t);
      assert s[1..][k..] == s[k + 1..];
    }
  }

  // ---------------------------------------------------------------------------------------------
  // The chain

  lemma WellFormedSuffix(rules: seq<Rule>, k: nat)
    requires WellFormed(rules) && k <= |rules|
    ensures WellFormed(rules[k..])
  {
    assert forall i :: 0 <= i < |rules[k..]| ==> rules[k..][i] == rules[i + k];
  }

  /** When only the first step's placeholder can occur, the remaining steps change nothing. */
  lemma ChainTailIdentity(text: string, rules: seq<Rule>)
    requires WellFormed(rules) && |rules| > 0
    requires forall i :: 1 <= i < |rules| ==> !Occurs(rules[i].token, text)
    ensures Chain(text, rules[1..]) == text
    ensures ChainJs(text, rules[1..]) == text
  {
    var rest := rules[1..];
    WellFormedSuffix(rules, 1);
    assert forall i :: 0 <= i < |rest| ==> rest[i] == rules[i + 1];
    ChainIdentity(text, rest);
    ChainJsIdentity(text, rest);
  }

  /** When the first step's result `w` holds none of the later placeholders, it is the chain's result. */
  lemma ChainFirstStep(text: string, rules: seq<Rule>, w: string)
    requires WellFormed(rules) && |rules| > 0
    requires ReplaceAll(text, rules[0].token, rules[0].value) == w
    requires forall i :: 1 <= i < |rules| ==> !Occurs(rules[i].token, w)
    ensures Chain(text, rules) == w
  {
    ChainTailIdentity(w, rules);
  }

  /**
    When the first step's results, `v` in JavaScript and `w` literally, hold none of the later
    placeholders, they are what the chains produce.
   */
  lemma ChainFirstOnly(text: string, rules: seq<Rule>, v: string, w: string)
    requires WellFormed(rules) && |rules| > 0
    requires JsReplaceAll(text, rules[0].token, rules[0].value) == v
    requires ReplaceAll(text, rules[0].token, rules[0].value) == w
    requires forall i :: 1 <= i < |rules| ==> !Occurs(rules[i].token, v) && !Occurs(rules[i].token, w)
    ensures ChainJs(text, rules) == v && Chain(text, rules) == w
  {
    ChainTailIdentity(v, rules);
    ChainTailIdentity(w, rules);
  }

  /** Text lacking every placeholder lacks every rule's placeholder. */
  lemma RulesTokensAbsent(v: string, name: string, terms: Terms)
    requires forall i :: 0 <= i < |AllTokens| ==> !Occurs(AllTokens[i], v)
    ensures var rules := RulesFor(name, terms);
            forall i :: 0 <= i < |rules| ==> !Occurs(rules[i].token, v)
  {
  }

  /** Text lacking the five gendered placeholders lacks every placeholder after the first rule's. */
  lemma LaterTokensAbsent(v: string, name: string, terms: Terms)
    requires forall i :: 1 <= i < |AllTokens| ==> !Occurs(AllTokens[i], v)
    ensures var rules := RulesFor(name, terms);
            forall i :: 1 <= i < |rules| ==> !Occurs(rules[i].token, v)
  {
  }

  /** Text holding none of the placeholders passes through any tail of the chain unchanged. */
  lemma ChainSuffixIdentity(text: string, rules: seq<Rule>, k: nat)
    requires WellFormed(rules) && k <= |rules|
    requires forall i :: 0 <= i < |rules| ==> !Occurs(rules[i].token, text)
    ensures WellFormed(rules[k..]) && Chain(text, rules[k..]) == text
  {
    var rest := rules[k..];
    WellFormedSuffix(rules, k);
    assert forall i :: 0 <= i < |rest| ==> rest[i] == rules[i + k];
    ChainIdentity(text, rest);
  }

  /** With no `$` in any value, the JavaScript chain is the literal one. */
  lemma {:induction false} ChainJsLiteral(text: string, rules: seq<Rule>)
    requires WellFormed(rules)
    requires forall i :: 0 <= i < |rules| ==> '$' !in rules[i].value
    ensures ChainJs(text, rules) == Chain(text, rules)
    decreases |rules|
  {
    if |rules| > 0 {
      JsReplaceAllLiteral(text, rules[0].token, rules[0].value);
      ChainJsLiteral(ReplaceAll(text, rules[0].token, rules[0].value), rules[1..]);
    }
  }

  /** Text holding none of the rules' placeholders passes through unchanged, whatever the values. */
  lemma {:induction false} ChainJsIdentity(text: string, rules: seq<Rule>)
    requires WellFormed(rules)
    requires forall i :: 0 <= i < |rules| ==> !Occurs(rules[i].token, text)
    ensures ChainJs(text, rules) == text
    decreases |rules|
  {
    if |rules| > 0 {
      JsReplaceAllIdentity(text, rules[0].token, rules[0].value);
      ChainJsIdentity(text, rules[1..]);
    }
  }

  lemma {:induction false} ChainIdentity(text: string, rules: seq<Rule>)
    requires WellFormed(rules)
    requires forall i :: 0 <= i < |rules| ==> !Occurs(rules[i].token, text)
    ensures Chain(text, rules) == text
    decreases |rules|
  {
    if |rules| > 0 {
      ChainIdentity(text, rules[1..]);
    }
  }

  /**
    With inert values the chain creates no placeholder that was not in the text, and leaves none of
    its own placeholders behind.
   */
  lemma {:induction false} ChainNoNew(text: string, rules: seq<Rule>, t: string)
    requires WellFormed(rules) && AllInert(rules) && IsToken(t)
    ensures Occurs(t, Chain(text, rules)) ==>
              Occurs(t, text) && forall i :: 0 <= i < |rules| ==> rules[i].token != t
    decreases |rules|
  {
    if |rules| > 0 {
      var step := ReplaceAll(text, rules[0].token, rules[0].value);
      ChainNoNew(step, rules[1..], t);
      InertShields(rules[0].value, t);
      ReplaceAllNoNew(text, rules[0].token, rules[0].value, t);
      if Occurs(t, Chain(text, rules)) {
        forall i | 0 <= i < |rules| ensures rules[i].token != t {
          if i > 0 {
            assert rules[1..][i - 1] == rules[i];
          }
        }
      }
    }
  }

  /** With inert values no placeholder of the chain survives it. */
  lemma ChainEliminates(text: string, rules: seq<Rule>)
    requires WellFormed(rules) && AllInert(rules)
    ensures forall i :: 0 <= i < |rules| ==> !Occurs(rules[i].token, Chain(text, rules))
  {
    forall i | 0 <= i < |rules| ensures !Occurs(rules[i].token, Chain(text, rules)) {
      ChainNoNew(text, rules, rules[i].token);
    }
  }

  /**
    The first step need not be inert: a first value that shields its own placeholder removes every
    copy of it and creates none, and the inert steps after it add none back.
   */
  lemma ChainEliminatesShieldedFirst(text: string, rules: seq<Rule>)
    requires WellFormed(rules) && |rules| > 0 && AllInert(rules[1..])
    requires Shields(rules[0].value, rules[0].token)
    ensures forall i :: 0 <= i < |rules| ==> !Occurs(rules[i].token, Chain(text, rules))
  {
    var step := ReplaceAll(text, rules[0].token, rules[0].value);
    assert WellFormed(rules[1..]);
    assert Chain(text, rules) == Chain(step, rules[1..]);
    ChainEliminates(step, rules[1..]);
    ChainNoNew(step, rules[1..], rules[0].token);
    ReplaceAllNoNew(text, rules[0].token, rules[0].value, rules[0].token);
    forall i | 1 <= i < |rules| ensures !Occurs(rules[i].token, Chain(text, rules)) {
      assert rules[1..][i - 1] == rules[i];
    }
  }

  /**
    Two chains over the same placeholders agree on a text when every step where their values
    differ finds no placeholder to replace in the original text; inert values keep it that way.
   */
  lemma {:induction false} ChainAgree(text: string, rules1: seq<Rule>, rules2: seq<Rule>)
    requires WellFormed(rules1) && AllInert(rules1) && AllInert(rules2)
    requires |rules1| == |rules2|
    requires forall i :: 0 <= i < |rules1| ==> rules1[i].token == rules2[i].token
    requires forall i :: 0 <= i < |rules1| && rules1[i].value != rules2[i].value ==>
               !Occurs(rules1[i].token, text)
    ensures Chain(text, rules1) == Chain(text, rules2)
    decreases |rules1|
  {
    if |rules1| > 0 {
      var r1 := rules1[0];
      var r2 := rules2[0];
      var step1 := ReplaceAll(text, r1.token, r1.value);
      var step2 := ReplaceAll(text, r2.token, r2.value);
      assert step1 == step2;
      assert WellFormed(rules1[1..]);
      forall i | 0 <= i < |rules1[1..]| && rules1[1..][i].value != rules2[1..][i].value
        ensures !Occurs(rules1[1..][i].token, step1)
      {
        assert rules1[1..][i] == rules1[i + 1];
        assert IsToken(rules1[i + 1].token);
        InertShields(r1.value, rules1[i + 1].token);
        ReplaceAllNoNew(text, r1.token, r1.value, rules1[i + 1].token);
      }
      ChainAgree(step1, rules1[1..], rules2[1..]);
    }
  }

  // ---------------------------------------------------------------------------------------------
  // Templates: literal text around whole placeholders

  /** None of the six placeholders occurs in `s`. */
  predicate NoPlaceholders(s: string) {
    forall i :: 0 <= i < |AllTokens| ==> !Occurs(AllTokens[i], s)
  }

  /** Text shorter than every placeholder holds none of them. */
  lemma NoPlaceholdersInShort(s: string)
    requires |s| < 8
    ensures NoPlaceholders(s)
  {
    forall i | 0 <= i < |AllTokens| ensures !Occurs(AllTokens[i], s) {
      OccursLonger(AllTokens[i], s);
    }
  }

  /** `{{NAME}}` holds none of the five gendered placeholders. */
  lemma OnlyNameInNameToken()
    ensures forall i :: 1 <= i < |AllTokens| ==> !Occurs(AllTokens[i], NameToken)
  {
    AllTokensAreTokens();
    forall i | 1 <= i < |AllTokens| ensures !Occurs(AllTokens[i], NameToken) {
      OtherTokenAbsent(NameToken, AllTokens[i]);
    }
  }

  /** JavaScript expands the replacement `$&` into the placeholder it replaces. */
  lemma DollarAmpRestoresToken()
    ensures JsReplaceAll(NameToken, NameToken, "$&") == NameToken
    ensures ReplaceAll(NameToken, NameToken, "$&") == "$&"
  {
    var s := NameToken;
    assert s[0..|NameToken|] == NameToken;
    assert Substitution("$&", NameToken, s[..0], s[|NameToken|..]) == NameToken;
    assert JsReplaceFrom(NameToken, [], NameToken, "$&") == [];
    ReplaceAllAtStart([], NameToken, "$&");
    assert NameToken + [] == NameToken && "$&" + [] == "$&";
  }

  /** A piece of a template: brace-free literal text, or one whole placeholder. */
  datatype Piece = Lit(text: string) | Tok(token: string)

  predicate PieceOk(p: Piece) {
    match p
    case Lit(s) => '{' !in s
    case Tok(t) => IsToken(t)
  }

  predicate TemplateOk(ps: seq<Piece>) {
    forall i :: 0 <= i < |ps| ==> PieceOk(ps[i])
  }

  function Flatten(ps: seq<Piece>): string
    decreases |ps|
  {
    if |ps| == 0 then []
    else (match ps[0] case Lit(s) => s case Tok(t) => t) + Flatten(ps[1..])
  }

  /** What one placeholder becomes: the value of its first rule, or itself when no rule names it. */
  function Resolve(rules: seq<Rule>, t: string): string
    decreases |rules|
  {
    if |rules| == 0 then t
    else if rules[0].token == t then rules[0].value
    else Resolve(rules[1..], t)
  }

  /** Single-pass rendering: each placeholder of the template resolved once, literal text kept. */
  function Render(ps: seq<Piece>, rules: seq<Rule>): string
    decreases |ps|
  {
    if |ps| == 0 then []
    else (match ps[0] case Lit(s) => s case Tok(t) => Resolve(rules, t)) + Render(ps[1..], rules)
  }

  /** The template after one rule: its placeholder pieces become literal text. */
  function SubstPieces(ps: seq<Piece>, r: Rule): (qs: seq<Piece>)
    ensures |qs| == |ps|
    decreases |ps|
  {
    if |ps| == 0 then []
    else (if ps[0] == Tok(r.token) then [Lit(r.value)] else [ps[0]]) + SubstPieces(ps[1..], r)
  }

  /** One replacement over a template's text is the template with that placeholder filled in. */
  lemma {:induction false} ReplaceOnTemplate(ps: seq<Piece>, r: Rule)
    requires TemplateOk(ps) && IsToken(r.token)
    ensures ReplaceAll(Flatten(ps), r.token, r.value) == Flatten(SubstPieces(ps, r))
    decreases |ps|
  {
    if |ps| > 0 {
      var rest := Flatten(ps[1..]);
      assert TemplateOk(ps[1..]) by {
        forall i | 0 <= i < |ps[1..]| ensures PieceOk(ps[1..][i]) {
          assert ps[1..][i] == ps[i + 1];
        }
      }
      ReplaceOnTemplate(ps[1..], r);
      assert PieceOk(ps[0]);
      match ps[0]
      case Lit(s) =>
        ReplaceAllFreePrefix(s, rest, r.token, r.value);
      case Tok(u) =>
        if u == r.token {
          ReplaceAllAtStart(rest, r.token, r.value);
        } else {
          OtherTokenNoMatch(u, rest, r.token);
          ReplaceAllSkip(u, rest, r.token, r.value);
        }
    }
  }

  lemma {:induction false} RenderAfterSubst(ps: seq<Piece>, r: Rule, rest: seq<Rule>)
    ensures Render(SubstPieces(ps, r), rest) == Render(ps, [r] + rest)
    decreases |ps|
  {
    if |ps| > 0 {
      RenderAfterSubst(ps[1..], r, rest);
      assert ([r] + rest)[1..] == rest;
    }
  }

  /**
    On a template of brace-free literal text and whole placeholders, with brace-free values, the
    chain of global replacements is single-pass rendering: each placeholder is resolved exactly
    once, unknown placeholders are kept, and the literal text is copied character for character.
   */
  lemma {:induction false} ChainOnTemplate(ps: seq<Piece>, rules: seq<Rule>)
    requires TemplateOk(ps) && WellFormed(rules)
    requires forall i :: 0 <= i < |rules| ==> '{' !in rules[i].value
    ensures Chain(Flatten(ps), rules) == Render(ps, rules)
    decreases |rules|
  {
    if |rules| > 0 {
      var r := rules[0];
      ReplaceOnTemplate(ps, r);
      var qs := SubstPieces(ps, r);
      assert TemplateOk(qs) by { SubstKeepsOk(ps, r); }
      ChainOnTemplate(qs, rules[1..]);
      RenderAfterSubst(ps, r, rules[1..]);
      assert [r] + rules[1..] == rules;
    } else {
      RenderWithoutRules(ps);
    }
  }

  /** A text that is a single placeholder becomes what that placeholder resolves to. */
  lemma ChainOnLoneToken(t: string, rules: seq<Rule>)
    requires IsToken(t) && WellFormed(rules)
    requires forall i :: 0 <= i < |rules| ==> '{' !in rules[i].value
    ensures Chain(t, rules) == Resolve(rules, t)
  {
    LonePiece(t, rules);
    ChainOnTemplate([Tok(t)], rules);
  }

  /** A template of one placeholder flattens to that placeholder and renders to its resolution. */
  lemma LonePiece(t: string, rules: seq<Rule>)
    ensures Flatten([Tok(t)]) == t && Render([Tok(t)], rules) == Resolve(rules, t)
  {
    var ps := [Tok(t)];
    assert ps[1..] == [];
  }

  /** A placeholder resolves to the value of the first step that names it. */
  lemma {:induction false} ResolveFirst(rules: seq<Rule>, k: nat, t: string)
    requires k < |rules| && rules[k].token == t
    requires forall i :: 0 <= i < k ==> rules[i].token != t
    ensures Resolve(rules, t) == rules[k].value
    decreases k
  {
    if k > 0 {
      ResolveFirst(rules[1..], k - 1, t);
    }
  }

  lemma AllTokensDistinct()
    ensures forall i, j :: 0 <= i < j < |AllTokens| ==> AllTokens[i] != AllTokens[j]
  {
    assert NameToken[2] != SonDaughterToken[2] && NameToken[2] != MyChildToken[2];
    assert NameToken[2] != HeSheToken[2] && NameToken[2] != HimHerToken[2] && NameToken[2] != HisHerToken[2];
    assert |SonDaughterToken| != |MyChildToken| && |SonDaughterToken| != |HeSheToken|;
    assert |SonDaughterToken| != |HimHerToken| && |SonDaughterToken| != |HisHerToken|;
    assert MyChildToken[2] != HeSheToken[2] && MyChildToken[2] != HimHerToken[2] && MyChildToken[2] != HisHerToken[2];
    assert |HeSheToken| != |HimHerToken| && |HeSheToken| != |HisHerToken|;
    assert HimHerToken[4] != HisHerToken[4];
  }

  /** Each placeholder resolves to its own entry of the six steps. */
  lemma ResolveRulesFor(name: string, terms: Terms, k: nat)
    requires k < |AllTokens|
    ensures Resolve(RulesFor(name, terms), AllTokens[k]) == RulesFor(name, terms)[k].value
  {
    AllTokensDistinct();
    ResolveFirst(RulesFor(name, terms), k, AllTokens[k]);
  }

  /** Replacing the NAME inside `{{{{NAME}}}}` by a word gives `{{` + word + `}}`. */
  lemma BracesAroundName(w: string)
    ensures ReplaceAll("{{" + NameToken + "}}", NameToken, w) == "{{" + w + "}}"
  {
    var y := NameToken + "}}";
    assert y[0] == '{' && y[1] == '{' && NameToken[2] == 'N';
    DoubleBraceSkip(y, NameToken);
    ReplaceAllSkip("{{", y, NameToken, w);
    ReplaceAllAtStart("}}", NameToken, w);
    OccursLonger(NameToken, "}}");
    assert "{{" + NameToken + "}}" == "{{" + y;
    assert "{{" + (w + "}}") == "{{" + w + "}}";
  }

  /** No pattern whose third character is not a brace can start in the `{{` before another `{{`. */
  lemma DoubleBraceSkip(y: string, pat: string)
    requires |y| >= 2 && y[0] == '{' && y[1] == '{' && |pat| >= 3 && pat[2] != '{'
    ensures NoMatchWithin("{{", y, pat)
  {
    var s := "{{" + y;
    assert s[0..][2] == y[0];
    assert s[1..][2] == y[1];
  }

  /** A placeholder with no piece of its own is left alone by a substitution. */
  lemma {:induction false} SubstAbsent(ps: seq<Piece>, r: Rule)
    requires Tok(r.token) !in ps
    ensures SubstPieces(ps, r) == ps
    decreases |ps|
  {
    if |ps| > 0 {
      assert ps == [ps[0]] + ps[1..];
      SubstAbsent(ps[1..], r);
      assert ps == [ps[0]] + ps[1..];
    }
  }

  /** The only placeholders in a template's text are its placeholder pieces. */
  lemma TemplateOccurs(ps: seq<Piece>, t: string)
    requires TemplateOk(ps) && IsToken(t) && Tok(t) !in ps
    ensures !Occurs(t, Flatten(ps))
  {
    var r := Rule(t, "!");
    ReplaceOnTemplate(ps, r);
    SubstAbsent(ps, r);
    assert !IsWordChar("!"[0]);
    InertShields("!", t);
    ReplaceAllChangesIffOccurs(Flatten(ps), t, "!");
  }

  /** Without rules, rendering gives the template's text back. */
  lemma {:induction false} RenderWithoutRules(ps: seq<Piece>)
    ensures Render(ps, []) == Flatten(ps)
    decreases |ps|
  {
    if |ps| > 0 {
      RenderWithoutRules(ps[1..]);
    }
  }

  lemma {:induction false} SubstKeepsOk(ps: seq<Piece>, r: Rule)
    requires TemplateOk(ps) && '{' !in r.value
    ensures TemplateOk(SubstPieces(ps, r))
    decreases |ps|
  {
    if |ps| > 0 {
      assert TemplateOk(ps[1..]) by {
        forall i | 0 <= i < |ps[1..]| ensures PieceOk(ps[1..][i]) {
          assert ps[1..][i] == ps[i + 1];
        }
      }
      SubstKeepsOk(ps[1..], r);
      var qs := SubstPieces(ps, r);
      forall i | 0 <= i < |qs| ensures PieceOk(qs[i]) {
        if i > 0 {
          assert qs[i] == SubstPieces(ps[1..], r)[i - 1];
        } else {
          assert PieceOk(ps[0]);
        }
      }
    }
  }
}

=== FILE: replace.dfy ===
/**
  Global replacement of a literal pattern, in two flavours:
  - `ReplaceAll` inserts the replacement literally;
  - `JsReplaceAll` is what `text.replace(/literal/g, replacement)` does in JavaScript, where the
    replacement string's `$$`, `$&`, `` $` `` and `$'` patterns are expanded.
  Both scan left to right and replace leftmost, non-overlapping occurrences.
 */
module Replace {

  /** `t` is a prefix of `s`. */
  predicate StartsWith(s: string, t: string) {
    |t| <= |s| && s[..|t|] == t
  }

  /** `t` occurs in `s` as a contiguous block. */
  predicate Occurs(t: string, s: string)
    decreases |s|
  {
    StartsWith(s, t) || (|s| > 0 && Occurs(t, s[1..]))
  }

  /** Literal, global, leftmost non-overlapping replacement of `pat` by `rep`. */
  function ReplaceAll(s: string, pat: string, rep: string): (r: string)
    requires |pat| > 0
    ensures !Occurs(pat, s) ==> r == s
    decreases |s|
  {
    if |s| < |pat| then s
    else if s[..|pat|] == pat then rep + ReplaceAll(s[|pat|..], pat, rep)
    else [s[0]] + ReplaceAll(s[1..], pat, rep)
  }

  /**
    The replacement text JavaScript inserts for one match (GetSubstitution of ECMA-262 for a
    pattern without capture groups): `$$` is a dollar, `$&` the match, `` $` `` the text before the
    match, `$'` the text after it; any other `$` is literal.
   */
  function Substitution(rep: string, matched: string, before: string, after: string): (r: string)
    ensures '$' !in rep ==> r == rep
    decreases |rep|
  {
    if |rep| == 0 then []
    else if rep[0] == '$' && |rep| >= 2 && rep[1] == '$' then
      "$" + Substitution(rep[2..], matched, before, after)
    else if rep[0] == '$' && |rep| >= 2 && rep[1] == '&' then
      matched + Substitution(rep[2..], matched, before, after)
    else if rep[0] == '$' && |rep| >= 2 && rep[1] == '`' then
      before + Substitution(rep[2..], matched, before, after)
    else if rep[0] == '$' && |rep| >= 2 && rep[1] == '\'' then
      after + Substitution(rep[2..], matched, before, after)
    else
      assert '$' !in rep ==> '$' !in rep[1..];
      [rep[0]] + Substitution(rep[1..], matched, before, after)
  }

  /**
    JavaScript's global replace of the rest `t` of a string whose scanned part is `before`; the
    scanned part is what `` $` `` inserts.
   */
  function JsReplaceFrom(before: string, t: string, pat: string, rep: string): string
    requires |pat| > 0
    decreases |t|
  {
    if |t| < |pat| then t
    else if t[..|pat|] == pat then
      Substitution(rep, pat, before, t[|pat|..]) + JsReplaceFrom(before + pat, t[|pat|..], pat, rep)
    else [t[0]] + JsReplaceFrom(before + [t[0]], t[1..], pat, rep)
  }

  /** `s.replace(/pat/g, rep)` for a literal `pat`. */
  function JsReplaceAll(s: string, pat: string, rep: string): string
    requires |pat| > 0
  {
    JsReplaceFrom([], s, pat, rep)
  }

  /** Without a `$` in the replacement, JavaScript's replace is the literal one. */
  lemma {:induction false} JsReplaceFromLiteral(before: string, t: string, pat: string, rep: string)
    requires |pat| > 0
    requires '$' !in rep
    ensures JsReplaceFrom(before, t, pat, rep) == ReplaceAll(t, pat, rep)
    decreases |t|
  {
    if |t| < |pat| {
    } else if t[..|pat|] == pat {
      JsReplaceFromLiteral(before + pat, t[|pat|..], pat, rep);
    } else {
      JsReplaceFromLiteral(before + [t[0]], t[1..], pat, rep);
    }
  }

  lemma JsReplaceAllLiteral(s: string, pat: string, rep: string)
    requires |pat| > 0
    requires '$' !in rep
    ensures JsReplaceAll(s, pat, rep) == ReplaceAll(s, pat, rep)
  {
    JsReplaceFromLiteral([], s, pat, rep);
  }

  /** Where the pattern does not occur, JavaScript's replace changes nothing, whatever the replacement. */
  lemma {:induction false} JsReplaceFromIdentity(before: string, t: string, pat: string, rep: string)
    requires |pat| > 0
    requires !Occurs(pat, t)
    ensures JsReplaceFrom(before, t, pat, rep) == t
    decreases |t|
  {
    if |t| >= |pat| {
      JsReplaceFromIdentity(before + [t[0]], t[1..], pat, rep);
      assert [t[0]] + t[1..] == t;
    }
  }

  lemma JsReplaceAllIdentity(s: string, pat: string, rep: string)
    requires |pat| > 0
    requires !Occurs(pat, s)
    ensures JsReplaceAll(s, pat, rep) == s
  {
    JsReplaceFromIdentity([], s, pat, rep);
  }

  // ---------------------------------------------------------------------------------------------
  // Occurrences in concatenations

  /** An occurrence of a non-empty `t` contains `t`'s first character. */
  lemma {:induction false} OccursHasFirst(t: string, s: string)
    requires |t| > 0 && Occurs(t, s)
    ensures t[0] in s
    decreases |s|
  {
    if StartsWith(s, t) {
      assert s[0] == t[0];
    } else {
      OccursHasFirst(t, s[1..]);
    }
  }

  /** An occurrence in `y + z` cannot start inside `y` when `y` lacks `t`'s first character. */
  lemma {:induction false} OccursSkipsPrefix(t: string, y: string, z: string)
    requires |t| > 0 && t[0] !in y
    requires Occurs(t, y + z)
    ensures Occurs(t, z)
    decreases |y|
  {
    if |y| > 0 {
      assert (y + z)[0] == y[0];
      assert (y + z)[1..] == y[1..] + z;
      OccursSkipsPrefix(t, y[1..], z);
    } else {
      assert y + z == z;
    }
  }

  /** `s` has no occurrence of `pat` starting at any of its first `|p|` positions. */
  predicate NoMatchWithin(p: string, y: string, pat: string) {
    forall k :: 0 <= k < |p| ==> !StartsWith((p + y)[k..], pat)
  }

  /** Text in which no match can start is copied through unchanged. */
  lemma {:induction false} ReplaceAllSkip(p: string, y: string, pat: string, rep: string)
    requires |pat| > 0
    requires NoMatchWithin(p, y, pat)
    ensures ReplaceAll(p + y, pat, rep) == p + ReplaceAll(y, pat, rep)
    decreases |p|
  {
    if |p| > 0 {
      SkipFirst(p, y, pat, rep);
      ReplaceAllSkip(p[1..], y, pat, rep);
      var r := ReplaceAll(y, pat, rep);
      assert p + r == [p[0]] + (p[1..] + r);
    } else {
      assert p + y == y;
    }
  }

  /** The step of `ReplaceAllSkip`: the first character, where no match starts, is copied. */
  lemma SkipFirst(p: string, y: string, pat: string, rep: string)
    requires |pat| > 0 && |p| > 0
    requires NoMatchWithin(p, y, pat)
    ensures NoMatchWithin(p[1..], y, pat)
    ensures ReplaceAll(p + y, pat, rep) == [p[0]] + ReplaceAll(p[1..] + y, pat, rep)
  {
    var s := p + y;
    assert s[0..] == s;
    assert s[1..] == p[1..] + y;
    forall k | 0 <= k < |p[1..]| ensures !StartsWith((p[1..] + y)[k..], pat) {
      assert (p[1..] + y)[k..] == s[k + 1..];
    }
    if |s| < |pat| {
      assert ReplaceAll(s[1..], pat, rep) == s[1..];
    }
  }

  /** Text free of the pattern's first character is copied through unchanged. */
  lemma ReplaceAllFreePrefix(p: string, y: string, pat: string, rep: string)
    requires |pat| > 0 && pat[0] !in p
    ensures ReplaceAll(p + y, pat, rep) == p + ReplaceAll(y, pat, rep)
  {
    forall k | 0 <= k < |p| ensures !StartsWith((p + y)[k..], pat) {
      assert (p + y)[k..][0] == p[k];
    }
    ReplaceAllSkip(p, y, pat, rep);
  }

  /** An occurrence of the pattern at the very start is replaced. */
  lemma ReplaceAllAtStart(y: string, pat: string, rep: string)
    requires |pat| > 0
    ensures ReplaceAll(pat + y, pat, rep) == rep + ReplaceAll(y, pat, rep)
  {
    assert (pat + y)[..|pat|] == pat;
    assert (pat + y)[|pat|..] == y;
  }

  // ---------------------------------------------------------------------------------------------
  // Replacement values that cannot re-form a pattern

  /**
    `rep` cannot take part in an occurrence of `t`: it holds neither `t`'s first nor its last
    character, and it holds some character `t` lacks.
   */
  predicate Shields(rep: string, t: string) {
    && |t| > 0
    && t[0] !in rep
    && t[|t| - 1] !in rep
    && exists j :: 0 <= j < |rep| && rep[j] !in t
  }

  /** A prefix `t` of `q + m + z` reaching past position `|q| + j` has `m[j]` there. */
  lemma PrefixCharFromMiddle(q: string, m: string, z: string, t: string, j: int)
    requires StartsWith(q + (m + z), t)
    requires 0 <= j < |m| && |q| + j < |t|
    ensures t[|q| + j] == m[j]
  {
    assert (q + (m + z))[|q| + j] == m[j];
  }

  /** A prefix of `q + ReplaceAll(s, …)` that is a shielded `t` was already a prefix of `q + s`. */
  lemma {:induction false} StartsWithStable(q: string, s: string, pat: string, rep: string, t: string)
    requires |pat| > 0 && Shields(rep, t)
    requires StartsWith(q + ReplaceAll(s, pat, rep), t)
    ensures StartsWith(q + s, t)
    decreases |s|
  {
    if |s| < |pat| {
    } else if s[..|pat|] == pat {
      var rest := ReplaceAll(s[|pat|..], pat, rep);
      var w := q + (rep + rest);
      assert ReplaceAll(s, pat, rep) == rep + rest;
      if |t| <= |q| {
        assert w[..|t|] == q[..|t|];
        assert (q + s)[..|t|] == q[..|t|];
      } else if |t| <= |q| + |rep| {
        PrefixCharFromMiddle(q, rep, rest, t, |t| - 1 - |q|);
        assert false;
      } else {
        var j :| 0 <= j < |rep| && rep[j] !in t;
        PrefixCharFromMiddle(q, rep, rest, t, j);
        assert false;
      }
    } else {
      var rest := ReplaceAll(s[1..], pat, rep);
      assert q + ReplaceAll(s, pat, rep) == (q + [s[0]]) + rest;
      StartsWithStable(q + [s[0]], s[1..], pat, rep, t);
      assert (q + [s[0]]) + s[1..] == q + s;
    }
  }

  /**
    Replacing `pat` by a value that shields `t` creates no new occurrence of `t`; when `t` is the
    pattern itself, none is left at all.
   */
  lemma {:induction false} ReplaceAllNoNew(s: string, pat: string, rep: string, t: string)
    requires |pat| > 0 && Shields(rep, t)
    ensures Occurs(t, ReplaceAll(s, pat, rep)) ==> t != pat && Occurs(t, s)
    decreases |s|
  {
    if Occurs(t, ReplaceAll(s, pat, rep)) {
      if |s| < |pat| {
        if t == pat {
          OccursLonger(t, s);
        }
      } else if s[..|pat|] == pat {
        ReplaceAllNoNew(s[|pat|..], pat, rep, t);
        NoNewAtMatch(s, pat, rep, t);
      } else {
        ReplaceAllNoNew(s[1..], pat, rep, t);
        NoNewPastMismatch(s, pat, rep, t);
      }
    }
  }

  /** The step of `ReplaceAllNoNew` where `s` starts with the pattern. */
  lemma NoNewAtMatch(s: string, pat: string, rep: string, t: string)
    requires |pat| > 0 && Shields(rep, t) && |s| >= |pat| && s[..|pat|] == pat
    requires Occurs(t, ReplaceAll(s, pat, rep))
    requires Occurs(t, ReplaceAll(s[|pat|..], pat, rep)) ==> t != pat && Occurs(t, s[|pat|..])
    ensures t != pat && Occurs(t, s)
  {
    var rest := ReplaceAll(s[|pat|..], pat, rep);
    assert ReplaceAll(s, pat, rep) == rep + rest;
    OccursSkipsPrefix(t, rep, rest);
    OccursInSuffix(t, s, |pat|);
  }

  /** The step of `ReplaceAllNoNew` where `s` does not start with the pattern. */
  lemma NoNewPastMismatch(s: string, pat: string, rep: string, t: string)
    requires |pat| > 0 && Shields(rep, t) && |s| >= |pat| && s[..|pat|] != pat
    requires Occurs(t, ReplaceAll(s, pat, rep))
    requires Occurs(t, ReplaceAll(s[1..], pat, rep)) ==> t != pat && Occurs(t, s[1..])
    ensures t != pat && Occurs(t, s)
  {
    var r, rest := ReplaceAll(s, pat, rep), ReplaceAll(s[1..], pat, rep);
    if StartsWith(r, t) {
      StartsPastMismatch(s, pat, rep, t);
    } else {
      assert r[1..] == rest;
      assert Occurs(t, s[1..]);
    }
  }

  /** A shielded `t` at the start of the replaced text was already at the start of `s`. */
  lemma StartsPastMismatch(s: string, pat: string, rep: string, t: string)
    requires |pat| > 0 && Shields(rep, t) && |s| >= |pat| && s[..|pat|] != pat
    requires StartsWith(ReplaceAll(s, pat, rep), t)
    ensures t != pat && StartsWith(s, t)
  {
    StartsWithStable([s[0]], s[1..], pat, rep, t);
    assert [s[0]] + s[1..] == s;
  }

  /** A string cannot hold a longer string. */
  lemma {:induction false} OccursLonger(t: string, s: string)
    requires |t| > |s|
    ensures !Occurs(t, s)
    decreases |s|
  {
    if |s| > 0 {
      OccursLonger(t, s[1..]);
    }
  }

  /** An occurrence in a suffix is an occurrence in the whole. */
  lemma {:induction false} OccursInSuffix(t: string, s: string, k: nat)
    requires k <= |s| && Occurs(t, s[k..])
    ensures Occurs(t, s)
    decreases k
  {
    if k > 0 {
      assert s[1..][k - 1..] == s[k..];
      OccursInSuffix(t, s[1..], k - 1);
    }
  }

  /** Where the replacement shields the pattern, replacing changes the text exactly when the pattern occurs. */
  lemma ReplaceAllChangesIffOccurs(s: string, pat: string, rep: string)
    requires |pat| > 0 && Shields(rep, pat)
    ensures ReplaceAll(s, pat, rep) == s <==> !Occurs(pat, s)
  {
    ReplaceAllNoNew(s, pat, rep, pat);
  }
}

=== FILE: stripe.dfy ===
/**
  The parts of a Stripe Checkout Session that the storefront's handlers read. Stripe itself is not
  modelled: a session is whatever Stripe hands back, and every field the code reads with `?.` or
  `||` is optional here.
 */
module Stripe {
  import opened Optional

  /**
    The session metadata written at checkout. A session without metadata reads as one whose four
    fields are all absent, which is what `session.metadata || {}` and `session.metadata?.x` give.
   */
  datatype Metadata = Metadata(
    customerName: Option<string>, gender: Option<string>, format: Option<string>, bibleVersion: Option<string>)

  const NoMetadata := Metadata(None, None, None, None)

  /** `shipping_details.address`. */
  datatype PostalAddress = PostalAddress(
    line1: Option<string>, line2: Option<string>, city: Option<string>, state: Option<string>,
    postalCode: Option<string>, country: Option<string>)

  /** `shipping_details`: present only when the session collected an address. */
  datatype ShippingDetails = ShippingDetails(name: Option<string>, address: Option<PostalAddress>)

  /**
    A Checkout Session. `customerPhone` stands for `customer_details?.phone`, absent when either
    part is missing.
   */
  datatype Session = Session(
    id: string,
    customerEmail: Option<string>,
    metadata: Metadata,
    shippingDetails: Option<ShippingDetails>,
    customerPhone: Option<string>,
    amountTotal: Option<int>,
    paymentStatus: string)
}

=== FILE: uri.dfy ===
/**
  `encodeURIComponent` as section 19.2.6.5 of ECMA-262 defines it: the unreserved characters are
  kept, every other character is written as the percent-escaped bytes of its UTF-8 encoding. A
  Dafny `char` is a Unicode scalar value, so a string holding a lone surrogate, for which
  `encodeURIComponent` throws a URIError, cannot be written down here.
 */
module Uri {

  /** The characters `encodeURIComponent` leaves alone: letters, digits and `-_.!~*'()`. */
  predicate Unreserved(c: char) {
    ('A' <= c <= 'Z') || ('a' <= c <= 'z') || ('0' <= c <= '9')
    || c == '-' || c == '_' || c == '.' || c == '!' || c == '~' || c == '*' || c == '\'' || c == '('
    || c == ')'
  }

  /** The UTF-8 encoding of one character, as byte values. */
  function Utf8(c: char): (bs: seq<int>)
    ensures 1 <= |bs| <= 4
    ensures forall i :: 0 <= i < |bs| ==> 0 <= bs[i] < 256
    ensures c as int < 0x80 <==> bs == [c as int]
  {
    var cp := c as int;
    if cp < 0x80 then [cp]
    else if cp < 0x800 then [0xC0 + cp / 64, 0x80 + cp % 64]
    else if cp < 0x10000 then [0xE0 + cp / 4096, 0x80 + (cp / 64) % 64, 0x80 + cp % 64]
    else [0xF0 + cp / 262144, 0x80 + (cp / 4096) % 64, 0x80 + (cp / 64) % 64, 0x80 + cp % 64]
  }

  /** The UTF-8 encoding of a string. */
  function Utf8String(s: string): (bs: seq<int>)
    ensures |s| <= |bs| <= 4 * |s|
    decreases |s|
  {
    if s == [] then [] else Utf8(s[0]) + Utf8String(s[1..])
  }

  /** An upper-case hexadecimal digit. */
  function HexDigit(n: int): (c: char)
    requires 0 <= n < 16
    ensures Unreserved(c)
  {
    if n < 10 then ('0' as int + n) as char else ('A' as int + n - 10) as char
  }

  /** The value of a hexadecimal digit of either case, or `None`-like -1 when it is not one. */
  function HexValue(c: char): (n: int)
    ensures -1 <= n < 16
  {
    if '0' <= c <= '9' then c as int - '0' as int
    else if 'A' <= c <= 'F' then c as int - 'A' as int + 10
    else if 'a' <= c <= 'f' then c as int - 'a' as int + 10
    else -1
  }

  lemma HexRoundTrip(n: int)
    requires 0 <= n < 16
    ensures HexValue(HexDigit(n)) == n
  {
  }

  /** The percent escapes of a sequence of bytes: `%XY` for each. */
  function Escape(bs: seq<int>): (s: string)
    requires forall i :: 0 <= i < |bs| ==> 0 <= bs[i] < 256
    ensures |s| == 3 * |bs|
    decreases |bs|
  {
    if bs == [] then [] else ['%', HexDigit(bs[0] / 16), HexDigit(bs[0] % 16)] + Escape(bs[1..])
  }

  /** `encodeURIComponent` of one character. */
  function EncodeChar(c: char): (s: string)
  {
    if Unreserved(c) then [c] else Escape(Utf8(c))
  }

  /** `encodeURIComponent`. */
  function Encode(s: string): (r: string)
    ensures |s| <= |r|
    decreases |s|
  {
    if s == [] then [] else EncodeChar(s[0]) + Encode(s[1..])
  }

  /** The characters an encoded component can hold: unreserved ones and `%`. */
  predicate Safe(s: string) {
    forall i :: 0 <= i < |s| ==> Unreserved(s[i]) || s[i] == '%'
  }

  lemma {:induction false} EscapeSafe(bs: seq<int>)
    requires forall i :: 0 <= i < |bs| ==> 0 <= bs[i] < 256
    ensures Safe(Escape(bs))
    decreases |bs|
  {
    if bs != [] {
      EscapeSafe(bs[1..]);
      var head := ['%', HexDigit(bs[0] / 16), HexDigit(bs[0] % 16)];
      assert Escape(bs) == head + Escape(bs[1..]);
    }
  }

  /**
    An encoded component holds no `&`, `=`, `#`, `?`, `+`, space or `/`: it stays one query
    parameter value, whatever the name.
   */
  lemma EncodeSafe(s: string)
    ensures Safe(Encode(s))
    ensures forall i :: 0 <= i < |Encode(s)| ==> Encode(s)[i] !in "&=#?+ /"
  {
    EncodeIsSafe(s);
    var e := Encode(s);
    forall i | 0 <= i < |e| ensures e[i] !in "&=#?+ /" {
      SafeCharNoDelimiter(e[i]);
    }
  }

  lemma {:induction false} EncodeIsSafe(s: string)
    ensures Safe(Encode(s))
    decreases |s|
  {
    if s != [] {
      EncodeIsSafe(s[1..]);
      if !Unreserved(s[0]) {
        EscapeSafe(Utf8(s[0]));
      }
      assert Encode(s) == EncodeChar(s[0]) + Encode(s[1..]);
    }
  }

  /** No character an encoded component can hold delimits a query or a path. */
  lemma SafeCharNoDelimiter(c: char)
    requires Unreserved(c) || c == '%'
    ensures c !in "&=#?+ /"
  {
  }

  /** A name made of unreserved characters is its own encoding. */
  lemma {:induction false} EncodeUnreserved(s: string)
    requires forall i :: 0 <= i < |s| ==> Unreserved(s[i])
    ensures Encode(s) == s
    decreases |s|
  {
    if s != [] {
      EncodeUnreserved(s[1..]);
      assert s == [s[0]] + s[1..];
    }
  }

  /**
    Percent-decoding into bytes: `%` with two hexadecimal digits is one byte, any other character
    stands for its own code. A malformed escape yields -1.
   */
  function Decode(s: string): (bs: seq<int>)
    decreases |s|
  {
    if s == [] then []
    else if s[0] == '%' then
      if |s| >= 3 && HexValue(s[1]) >= 0 && HexValue(s[2]) >= 0 then
        [16 * HexValue(s[1]) + HexValue(s[2])] + Decode(s[3..])
      else [-1]
    else [s[0] as int] + Decode(s[1..])
  }

  lemma {:induction false} DecodeEscape(bs: seq<int>, rest: string)
    requires forall i :: 0 <= i < |bs| ==> 0 <= bs[i] < 256
    ensures Decode(Escape(bs) + rest) == bs + Decode(rest)
    decreases |bs|
  {
    if bs != [] {
      var b := bs[0];
      var t := Escape(bs[1..]) + rest;
      assert Escape(bs) + rest == ['%', HexDigit(b / 16), HexDigit(b % 16)] + t;
      DecodeEscapedByte(b, t);
      DecodeEscape(bs[1..], rest);
      assert bs == [b] + bs[1..];
    } else {
      assert Escape(bs) + rest == rest;
    }
  }

  /** One percent escape decodes to the byte it encodes. */
  lemma DecodeEscapedByte(b: int, t: string)
    requires 0 <= b < 256
    ensures Decode(['%', HexDigit(b / 16), HexDigit(b % 16)] + t) == [b] + Decode(t)
  {
    HexRoundTrip(b / 16);
    HexRoundTrip(b % 16);
    var u := ['%', HexDigit(b / 16), HexDigit(b % 16)] + t;
    assert u[0] == '%' && u[1] == HexDigit(b / 16) && u[2] == HexDigit(b % 16) && u[3..] == t;
  }

  /** Decoding an encoded component gives back the UTF-8 bytes of the original string. */
  lemma {:induction false} DecodeEncode(s: string)
    ensures Decode(Encode(s)) == Utf8String(s)
    decreases |s|
  {
    if s != [] {
      var c := s[0];
      DecodeEncode(s[1..]);
      if Unreserved(c) {
        assert Encode(s) == [c] + Encode(s[1..]);
        assert c as int < 0x80;
      } else {
        DecodeEscape(Utf8(c), Encode(s[1..]));
      }
    }
  }
}

=== FILE: verse_text.dfy ===
/**
  The literal text of the three sample verses of constants.tsx, between their placeholders. The
  pieces are kept short so that the verifier can look through them character by character.
 */
module VerseText {
  /** U+2019 as it sits in the file after a mis-decoding: the three characters `\U{E2}\U{20AC}\U{2122}`. */
  const Apostrophe := "\U{E2}\U{20AC}\U{2122}"

  // The verse texts between their placeholders, written in short pieces.
  const Matthew5Before := "\""
  const Matthew5Middle :=
    ", you are the light "
    + "of the world. A "
    + "city set on a hill "
    + "cannot be hidden... "
    + "Let your light "
    + "shine before men, "
  const Matthew5After :=
    ", that they may see "
    + "your good works and "
    + "glorify your Father "
    + "who is in heaven.\""
  const John15Before :=
    "\"Even as the Father "
    + "has loved me, I "
    + "also have loved "
    + "you. Remain in my "
    + "love, "
  const John15After := John15Keep + Apostrophe + John15Remain
  const John15Keep :=
    ". My child, if you "
    + "keep my "
    + "commandments, you "
    + "will remain in my "
    + "love, even as I "
    + "have kept my Father"
  const John15Remain :=
    "s commandments and "
    + "remain in his love.\""
  const Matthew11Before :=
    "\"Come to me, all "
    + "you who labor and "
    + "are heavily "
    + "burdened, and I "
    + "will give you rest. "
    + "Take my yoke upon "
    + "you and learn from "
    + "me, "
  const Matthew11Middle :=
    ", for I am gentle "
    + "and humble in "
    + "heart; and you will "
    + "find rest for your "
    + "soul. "
  const Matthew11After :=
    ", my yoke is easy, "
    + "and my burden is "
    + "light.\""

  // One lemma per piece of text, to keep each search small: a piece is looked through
  // character by character, a constant is the concatenation of its pieces.

  lemma BraceFreeMatthew5Before()
    ensures '{' !in Matthew5Before
  {
  }

  lemma BraceFreeMatthew5MiddlePiece1()
    ensures '{' !in ", you are the light "
  {
  }

  lemma BraceFreeMatthew5MiddlePiece2()
    ensures '{' !in "of the world. A "
  {
  }

  lemma BraceFreeMatthew5MiddlePiece3()
    ensures '{' !in "city set on a hill "
  {
  }

  lemma BraceFreeMatthew5MiddlePiece4()
    ensures '{' !in "cannot be hidden... "
  {
  }

  lemma BraceFreeMatthew5MiddlePiece5()
    ensures '{' !in "Let your light "
  {
  }

  lemma BraceFreeMatthew5MiddlePiece6()
    ensures '{' !in "shine before men, "
  {
  }

  lemma BraceFreeMatthew5Middle()
    ensures '{' !in Matthew5Middle
  {
    BraceFreeMatthew5MiddlePiece1();
    BraceFreeMatthew5MiddlePiece2();
    BraceFreeMatthew5MiddlePiece3();
    BraceFreeMatthew5MiddlePiece4();
    BraceFreeMatthew5MiddlePiece5();
    BraceFreeMatthew5MiddlePiece6();
  }

  lemma BraceFreeMatthew5AfterPiece1()
    ensures '{' !in ", that they may see "
  {
  }

  lemma BraceFreeMatthew5AfterPiece2()
    ensures '{' !in "your good works and "
  {
  }

  lemma BraceFreeMatthew5AfterPiece3()
    ensures '{' !in "glorify your Father "
  {
  }

  lemma BraceFreeMatthew5AfterPiece4()
    ensures '{' !in "who is in heaven.\""
  {
  }

  lemma BraceFreeMatthew5After()
    ensures '{' !in Matthew5After
  {
    BraceFreeMatthew5AfterPiece1();
    BraceFreeMatthew5AfterPiece2();
    BraceFreeMatthew5AfterPiece3();
    BraceFreeMatthew5AfterPiece4();
  }

  lemma BraceFreeJohn15BeforePiece1()
    ensures '{' !in "\"Even as the Father "
  {
  }

  lemma BraceFreeJohn15BeforePiece2()
    ensures '{' !in "has loved me, I "
  {
  }

  lemma BraceFreeJohn15BeforePiece3()
    ensures '{' !in "also have loved "
  {
  }

  lemma BraceFreeJohn15BeforePiece4()
    ensures '{' !in "you. Remain in my "
  {
  }

  lemma BraceFreeJohn15BeforePiece5()
    ensures '{' !in "love, "
  {
  }

  lemma BraceFreeJohn15Before()
    ensures '{' !in John15Before
  {
    BraceFreeJohn15BeforePiece1();
    BraceFreeJohn15BeforePiece2();
    BraceFreeJohn15BeforePiece3();
    BraceFreeJohn15BeforePiece4();
    BraceFreeJohn15BeforePiece5();
  }

  lemma BraceFreeJohn15KeepPiece1()
    ensures '{' !in ". My child, if you "
  {
  }

  lemma BraceFreeJohn15KeepPiece2()
    ensures '{' !in "keep my "
  {
  }

  lemma BraceFreeJohn15KeepPiece3()
    ensures '{' !in "commandments, you "
  {
  }

  lemma BraceFreeJohn15KeepPiece4()
    ensures '{' !in "will remain in my "
  {
  }

  lemma BraceFreeJohn15KeepPiece5()
    ensures '{' !in "love, even as I "
  {
  }

  lemma BraceFreeJohn15KeepPiece6()
    ensures '{' !in "have kept my Father"
  {
  }

  lemma BraceFreeJohn15Keep()
    ensures '{' !in John15Keep
  {
    BraceFreeJohn15KeepPiece1();
    BraceFreeJohn15KeepPiece2();
    BraceFreeJohn15KeepPiece3();
    BraceFreeJohn15KeepPiece4();
    BraceFreeJohn15KeepPiece5();
    BraceFreeJohn15KeepPiece6();
  }

  lemma BraceFreeJohn15RemainPiece1()
    ensures '{' !in "s commandments and "
  {
  }

  lemma BraceFreeJohn15RemainPiece2()
    ensures '{' !in "remain in his love.\""
  {
  }

  lemma BraceFreeJohn15Remain()
    ensures '{' !in John15Remain
  {
    BraceFreeJohn15RemainPiece1();
    BraceFreeJohn15RemainPiece2();
  }

  lemma BraceFreeJohn15After()
    ensures '{' !in John15After
  {
    BraceFreeJohn15Keep();
    BraceFreeJohn15Remain();
    assert '{' !in Apostrophe;
  }

  lemma BraceFreeMatthew11BeforePiece1()
    ensures '{' !in "\"Come to me, all "
  {
  }

  lemma BraceFreeMatthew11BeforePiece2()
    ensures '{' !in "you who labor and "
  {
  }

  lemma BraceFreeMatthew11BeforePiece3()
    ensures '{' !in "are heavily "
  {
  }

  lemma BraceFreeMatthew11BeforePiece4()
    ensures '{' !in "burdened, and I "
  {
  }

  lemma BraceFreeMatthew11BeforePiece5()
    ensures '{' !in "will give you rest. "
  {
  }

  lemma BraceFreeMatthew11BeforePiece6()
    ensures '{' !in "Take my yoke upon "
  {
  }

  lemma BraceFreeMatthew11BeforePiece7()
    ensures '{' !in "you and learn from "
  {
  }

  lemma BraceFreeMatthew11BeforePiece8()
    ensures '{' !in "me, "
  {
  }

  lemma BraceFreeMatthew11Before()
    ensures '{' !in Matthew11Before
  {
    BraceFreeMatthew11BeforePiece1();
    BraceFreeMatthew11BeforePiece2();
    BraceFreeMatthew11BeforePiece3();
    BraceFreeMatthew11BeforePiece4();
    BraceFreeMatthew11BeforePiece5();
    BraceFreeMatthew11BeforePiece6();
    BraceFreeMatthew11BeforePiece7();
    BraceFreeMatthew11BeforePiece8();
  }

  lemma BraceFreeMatthew11MiddlePiece1()
    ensures '{' !in ", for I am gentle "
  {
  }

  lemma BraceFreeMatthew11MiddlePiece2()
    ensures '{' !in "and humble in "
  {
  }

  lemma BraceFreeMatthew11MiddlePiece3()
    ensures '{' !in "heart; and you will "
  {
  }

  lemma BraceFreeMatthew11MiddlePiece4()
    ensures '{' !in "find rest for your "
  {
  }

  lemma BraceFreeMatthew11MiddlePiece5()
    ensures '{' !in "soul. "
  {
  }

  lemma BraceFreeMatthew11Middle()
    ensures '{' !in Matthew11Middle
  {
    BraceFreeMatthew11MiddlePiece1();
    BraceFreeMatthew11MiddlePiece2();
    BraceFreeMatthew11MiddlePiece3();
    BraceFreeMatthew11MiddlePiece4();
    BraceFreeMatthew11MiddlePiece5();
  }

  lemma BraceFreeMatthew11AfterPiece1()
    ensures '{' !in ", my yoke is easy, "
  {
  }

  lemma BraceFreeMatthew11AfterPiece2()
    ensures '{' !in "and my burden is "
  {
  }

  lemma BraceFreeMatthew11AfterPiece3()
    ensures '{' !in "light.\""
  {
  }

  lemma BraceFreeMatthew11After()
    ensures '{' !in Matthew11After
  {
    BraceFreeMatthew11AfterPiece1();
    BraceFreeMatthew11AfterPiece2();
    BraceFreeMatthew11AfterPiece3();
  }

  /** The literal text of Matthew 5:14-16 holds no brace. */
  lemma BraceFreeMatthew5()
    ensures '{' !in Matthew5Before && '{' !in Matthew5Middle && '{' !in Matthew5After
  {
    BraceFreeMatthew5Before();
    BraceFreeMatthew5Middle();
    BraceFreeMatthew5After();
  }

  /** The literal text of John 15:9 holds no brace. */
  lemma BraceFreeJohn15()
    ensures '{' !in John15Before && '{' !in John15After
  {
    BraceFreeJohn15Before();
    BraceFreeJohn15After();
  }

  /** The literal text of Matthew 11:28 holds no brace. */
  lemma BraceFreeMatthew11()
    ensures '{' !in Matthew11Before && '{' !in Matthew11Middle && '{' !in Matthew11After
  {
    BraceFreeMatthew11Before();
    BraceFreeMatthew11Middle();
    BraceFreeMatthew11After();
  }
}

=== FILE: webhook.dfy ===
/**
  The Stripe webhook, api/webhook.ts: a signed event is checked, and a completed checkout is turned
  into a fulfilment request posted to the fulfilment endpoint. Signature checking is Stripe's: the
  handler is given its verdict. The fulfilment endpoint's answer is only logged, so it is not an
  input of the model.
 */
module Webhook {
  import opened Optional
  import opened JsString
  import opened Stripe
  import F = Fulfillment

  /** `STRIPE_SECRET_KEY`, `STRIPE_WEBHOOK_SECRET` and `VERCEL_URL`. */
  datatype Env = Env(stripeSecretKey: Option<string>, webhookSecret: Option<string>, vercelUrl: Option<string>)

  /** A verified event. `session` is `data.object`, read only for a completed checkout. */
  datatype Event = Event(eventType: string, session: Session)

  /** What `constructEvent` makes of the raw body and its signature. */
  datatype Verification = Verified(event: Event) | Rejected(message: string)

  /** The one external effect: posting the fulfilment request. */
  datatype Call = PostFulfillment(url: string, order: F.FulfillRequest)

  datatype Body = Error(error: string) | Received

  datatype Outcome = Outcome(status: int, body: Body, calls: seq<Call>)

  /** `WN-` and the last eight characters of the session id, upper-cased. */
  function OrderId(sessionId: string): (id: string)
    ensures |sessionId| >= 8 ==> id == "WN-" + ToUpper(sessionId[|sessionId| - 8..])
    ensures |sessionId| < 8 ==> id == "WN-" + ToUpper(sessionId)
  {
    "WN-" + ToUpper(SliceLast(sessionId, 8))
  }

  /** `addr?.x`: an address that is not there reads as one without any field. */
  const NoAddress := PostalAddress(None, None, None, None, None, None)

  /**
    The address sent along with a printed book: only when Stripe collected one, with every
    missing part filled in.
   */
  function ShippingAddressFor(s: Session, customerName: string, format: string): (a: Option<F.Address>)
    ensures a.Some? <==> format != "digital" && s.shippingDetails.Some?
    ensures a.Some? ==>
              var d := s.shippingDetails.value;
              var addr := d.address.GetOr(NoAddress);
              && a.value.name == Some(Or(d.name, customerName))
              && a.value.street1 == Some(Or(addr.line1, "")) && a.value.street2 == Some(Or(addr.line2, ""))
              && a.value.city == Some(Or(addr.city, "")) && a.value.state == Some(Or(addr.state, ""))
              && a.value.postalCode == Some(Or(addr.postalCode, ""))
              && a.value.country == Some(Or(addr.country, "US"))
              && a.value.phone == Some(Or(s.customerPhone, ""))
  {
    if format != "digital" && s.shippingDetails.Some? then
      var d := s.shippingDetails.value;
      var addr := d.address.GetOr(NoAddress);
      Some(F.Address(
        Some(Or(d.name, customerName)), Some(Or(addr.line1, "")), Some(Or(addr.line2, "")),
        Some(Or(addr.city, "")), Some(Or(addr.state, "")), Some(Or(addr.postalCode, "")),
        Some(Or(addr.country, "US")), Some(Or(s.customerPhone, ""))))
    else None
  }

  /**
    The address the webhook sends has every field present, and its country is never empty: a
    missing one is the US.
   */
  lemma ShippingCountryNeverEmpty(s: Session, customerName: string, format: string)
    requires ShippingAddressFor(s, customerName, format).Some?
    ensures var a := ShippingAddressFor(s, customerName, format).value;
            && a.name.Some? && a.street1.Some? && a.city.Some? && a.state.Some? && a.postalCode.Some?
            && a.country.Some? && a.country.value != ""
  {
  }

  /**
    The body `triggerFulfillment` posts, or `None` when the session's metadata lacks the customer's
    name or the format, in which case nothing is posted.
   */
  function FulfillmentFor(s: Session): (r: Option<F.FulfillRequest>)
    ensures r.Some? <==> Truthy(s.metadata.customerName) && Truthy(s.metadata.format)
    ensures r.Some? ==>
              var m := s.metadata;
              && r.value.orderId == Some(OrderId(s.id))
              && r.value.customerEmail == s.customerEmail
              && r.value.customerName == m.customerName
              && r.value.personalization ==
                   Some(F.Personalization(m.customerName, Some(Or(m.gender, "neutral")), Some(Or(m.bibleVersion, "web"))))
              && r.value.format == m.format
              && r.value.shippingAddress == ShippingAddressFor(s, m.customerName.value, m.format.value)
  {
    var m := s.metadata;
    if !(Truthy(m.customerName) && Truthy(m.format)) then None
    else
      Some(F.FulfillRequest(
        Some(OrderId(s.id)),
        s.customerEmail,
        m.customerName,
        Some(F.Personalization(m.customerName, Some(Or(m.gender, "neutral")), Some(Or(m.bibleVersion, "web")))),
        m.format,
        ShippingAddressFor(s, m.customerName.value, m.format.value)))
  }

  /** Where the fulfilment request goes. */
  function FulfillmentUrl(env: Env): (u: string)
    ensures Truthy(env.vercelUrl) ==> u == "https://" + env.vercelUrl.value + "/api/fulfill-order"
    ensures !Truthy(env.vercelUrl) ==> u == "https://calledbyname.vercel.app/api/fulfill-order"
  {
    (if Truthy(env.vercelUrl) then "https://" + env.vercelUrl.value else "https://calledbyname.vercel.app")
      + "/api/fulfill-order"
  }

  /** The handler. Everything it does after the signature check ends in 200 `{received: true}`. */
  function Handle(httpMethod: string, env: Env, verification: Verification): (o: Outcome)
    ensures o.status == 405 <==> httpMethod != "POST"
    ensures o.status == 405 ==> o.body == Error("Method not allowed")
    ensures o.status == 500 <==> httpMethod == "POST" && !(Truthy(env.stripeSecretKey) && Truthy(env.webhookSecret))
    ensures o.status == 500 ==> o.body == Error("Webhook not configured")
    ensures o.status == 400 <==>
              httpMethod == "POST" && Truthy(env.stripeSecretKey) && Truthy(env.webhookSecret) && verification.Rejected?
    ensures o.status == 400 ==> o.body == Error("Webhook Error: " + verification.message)
    ensures o.status == 200 <==>
              httpMethod == "POST" && Truthy(env.stripeSecretKey) && Truthy(env.webhookSecret) && verification.Verified?
    ensures o.status == 200 ==> o.body == Received
    ensures o.calls != [] <==>
              o.status == 200 && verification.event.eventType == "checkout.session.completed"
              && FulfillmentFor(verification.event.session).Some?
    ensures o.calls != [] ==>
              o.calls == [PostFulfillment(FulfillmentUrl(env), FulfillmentFor(verification.event.session).value)]
  {
    if httpMethod != "POST" then Outcome(405, Error("Method not allowed"), [])
    else if !(Truthy(env.stripeSecretKey) && Truthy(env.webhookSecret)) then
      Outcome(500, Error("Webhook not configured"), [])
    else
      match verification
      case Rejected(message) => Outcome(400, Error("Webhook Error: " + message), [])
      case Verified(event) =>
        if event.eventType == "checkout.session.completed" then
          match FulfillmentFor(event.session)
          case None => Outcome(200, Received, [])
          case Some(order) => Outcome(200, Received, [PostFulfillment(FulfillmentUrl(env), order)])
        else Outcome(200, Received, [])
  }

  /** An event whose signature fails is refused and never reaches fulfilment. */
  lemma RejectedNeverFulfils(httpMethod: string, env: Env, message: string)
    ensures Handle(httpMethod, env, Rejected(message)).calls == []
    ensures Handle(httpMethod, env, Rejected(message)).status != 200
  {
  }

  /** Only a completed checkout is fulfilled; every other verified event is acknowledged and dropped. */
  lemma OtherEventsAcknowledged(env: Env, e: Event)
    requires Truthy(env.stripeSecretKey) && Truthy(env.webhookSecret)
    requires e.eventType != "checkout.session.completed"
    ensures Handle("POST", env, Verified(e)) == Outcome(200, Received, [])
  {
  }
}
